=== FILE: README.md ===
# epidemes core, modelled in Dafny

This project models the core of **epidemes** (the `episim` packages), an
agent-based simulator of vaccine-preventable disease outbreaks in the
Netherlands. It covers the following parts:

- **Vaccine hesitancy.** The 3C attitude (confidence, complacency, calculation) of an individual:
  - the barrier and weight functions;
  - the two weighted averagers, which keep the latest position observed from each source and average them with the owner's default;
  - the household attitude evaluators.
- **The MSEIRS compartment model.** Its compartments, its transitions and the default course of an infection.
- **Households.**
  - The CBS household compositions and their moves (a partner or a child joins or leaves).
  - The positions of the members within a household.
  - Geard's household and demographic event.
- **The RVP schedule.** The doses of the national measles (BMR) vaccination schedule, kept as bits of a vaccination status.
- **The CBS region data.**
  - Region types parsed from region codes.
  - The municipality–region table.
  - The history of municipal re-divisions.
- **Output of the demo model.** The CSV header and the region log it writes.
- **The social and household connectors.** Their symmetric weight matrices.
- **The generic stores.** The observable store, the option picker and the bounded-range helpers `Range` and `Extreme`.

One Dafny module models each core source file. Five modules are shared:

- `Wrappers` holds `Option` and `Result`. A thrown exception is modelled as an `Err` that names its class.
- `JavaStrings` holds `String.split`, `String.join`, `trim`, lexicographic order and `Integer.valueOf`.
- `JavaCollections` holds `Collection.add` and `Collection.remove` on a set-like (hash set) or list-like (array list) backing collection.
- `WeightedMean` holds the weighted mean that both averagers compute, with its bounds.
- `SparseMatrix` holds the weight matrix the two connectors share.

Other modelling choices:

- `BigDecimal` and other `Number` values are exact `real`s.
- A UJMP sparse matrix is a class over a map from coordinates to weights. An absent cell reads as zero.
- Objects whose fields the Java code updates in place are Dafny classes with `modifies` clauses. These are:
  - the averagers, the observable store, the option picker, the household, the demographic event builder and the region counts of the demo log;
  - the RVP schedule, with its cached decision age range.
- Loops in the Java code are methods with loop invariants, proved against a specification function. Examples are the averagers' sums, `Store.addAll`, the prefix search of `CBSRegionType.parse` and the expansion loop of the region history.

## Model

| member | source | states |
|---|---|---|
| VaxHesitancyCore.Opposite | java/epidemes-core/src/main/java/nl/rivm/cib/epidemes/model/VaxHesitancy.java:283-286 | opposite(x) is 1 - x |
| VaxHesitancyCore.OppositeInvolution | java/epidemes-core/src/main/java/nl/rivm/cib/epidemes/model/VaxHesitancy.java:283-286 | opposite is an involution |
| VaxHesitancyCore.ThresholdAppreciation | java/epidemes-core/src/main/java/nl/rivm/cib/epidemes/model/VaxHesitancy.java:128-133 | the appreciation is 0 below 1 - calculation and unchanged from there on, so it is 0 or the appreciation |
| VaxHesitancyCore.ThresholdAppreciationMonotone | java/epidemes-core/src/main/java/nl/rivm/cib/epidemes/model/VaxHesitancy.java:128-133 | a higher calculation level lowers the threshold, so it never lowers a non-negative appreciation's weight |
| VaxHesitancyCore.ThresholdAppreciationUpward | java/epidemes-core/src/main/java/nl/rivm/cib/epidemes/model/VaxHesitancy.java:128-133 | once a non-zero appreciation counts at a level, every higher appreciation counts in full at that level |
| VaxHesitancyCore.ThresholdAppreciationIncreasing | java/epidemes-core/src/main/java/nl/rivm/cib/epidemes/model/VaxHesitancy.java:128-133 | for non-negative appreciations the weight never decreases as the appreciation grows |
| VaxHesitancyCore.IsPositive | java/epidemes-core/src/main/java/nl/rivm/cib/epidemes/model/VaxHesitancy.java:62-65 | positive exactly when confidence exceeds complacency, that is when the difference barrier is below 0 and the average barrier below 1/2 |
| VaxHesitancyCore.ShiftedAppreciation | java/epidemes-core/src/main/java/nl/rivm/cib/epidemes/model/VaxHesitancy.java:177-182 | max(0, appreciation - 1/2 + calculation); never negative |
| VaxHesitancyCore.ShiftedAppreciationTable | java/epidemes-core/src/main/java/nl/rivm/cib/epidemes/model/VaxHesitancy.java:144-175 | the documented table of weights for appreciation and calculation in {0, 1/2, 1} |
| VaxHesitancyCore.ShiftedAppreciationMonotone | java/epidemes-core/src/main/java/nl/rivm/cib/epidemes/model/VaxHesitancy.java:177-182 | more appreciation or calculation never lowers the weight |
| VaxHesitancyCore.AverageBarrier | java/epidemes-core/src/main/java/nl/rivm/cib/epidemes/model/VaxHesitancy.java:193-198 | 1/2 - (confidence - complacency)/2; it is 1/2 at equal attitudes and stays within [0, 1] for attitudes in [0, 1] |
| VaxHesitancyCore.DifferenceBarrier | java/epidemes-core/src/main/java/nl/rivm/cib/epidemes/model/VaxHesitancy.java:249-253 | complacency - confidence |
| VaxHesitancyCore.DifferenceBarrierAntisymmetric | java/epidemes-core/src/main/java/nl/rivm/cib/epidemes/model/VaxHesitancy.java:249-253 | swapping the attitudes negates the barrier |
| VaxHesitancyCore.AverageIsRescaledDifference | java/epidemes-core/src/main/java/nl/rivm/cib/epidemes/model/VaxHesitancy.java:193-198 | the average barrier is the difference barrier mapped from [-1, 1] onto [0, 1] |
| VaxHesitancyCore.BarriersOrderAlike | java/epidemes-core/src/main/java/nl/rivm/cib/epidemes/model/VaxHesitancy.java:249-253 | both barriers rank two attitudes alike |
| VaxHesitancyCore.MinimumConvenience | java/epidemes-core/src/main/java/nl/rivm/cib/epidemes/model/VaxHesitancy.java:264-268 | at most each of the four occasion factors, and equal to one of them |
| VaxHesitancyCore.MinimumConvenienceAtLeast | java/epidemes-core/src/main/java/nl/rivm/cib/epidemes/model/VaxHesitancy.java:264-268 | the convenience reaches a level iff every factor does |
| VaxHesitancyModel.IndexFor | java/episim-model/src/main/java/nl/rivm/cib/episim/model/vaccine/attitude/VaxHesitancy.java:294-306 | a row is accepted iff it fits the appreciation rows, the appreciation columns and the position rows; otherwise IndexOutOfBounds |
| VaxHesitancyModel.Of | java/episim-model/src/main/java/nl/rivm/cib/episim/model/vaccine/attitude/VaxHesitancy.java:271-287 | IllegalArgument iff the appreciation columns differ from the position rows or the positions lack a determinant column; otherwise the owner's row check |
| VaxHesitancyModel.Apply | java/episim-model/src/main/java/nl/rivm/cib/episim/model/vaccine/attitude/VaxHesitancy.java:396-428 | more than three dimensions throws UnsupportedOperation and changes nothing; otherwise every cell becomes f of its old value |
| VaxHesitancyModel.ApplyVector | java/episim-model/src/main/java/nl/rivm/cib/episim/model/vaccine/attitude/VaxHesitancy.java:403-408 | every cell of a vector becomes f of its old value |
| VaxHesitancyModel.ApplyTable | java/episim-model/src/main/java/nl/rivm/cib/episim/model/vaccine/attitude/VaxHesitancy.java:409-415 | every cell of a table becomes f of its old value, row by row from the last |
| VaxHesitancyModel.ApplyCube | java/episim-model/src/main/java/nl/rivm/cib/episim/model/vaccine/attitude/VaxHesitancy.java:416-425 | every cell of a three-dimensional matrix becomes f of its old value |
| VaxHesitancyModel.ApplyCubeRow | java/episim-model/src/main/java/nl/rivm/cib/episim/model/vaccine/attitude/VaxHesitancy.java:409-425 | one row of a three-dimensional matrix is rewritten and the other rows are untouched |
| VaxHesitancyModel.AddScaled | java/episim-model/src/main/java/nl/rivm/cib/episim/model/vaccine/attitude/VaxHesitancy.java:568-578 | weightedAddition: each sum grows by the position's coordinate times the weight; a zero weight adds nothing |
| VaxHesitancyModel.SumObserved | java/episim-model/src/main/java/nl/rivm/cib/episim/model/vaccine/attitude/VaxHesitancy.java:592-598 | the loop over the observed positions returns the total weight and the weighted sums |
| VaxHesitancyModel.ObservedStep | java/episim-model/src/main/java/nl/rivm/cib/episim/model/vaccine/attitude/VaxHesitancy.java:592-598 | visiting one more source adds its weight and its weighted coordinates |
| VaxHesitancyModel.ObservedSums | java/episim-model/src/main/java/nl/rivm/cib/episim/model/vaccine/attitude/VaxHesitancy.java:592-598 | the accumulated sums equal the weighted sums of the default and every observed position |
| VaxHesitancyModel.Average | java/episim-model/src/main/java/nl/rivm/cib/episim/model/vaccine/attitude/VaxHesitancy.java:600-606 | the mean of the default and the observed positions under their weights |
| VaxHesitancyModel.WeightedAverager.AppreciationWeight | java/episim-model/src/main/java/nl/rivm/cib/episim/model/vaccine/attitude/VaxHesitancy.java:209-213 | the appreciation shifted by calculation - 1/2 and floored at 0 |
| VaxHesitancyModel.WeightedAverager.constructor | java/episim-model/src/main/java/nl/rivm/cib/episim/model/vaccine/attitude/VaxHesitancy.java:483-495 | the default position is (confidence, complacency); nothing is observed and nothing is cached |
| VaxHesitancyModel.WeightedAverager.SetCalculation | java/episim-model/src/main/java/nl/rivm/cib/episim/model/vaccine/attitude/VaxHesitancy.java:504-509 | the calculation is replaced, the observations are kept, the cache is dropped |
| VaxHesitancyModel.WeightedAverager.Observe | java/episim-model/src/main/java/nl/rivm/cib/episim/model/vaccine/attitude/VaxHesitancy.java:518-523 | the source's latest position replaces any earlier one; the cache is dropped |
| VaxHesitancyModel.WeightedAverager.ObserveRisk | java/episim-model/src/main/java/nl/rivm/cib/episim/model/vaccine/attitude/VaxHesitancy.java:154-160 | observing risks stores (1 - vaccine risk, 1 - disease risk) |
| VaxHesitancyModel.WeightedAverager.MyPosition | java/episim-model/src/main/java/nl/rivm/cib/episim/model/vaccine/attitude/VaxHesitancy.java:585-609 | returns the weighted mean of the default and the observed positions, and caches it |
| VaxHesitancyModel.WeightedAverager.GetConfidence | java/episim-model/src/main/java/nl/rivm/cib/episim/model/vaccine/attitude/VaxHesitancy.java:545-548 | the confidence coordinate of the current position |
| VaxHesitancyModel.WeightedAverager.GetComplacency | java/episim-model/src/main/java/nl/rivm/cib/episim/model/vaccine/attitude/VaxHesitancy.java:538-541 | the complacency coordinate of the current position |
| VaxHesitancyModel.WeightedAverager.IsPositive | java/episim-model/src/main/java/nl/rivm/cib/episim/model/vaccine/attitude/VaxHesitancy.java:618-622 | true iff confidence - complacency exceeds the occasion's convenience |
| VaxHesitancyModel.WeightedAverager.CurrentWithinUnit | java/episim-model/src/main/java/nl/rivm/cib/episim/model/vaccine/attitude/VaxHesitancy.java:585-609 | positions within [0, 1] average to a position within [0, 1] |
| VaxHesitancyModel.WeightedAverager.CurrentWithoutWeight | java/episim-model/src/main/java/nl/rivm/cib/episim/model/vaccine/attitude/VaxHesitancy.java:603-604 | with every weight zero the position is the default |
| VaxHesitancyModel.DefaultAppreciatorWeighsAll | java/episim-model/src/main/java/nl/rivm/cib/episim/model/vaccine/attitude/VaxHesitancy.java:443-448 | the default appreciator weighs every source at 1/2 + calculation, so every source counts once calculation is at least 0 |
| VaxHesitancyModel.DefaultAppreciator | java/episim-model/src/main/java/nl/rivm/cib/episim/model/vaccine/attitude/VaxHesitancy.java:443-448 | every source, the owner included, is appreciated at 1 |
| VaxHesitancyModel.DefaultEvaluator | java/episim-model/src/main/java/nl/rivm/cib/episim/model/vaccine/attitude/VaxHesitancy.java:450-457 | an occasion is judged by its least favourable factor: at most each of the four and equal to one of them |
| WeightedMean.MeanWithin | java/episim-model/src/main/java/nl/rivm/cib/episim/model/vaccine/attitude/VaxHesitancy.java:600-606 | a weighted mean of coordinates within [lo, hi] lies within [lo, hi] |
| WeightedMean.MeanOfZeroWeights | java/episim-model/src/main/java/nl/rivm/cib/episim/model/vaccine/attitude/VaxHesitancy.java:603-604 | a zero total weight leaves the default |
| WeightedMean.MeanOfAgreeingPositions | java/episim-model/src/main/java/nl/rivm/cib/episim/model/vaccine/attitude/VaxHesitant.java:364-369 | when every weighted position equals the default, the mean is the default |
| WeightedMean.MeanOfSums | java/episim-model/src/main/java/nl/rivm/cib/episim/model/vaccine/attitude/VaxHesitancy.java:592-606 | the mean is the accumulated weighted sums over the accumulated weight |
| VaxHesitant.Convenience | java/episim-model/src/main/java/nl/rivm/cib/episim/model/vaccine/attitude/VaxHesitant.java:72-76 | at most each occasion factor, and equal to one of them |
| VaxHesitant.AppreciationWeight | java/episim-model/src/main/java/nl/rivm/cib/episim/model/vaccine/attitude/VaxHesitant.java:142-148 | the appreciation - 1/2 + calculation, floored at 0, and never negative |
| VaxHesitant.ToPosition | java/episim-model/src/main/java/nl/rivm/cib/episim/model/vaccine/attitude/VaxHesitant.java:309-317 | the position is (1 - vaccine risk, 1 - disease risk) |
| VaxHesitant.ToPositionWithinUnit | java/episim-model/src/main/java/nl/rivm/cib/episim/model/vaccine/attitude/VaxHesitant.java:309-317 | risks within [0, 1] give a position within [0, 1] |
| VaxHesitant.WeightedAverager.Weight | java/episim-model/src/main/java/nl/rivm/cib/episim/model/vaccine/attitude/VaxHesitant.java:142-148 | the owner's or a source's weight at the current calculation level is never negative |
| VaxHesitant.WeightedAverager.constructor | java/episim-model/src/main/java/nl/rivm/cib/episim/model/vaccine/attitude/VaxHesitant.java:243-254 | the default position comes from the owner's risks, with no observations and no cache |
| VaxHesitant.WeightedAverager.Uniform | java/episim-model/src/main/java/nl/rivm/cib/episim/model/vaccine/attitude/VaxHesitant.java:235-241 | the same with every reputation one |
| VaxHesitant.WeightedAverager.SetCalculation | java/episim-model/src/main/java/nl/rivm/cib/episim/model/vaccine/attitude/VaxHesitant.java:261-266 | the calculation is replaced and the cache is dropped |
| VaxHesitant.WeightedAverager.Observe | java/episim-model/src/main/java/nl/rivm/cib/episim/model/vaccine/attitude/VaxHesitant.java:275-283 | the owner as source throws IllegalArgument and changes nothing; otherwise the source's latest risks replace any earlier ones and the cache is dropped |
| VaxHesitant.WeightedAverager.MyPosition | java/episim-model/src/main/java/nl/rivm/cib/episim/model/vaccine/attitude/VaxHesitant.java:347-371 | the weighted mean of the default and the observed positions, cached |
| VaxHesitant.WeightedAverager.GetConfidence | java/episim-model/src/main/java/nl/rivm/cib/episim/model/vaccine/attitude/VaxHesitant.java:304-307 | the confidence coordinate of the current position |
| VaxHesitant.WeightedAverager.GetComplacency | java/episim-model/src/main/java/nl/rivm/cib/episim/model/vaccine/attitude/VaxHesitant.java:297-300 | the complacency coordinate of the current position |
| VaxHesitant.WeightedAverager.CurrentWithinUnit | java/episim-model/src/main/java/nl/rivm/cib/episim/model/vaccine/attitude/VaxHesitant.java:347-371 | risks within [0, 1] give a position within [0, 1] |
| VaxHesitant.WeightedAverager.CurrentWithoutWeight | java/episim-model/src/main/java/nl/rivm/cib/episim/model/vaccine/attitude/VaxHesitant.java:365-366 | with every weight zero the position is the default |
| VaxHesitant.WeightedAverager.CurrentOfLikeMinded | java/episim-model/src/main/java/nl/rivm/cib/episim/model/vaccine/attitude/VaxHesitant.java:347-371 | when every observed individual perceives the owner's own risks, the position is the default |
| HHAttitudeEvaluator.IsPositive | java/episim-demo/src/main/java/nl/rivm/cib/pilot/hh/HHAttitudeEvaluator.java:76-115 | without an occasion, positive iff confidence > complacency; with one, iff the minimum convenience reaches the evaluator's barrier |
| HHAttitudeEvaluator.PositiveIffEveryFactor | java/episim-demo/src/main/java/nl/rivm/cib/pilot/hh/HHAttitudeEvaluator.java:89-93 | with an occasion, positive iff every factor reaches the barrier |
| HHAttitudeEvaluator.PositiveMonotone | java/episim-demo/src/main/java/nl/rivm/cib/pilot/hh/HHAttitudeEvaluator.java:89-93 | more confidence and less complacency never turn a positive household negative |
| HHAttitudeEvaluator.NeutralConvenience | java/episim-demo/src/main/java/nl/rivm/cib/pilot/hh/HHAttitudeEvaluator.java:89-114 | at convenience 1/2 (average) or 0 (difference), positive iff confidence is at least complacency |
| HHAttitudeEvaluator.FullConvenienceAccepted | java/episim-demo/src/main/java/nl/rivm/cib/pilot/hh/HHAttitudeEvaluator.java:89-93 | with attitudes in [0, 1], a fully convenient occasion is accepted by the average evaluator |
| HHAttitudeEvaluator.Indices | java/episim-demo/src/main/java/nl/rivm/cib/pilot/hh/HHAttitudeEvaluator.java:65-66 | the row indices 0 .. n - 1 in order |
| HHAttitudeEvaluator.Candidates | java/episim-demo/src/main/java/nl/rivm/cib/pilot/hh/HHAttitudeEvaluator.java:65-67 | a missing or empty filter means every row; otherwise the filter itself |
| HHAttitudeEvaluator.Select | java/episim-demo/src/main/java/nl/rivm/cib/pilot/hh/HHAttitudeEvaluator.java:68-71 | never more rows than candidates; SelectMembers and SelectAppend say which rows and in what order |
| HHAttitudeEvaluator.Positives | java/episim-demo/src/main/java/nl/rivm/cib/pilot/hh/HHAttitudeEvaluator.java:62-71 | IndexOutOfBounds iff a candidate lies outside the rows; otherwise exactly the candidates, in order, whose occasion is accepted |
| HHAttitudeEvaluator.PositivesUnfiltered | java/episim-demo/src/main/java/nl/rivm/cib/pilot/hh/HHAttitudeEvaluator.java:62-71 | without a filter, exactly the accepted row indices, in order |
| HHAttitudeEvaluator.SelectMembers | java/episim-demo/src/main/java/nl/rivm/cib/pilot/hh/HHAttitudeEvaluator.java:68-71 | a row is selected iff it is a candidate that is kept |
| HHAttitudeEvaluator.SelectAppend | java/episim-demo/src/main/java/nl/rivm/cib/pilot/hh/HHAttitudeEvaluator.java:68-71 | the filter keeps input order: selecting from two runs is selecting from each in turn |
| HHAttitudeEvaluator.SelectSingle | java/episim-demo/src/main/java/nl/rivm/cib/pilot/hh/HHAttitudeEvaluator.java:68-71 | a single candidate is kept alone or dropped |
| HHAttitudeEvaluator.PositivesIncreasing | java/episim-demo/src/main/java/nl/rivm/cib/pilot/hh/HHAttitudeEvaluator.java:65-71 | over the first n rows the selection is strictly increasing and stays below n |
| Mseirs.InfectiveNotSusceptible | java/episim-model/src/main/java/nl/rivm/cib/episim/model/disease/infection/MSEIRS.java:163-207 | no compartment is both infective and susceptible |
| Mseirs.IsInfective | java/episim-model/src/main/java/nl/rivm/cib/episim/model/disease/infection/MSEIRS.java:163-240 | infective exactly for the outcome of the latency period, the infective compartment |
| Mseirs.IsSusceptible | java/episim-model/src/main/java/nl/rivm/cib/episim/model/disease/infection/MSEIRS.java:163-240 | susceptible exactly for the susceptible compartment and the outcomes of the waning transitions |
| Mseirs.Outcome | java/episim-model/src/main/java/nl/rivm/cib/episim/model/disease/infection/MSEIRS.java:339-342 | no transition leads to passive immunity or to the plain susceptible compartment; exactly the waning transitions lead to dormancy |
| Mseirs.Successor | java/episim-model/src/main/java/nl/rivm/cib/episim/model/disease/infection/MSEIRS.java:505-513 | the default transition after a transition leads to another compartment than the transition did, and after infection to recovery |
| Mseirs.DefaultTransition | java/episim-model/src/main/java/nl/rivm/cib/episim/model/disease/infection/MSEIRS.java:414-438 | the default transition never leads back to the compartment itself; a susceptible compartment moves to exposed or vaccinated, an infective one to recovered |
| Mseirs.InfectionCycle | java/episim-model/src/main/java/nl/rivm/cib/episim/model/disease/infection/MSEIRS.java:414-438 | from susceptibility the default course is E, I, R, dormant and back to susceptibility |
| Mseirs.AllReachSusceptibility | java/episim-model/src/main/java/nl/rivm/cib/episim/model/disease/infection/MSEIRS.java:414-438 | every transition reaches susceptibility within four default steps |
| Mseirs.CompartmentJson | java/episim-model/src/main/java/nl/rivm/cib/episim/model/disease/infection/MSEIRS.java:243-247 | the JSON form is the first letter of the name |
| Mseirs.CompartmentJsonInjective | java/episim-model/src/main/java/nl/rivm/cib/episim/model/disease/infection/MSEIRS.java:243-247 | distinct compartments have distinct JSON forms |
| Mseirs.LowerDashed | java/episim-model/src/main/java/nl/rivm/cib/episim/model/disease/infection/MSEIRS.java:345-350 | same length; '_' becomes '-'; upper-case ASCII becomes lower case, independent of locale |
| Mseirs.TransitionJson | java/episim-model/src/main/java/nl/rivm/cib/episim/model/disease/infection/MSEIRS.java:345-350 | the lower-case dashed name followed by "-period" |
| Mseirs.TransitionJsonInjective | java/episim-model/src/main/java/nl/rivm/cib/episim/model/disease/infection/MSEIRS.java:345-350 | distinct transitions have distinct JSON forms |
| HesitantLevel.ValueOf | java/episim-demo/src/main/java/nl/rivm/cib/episim/hesitant/HesitantScenario.java:88-94 | LO iff d <= 0.25, MID iff 0.25 < d < 0.75, HI iff d >= 0.75 |
| HesitantLevel.Invert | java/episim-demo/src/main/java/nl/rivm/cib/episim/hesitant/HesitantScenario.java:96-99 | the mirrored ordinal: the two ordinals sum to the largest one |
| HesitantLevel.ToNumber | java/episim-demo/src/main/java/nl/rivm/cib/episim/hesitant/HesitantScenario.java:101-110 | the ordinal over the largest ordinal, within [0, 1] |
| HesitantLevel.InvertInvolution | java/episim-demo/src/main/java/nl/rivm/cib/episim/hesitant/HesitantScenario.java:96-99 | invert swaps LO and HI, fixes MID and is an involution |
| HesitantLevel.ValueOfToNumber | java/episim-demo/src/main/java/nl/rivm/cib/episim/hesitant/HesitantScenario.java:88-110 | valueOf(toNumber(l)) == l |
| HesitantLevel.ToNumberInvert | java/episim-demo/src/main/java/nl/rivm/cib/episim/hesitant/HesitantScenario.java:96-110 | inverting a level mirrors its number |
| HesitantLevel.InversionSymmetry | java/episim-demo/src/main/java/nl/rivm/cib/episim/hesitant/HesitantScenario.java:64-72 | valueOf(1 - d) == valueOf(d).invert() |
| CbsHousehold.Size | java/epidemes-core/src/main/java/nl/rivm/cib/epidemes/data/cbs/CBSHousehold.java:158-162 | adults plus children; between 1 and 5 for a non-aggregate composition; 0 only for TOTAL and OTHER |
| CbsHousehold.PlusAdult | java/epidemes-core/src/main/java/nl/rivm/cib/epidemes/data/cbs/CBSHousehold.java:197-216 | defined exactly for the single-adult compositions, giving an unregistered couple; IllegalState otherwise |
| CbsHousehold.MinusAdult | java/epidemes-core/src/main/java/nl/rivm/cib/epidemes/data/cbs/CBSHousehold.java:220-244 | defined exactly for the couples, giving a single adult; IllegalState otherwise |
| CbsHousehold.PlusChild | java/epidemes-core/src/main/java/nl/rivm/cib/epidemes/data/cbs/CBSHousehold.java:248-286 | defined for the non-aggregate compositions with adults and for POLY_NOKIDS; keeps the adults and the registration |
| CbsHousehold.MinusChild | java/epidemes-core/src/main/java/nl/rivm/cib/epidemes/data/cbs/CBSHousehold.java:290-330 | defined exactly when there are adults and children; keeps the adults and the registration; IllegalState otherwise |
| CbsHousehold.MinusChildAfterPlusChild | java/epidemes-core/src/main/java/nl/rivm/cib/epidemes/data/cbs/CBSHousehold.java:247-332 | removing the child just added restores the composition, below three children |
| CbsHousehold.PlusChildAfterMinusChild | java/epidemes-core/src/main/java/nl/rivm/cib/epidemes/data/cbs/CBSHousehold.java:247-332 | adding back a removed child restores the composition |
| CbsHousehold.PlusChildSaturates | java/epidemes-core/src/main/java/nl/rivm/cib/epidemes/data/cbs/CBSHousehold.java:256-276 | 2KIDS and 3PLUSKIDS both go to the family's 3PLUSKIDS |
| CbsHousehold.MinusAdultAfterPlusAdult | java/epidemes-core/src/main/java/nl/rivm/cib/epidemes/data/cbs/CBSHousehold.java:197-245 | a partner joining and leaving restores a single-adult household |
| CbsHousehold.PlusAdultAfterMinusAdult | java/epidemes-core/src/main/java/nl/rivm/cib/epidemes/data/cbs/CBSHousehold.java:197-245 | a partner leaving and rejoining gives the unregistered couple with the same children |
| CbsHousehold.SizeSteps | java/epidemes-core/src/main/java/nl/rivm/cib/epidemes/data/cbs/CBSHousehold.java:197-332 | each successful move changes the size by one person, below three children |
| Persons.Ordinal | java/episim-demo/src/main/java/nl/rivm/cib/demo/Persons.java:37 | declaration order of the positions |
| Persons.IsAdult | java/episim-demo/src/main/java/nl/rivm/cib/demo/Persons.java:39-42 | adult iff REFERENT or PARTNER |
| Persons.OfChildIndex | java/episim-demo/src/main/java/nl/rivm/cib/demo/Persons.java:44-47 | CHILD1..3 for ranks 0..2, CHILDMORE from 3, the adults for -1 and -2, and ArrayIndexOutOfBounds below |
| Persons.ShiftAsWritten | java/episim-demo/src/main/java/nl/rivm/cib/demo/Persons.java:53-58 | the shift as written never raises an ordinal and lowers it by at most one |
| Persons.ShiftAsWrittenPromotesChild | java/episim-demo/src/main/java/nl/rivm/cib/demo/Persons.java:56-57 | when the partner leaves, CHILD1 becomes PARTNER |
| Persons.Shift | java/episim-demo/src/main/java/nl/rivm/cib/demo/Persons.java:53-58 | the corrected shift: never raises an ordinal, and children move up only behind a departed child |
| Persons.ShiftKeepsAdulthood | java/episim-demo/src/main/java/nl/rivm/cib/demo/Persons.java:53-58 | a shift never turns a child into an adult or an adult into a child |
| Persons.ShiftInjective | java/episim-demo/src/main/java/nl/rivm/cib/demo/Persons.java:53-58 | two remaining members keep distinct positions |
| Persons.ShiftAgreesAsWritten | java/episim-demo/src/main/java/nl/rivm/cib/demo/Persons.java:53-58 | both shifts agree except when the partner leaves |
| Range.Make | java/episim-api/src/main/java/nl/rivm/cib/episim/math/Range.java:23-35 | a minimum above the maximum is refused; otherwise the range holds the bounds given |
| Range.IsGreaterThan | java/episim-api/src/main/java/nl/rivm/cib/episim/math/Range.java:62-67 | false for a missing minimum; otherwise v < min, or v == min with an exclusive minimum; a missing inclusiveness throws |
| Range.IsLessThan | java/episim-api/src/main/java/nl/rivm/cib/episim/math/Range.java:74-79 | the mirror image for the maximum |
| Range.Contains | java/episim-api/src/main/java/nl/rivm/cib/episim/math/Range.java:85-88 | true iff neither isGreaterThan nor isLessThan holds |
| Range.Of | java/episim-api/src/main/java/nl/rivm/cib/episim/math/Range.java:94-97 | always succeeds, with a well-formed range; OfContainsExactly gives its contents |
| Range.OfBounds | java/episim-api/src/main/java/nl/rivm/cib/episim/math/Range.java:104-108 | refused iff the maximum is below the minimum; otherwise a well-formed range |
| Range.OfContainsExactly | java/episim-api/src/main/java/nl/rivm/cib/episim/math/Range.java:94-97 | of(x) contains exactly x, and of(null) every value |
| Range.OfBoundsInclusive | java/episim-api/src/main/java/nl/rivm/cib/episim/math/Range.java:104-108 | of(min, max) contains exactly the values between min and max, both included |
| Extreme.InclusivenessOf | java/episim-api/src/main/java/nl/rivm/cib/episim/math/Extreme.java:21-24 | null to null, true to INCLUSIVE, false to EXCLUSIVE |
| Extreme.CompareReals | java/episim-api/src/main/java/nl/rivm/cib/episim/math/Extreme.java:141-142 | LESS, EQUIVALENT or GREATER as the values compare |
| Extreme.Make | java/episim-api/src/main/java/nl/rivm/cib/episim/math/Extreme.java:67-73 | an infinite extreme has no inclusiveness |
| Extreme.NegativeInfinity | java/episim-api/src/main/java/nl/rivm/cib/episim/math/Extreme.java:152-155 | an infinite LOWER extreme |
| Extreme.PositiveInfinity | java/episim-api/src/main/java/nl/rivm/cib/episim/math/Extreme.java:157-160 | an infinite UPPER extreme |
| Extreme.Lower | java/episim-api/src/main/java/nl/rivm/cib/episim/math/Extreme.java:162-167 | a LOWER extreme with the given value and inclusiveness |
| Extreme.Upper | java/episim-api/src/main/java/nl/rivm/cib/episim/math/Extreme.java:169-174 | an UPPER extreme with the given value and inclusiveness |
| Extreme.CompareWithAsWrittenNotAntisymmetric | java/episim-api/src/main/java/nl/rivm/cib/episim/math/Extreme.java:139 | as written, a finite lower bound 5 and negative infinity each compare LESS than the other |
| Extreme.CompareWithAsWrittenInclusiveness | java/episim-api/src/main/java/nl/rivm/cib/episim/math/Extreme.java:147 | as written, an exclusive and an inclusive lower bound at 1 each compare LESS than the other |
| Extreme.CompareWithAsWritten | java/episim-api/src/main/java/nl/rivm/cib/episim/math/Extreme.java:133-150 | as written the sign is reversed where only the argument is infinite, and where at one value only the argument is inclusive; two inclusive extremes at one value are equivalent whatever their boundaries; everywhere else it is the corrected order |
| Extreme.CompareWithAsWrittenTieInconsistent | java/episim-api/src/main/java/nl/rivm/cib/episim/math/Extreme.java:144-149 | as written an inclusive lower and an inclusive upper bound at 5 are equivalent, yet against an exclusive lower bound at 5 the first compares LESS and the second GREATER |
| Extreme.TieRank | java/episim-api/src/main/java/nl/rivm/cib/episim/math/Extreme.java:144-149 | the place of an extreme among those at its value: 1 exactly when it is not inclusive, and 0 or 2 otherwise |
| Extreme.CompareWith | java/episim-api/src/main/java/nl/rivm/cib/episim/math/Extreme.java:133-150 | every finite extreme lies above negative and below positive infinity, on either side of the comparison; two infinities compare by boundary; finite extremes compare by value, and at one value an inclusive lower bound comes first, an inclusive upper bound last, and extremes that are not inclusive are equivalent |
| Extreme.CompareWithPrecedes | java/episim-api/src/main/java/nl/rivm/cib/episim/math/Extreme.java:123-150 | the comparison is one strict order: LESS exactly when the receiver precedes the argument, GREATER exactly when the argument precedes the receiver |
| Extreme.CompareWithAntisymmetric | java/episim-api/src/main/java/nl/rivm/cib/episim/math/Extreme.java:133-150 | compareWith is antisymmetric, as Comparable requires |
| Extreme.CompareWithReflexive | java/episim-api/src/main/java/nl/rivm/cib/episim/math/Extreme.java:133-150 | every extreme is equivalent to itself |
| Extreme.CompareWithTransitive | java/episim-api/src/main/java/nl/rivm/cib/episim/math/Extreme.java:123-150 | LESS is transitive, as Comparable requires of compareTo |
| Extreme.CompareWithEquivalentAlike | java/episim-api/src/main/java/nl/rivm/cib/episim/math/Extreme.java:123-150 | equivalent extremes compare alike with every third extreme, as Comparable requires of compareTo |
| Extreme.CompareWithAgreesAsWritten | java/episim-api/src/main/java/nl/rivm/cib/episim/math/Extreme.java:133-150 | both versions agree when the receiver is infinite, when the values differ, and when the receiver is inclusive and the argument is not an inclusive extreme at the other boundary |
| Extreme.Max | java/episim-demo/src/main/java/nl/rivm/cib/demo/RvpBmr.java:152-154 | one of the two, and compares at least equal to each of them |
| RvpBmr.AgeRangeOptional | java/episim-demo/src/main/java/nl/rivm/cib/demo/RvpBmr.java:68-72 | a well-formed range: its minimum is not above its maximum |
| RvpBmr.AgeRangeDefault | java/episim-demo/src/main/java/nl/rivm/cib/demo/RvpBmr.java:73-74 | present exactly for DOSE1 and DOSE2, and then a well-formed range |
| RvpBmr.BitsDisjoint | java/episim-demo/src/main/java/nl/rivm/cib/demo/RvpBmr.java:62 | distinct doses use disjoint bits |
| RvpBmr.Set | java/episim-demo/src/main/java/nl/rivm/cib/demo/RvpBmr.java:104-107 | the dose is set afterwards |
| RvpBmr.Unset | java/episim-demo/src/main/java/nl/rivm/cib/demo/RvpBmr.java:109-112 | the dose is unset afterwards |
| RvpBmr.OtherBitsUnchanged | java/episim-demo/src/main/java/nl/rivm/cib/demo/RvpBmr.java:104-112 | set and unset leave every other bit of the status unchanged |
| RvpBmr.OtherDosesUnchanged | java/episim-demo/src/main/java/nl/rivm/cib/demo/RvpBmr.java:94-112 | set and unset leave every other dose unchanged |
| RvpBmr.SetKeepsOtherDose | java/episim-demo/src/main/java/nl/rivm/cib/demo/RvpBmr.java:104-107 | setting a dose leaves a dose with a disjoint bit as it was |
| RvpBmr.UnsetKeepsOtherDose | java/episim-demo/src/main/java/nl/rivm/cib/demo/RvpBmr.java:109-112 | clearing a dose leaves a dose with a disjoint bit as it was |
| RvpBmr.MaskLaws | java/episim-demo/src/main/java/nl/rivm/cib/demo/RvpBmr.java:104-112 | or-ing in and and-ing out the same bits are idempotent and undo each other on bits that were clear or set |
| RvpBmr.SetUnsetIdempotent | java/episim-demo/src/main/java/nl/rivm/cib/demo/RvpBmr.java:104-112 | set and unset are idempotent |
| RvpBmr.SetAfterUnset | java/episim-demo/src/main/java/nl/rivm/cib/demo/RvpBmr.java:104-112 | for a set dose, set(unset(v)) == v |
| RvpBmr.UnsetAfterSet | java/episim-demo/src/main/java/nl/rivm/cib/demo/RvpBmr.java:104-112 | for an unset dose, unset(set(v)) == v |
| RvpBmr.IsCompliant | java/episim-demo/src/main/java/nl/rivm/cib/demo/RvpBmr.java:114-117 | compliant iff DOSE2 or DOSE3 is set |
| RvpBmr.NextDefault | java/episim-demo/src/main/java/nl/rivm/cib/demo/RvpBmr.java:120-128 | the first dose in order with a default range that is not set and not yet passed; none when no dose fits |
| RvpBmr.NextOption | java/episim-demo/src/main/java/nl/rivm/cib/demo/RvpBmr.java:131-138 | the first dose in order that is not set and whose optional range is not yet passed; none when no dose fits |
| RvpBmr.NoDefaultAfterNineYears | java/episim-demo/src/main/java/nl/rivm/cib/demo/RvpBmr.java:120-128 | beyond nine years of age no default dose remains |
| RvpBmr.FirstDefaultDose | java/episim-demo/src/main/java/nl/rivm/cib/demo/RvpBmr.java:120-128 | a child without doses, up to nine years old, is due DOSE1 |
| RvpBmr.DefaultUpper | java/episim-demo/src/main/java/nl/rivm/cib/demo/RvpBmr.java:150-153 | the upper extreme of a dose's default range is its maximum age, inclusive |
| RvpBmr.Schedule.constructor | java/episim-demo/src/main/java/nl/rivm/cib/demo/RvpBmr.java:140 | no range is cached at first |
| RvpBmr.Schedule.DecisionAgeRange | java/episim-demo/src/main/java/nl/rivm/cib/demo/RvpBmr.java:142-159 | from 3 weeks inclusive to the largest default upper bound; computed on the first call and returned from the cache afterwards |
| CbsRegionType.PrefixLetters | java/episim-connect-cbs/src/main/java/nl/rivm/cib/epidemes/cbs/json/CBSRegionType.java:147-150 | two upper-case letters |
| CbsRegionType.Prefix | java/episim-connect-cbs/src/main/java/nl/rivm/cib/epidemes/cbs/json/CBSRegionType.java:147-150 | the two-letter upper-case prefix of a kind |
| CbsRegionType.OfLetters | java/episim-connect-cbs/src/main/java/nl/rivm/cib/epidemes/cbs/json/CBSRegionType.java:189-192 | a kind found for the letters has exactly those prefix letters and is not an "NL" kind |
| CbsRegionType.OfPrefix | java/episim-connect-cbs/src/main/java/nl/rivm/cib/epidemes/cbs/json/CBSRegionType.java:189-192 | a kind found for the prefix has that prefix and is not an "NL" kind |
| CbsRegionType.OfPrefixPrefix | java/episim-connect-cbs/src/main/java/nl/rivm/cib/epidemes/cbs/json/CBSRegionType.java:189-192 | looking up the prefix of any kind outside "NL" gives that kind back |
| CbsRegionType.OfLettersPrefixLocal | java/episim-connect-cbs/src/main/java/nl/rivm/cib/epidemes/cbs/json/CBSRegionType.java:189-192 | the prefixes of CITY to TERRITORY are looked up back to their kind |
| CbsRegionType.OfLettersPrefixServices | java/episim-connect-cbs/src/main/java/nl/rivm/cib/epidemes/cbs/json/CBSRegionType.java:189-192 | the prefixes of LABOR_MARKET to AGRI_GROUP are looked up back to their kind |
| CbsRegionType.OfLettersPrefixOther | java/episim-connect-cbs/src/main/java/nl/rivm/cib/epidemes/cbs/json/CBSRegionType.java:189-192 | the prefixes of POLICE to HEALTH_WELFARE are looked up back to their kind |
| CbsRegionType.TypeIdInjective | java/episim-connect-cbs/src/main/java/nl/rivm/cib/epidemes/cbs/json/CBSRegionType.java:134-139 | distinct kinds have distinct type ids |
| CbsRegionType.ParseTrimmed | java/episim-connect-cbs/src/main/java/nl/rivm/cib/epidemes/cbs/json/CBSRegionType.java:172-195 | empty gives null; one character throws StringIndexOutOfBounds; "NL" codes by length; otherwise the first kind whose prefix matches, ignoring ASCII case, or IllegalArgument |
| CbsRegionType.OfPrefixNone | java/episim-connect-cbs/src/main/java/nl/rivm/cib/epidemes/cbs/json/CBSRegionType.java:194-195 | a prefix that is not found belongs to no kind outside "NL" |
| CbsRegionType.PrefixMatch | java/episim-connect-cbs/src/main/java/nl/rivm/cib/epidemes/cbs/json/CBSRegionType.java:190-191 | a two-letter string matches a prefix ignoring ASCII case iff its ASCII upper-case form is the prefix |
| CbsRegionType.Parse | java/episim-connect-cbs/src/main/java/nl/rivm/cib/epidemes/cbs/json/CBSRegionType.java:169-196 | the loop returns what the specification function gives: null for null or blank, otherwise the trimmed code classified |
| CbsRegionType.FirstByPrefix | java/episim-connect-cbs/src/main/java/nl/rivm/cib/epidemes/cbs/json/CBSRegionType.java:189-193 | the first kind in order whose prefix matches the start of the code, ignoring ASCII case, or none |
| CbsRegionType.ParsePrefixDigits | java/episim-connect-cbs/src/main/java/nl/rivm/cib/epidemes/cbs/json/CBSRegionType.java:189-192 | a prefix followed by digits parses as that kind, e.g. "GM0363" as MUNICIPAL |
| CbsRegionType.ParseStartingWithPrefix | java/episim-connect-cbs/src/main/java/nl/rivm/cib/epidemes/cbs/json/CBSRegionType.java:189-192 | a trimmed code starting with a kind's prefix outside "NL" is that kind |
| CbsRegionType.ParseNational | java/episim-connect-cbs/src/main/java/nl/rivm/cib/epidemes/cbs/json/CBSRegionType.java:176-186 | "NL" codes: 3 characters NUTS1, 5 NUTS3, 4 COUNTRY or NUTS2 by the third character, other lengths throw |
| Cbs83287Json.Regions | java/episim-connect-cbs/src/main/java/nl/rivm/cib/epidemes/cbs/json/Cbs83287Json.java:161-166 | the collector for one municipality succeeds only when every column has a row for it; RegionsKind and RegionsFirst give its contents |
| Cbs83287Json.RegionsUnfold | java/episim-connect-cbs/src/main/java/nl/rivm/cib/epidemes/cbs/json/Cbs83287Json.java:161-166 | a collector that succeeds from column k on is the step at k followed by the rest |
| Cbs83287Json.FirstKeyedAtHere | java/episim-connect-cbs/src/main/java/nl/rivm/cib/epidemes/cbs/json/Cbs83287Json.java:164-166 | a code of the type in column k is the first from k on |
| Cbs83287Json.FirstKeyedAtBefore | java/episim-connect-cbs/src/main/java/nl/rivm/cib/epidemes/cbs/json/Cbs83287Json.java:164-166 | without a code of the type in column k, the first from k + 1 on is the first from k on |
| Cbs83287Json.RegionsKind | java/episim-connect-cbs/src/main/java/nl/rivm/cib/epidemes/cbs/json/Cbs83287Json.java:161-166 | a type is present iff some column holds a code of that type, and an earlier value is kept |
| Cbs83287Json.RegionsFirst | java/episim-connect-cbs/src/main/java/nl/rivm/cib/epidemes/cbs/json/Cbs83287Json.java:164-166 | a type maps to the first code of that type |
| Cbs83287Json.MapFrom | java/episim-connect-cbs/src/main/java/nl/rivm/cib/epidemes/cbs/json/Cbs83287Json.java:157-160 | the outer collector maps each municipality code to its regions, and a repeated code throws |
| Cbs83287Json.MapFromInner | java/episim-connect-cbs/src/main/java/nl/rivm/cib/epidemes/cbs/json/Cbs83287Json.java:157-166 | under each code the collector holds the regions collected for that municipality |
| Cbs83287Json.ToMap | java/episim-connect-cbs/src/main/java/nl/rivm/cib/epidemes/cbs/json/Cbs83287Json.java:155-167 | one key per municipality, holding its regions by type |
| Cbs83287Json.ToMapRegion | java/episim-connect-cbs/src/main/java/nl/rivm/cib/epidemes/cbs/json/Cbs83287Json.java:155-167 | municipality j has a region of type t iff some column gives it a code of type t, and then the first such code |
| Cbs83287Json.DuplicateThrows | java/episim-connect-cbs/src/main/java/nl/rivm/cib/epidemes/cbs/json/Cbs83287Json.java:157-160 | a duplicate municipality code makes toMap throw |
| Cbs83287Json.RegionsOk | java/episim-connect-cbs/src/main/java/nl/rivm/cib/epidemes/cbs/json/Cbs83287Json.java:161-166 | the collector for one municipality succeeds iff every column has an entry for it that is empty or a classified code |
| Cbs83287Json.MapFromOk | java/episim-connect-cbs/src/main/java/nl/rivm/cib/epidemes/cbs/json/Cbs83287Json.java:157-166 | distinct new codes whose rows all classify make the outer collector succeed |
| Cbs83287Json.ToMapOk | java/episim-connect-cbs/src/main/java/nl/rivm/cib/epidemes/cbs/json/Cbs83287Json.java:155-167 | toMap succeeds iff the municipality codes are distinct and every entry is empty or a classified code |
| Cbs83287Json.DistinctCount | java/episim-connect-cbs/src/main/java/nl/rivm/cib/epidemes/cbs/json/Cbs83287Json.java:157-160 | distinct municipality codes give a map of that many keys |
| Cbs83287Json.AddEntry | java/episim-connect-cbs/src/main/java/nl/rivm/cib/epidemes/cbs/json/Cbs83287Json.java:180-187 | the reducer adds the municipality to its region's set, creating both levels as needed |
| Cbs83287Json.ReverseRow | java/episim-connect-cbs/src/main/java/nl/rivm/cib/epidemes/cbs/json/Cbs83287Json.java:173-177 | one municipality's non-empty codes, keyed by type |
| Cbs83287Json.ReverseFrom | java/episim-connect-cbs/src/main/java/nl/rivm/cib/epidemes/cbs/json/Cbs83287Json.java:171-192 | the reduction over the municipalities from i on |
| Cbs83287Json.ReverseRowOk | java/episim-connect-cbs/src/main/java/nl/rivm/cib/epidemes/cbs/json/Cbs83287Json.java:173-177 | one municipality's row succeeds exactly when each of its codes from the given column on has a type parse accepts |
| Cbs83287Json.ReverseFromOk | java/episim-connect-cbs/src/main/java/nl/rivm/cib/epidemes/cbs/json/Cbs83287Json.java:171-192 | the reduction from a municipality on succeeds exactly when every code of it and every later municipality has a type parse accepts |
| Cbs83287Json.ToReverseMap | java/episim-connect-cbs/src/main/java/nl/rivm/cib/epidemes/cbs/json/Cbs83287Json.java:169-192 | succeeds exactly when every code of every municipality has a type parse accepts, repeated municipality codes included; then each municipality is listed under every non-empty code it has, within that code's type, and nothing else is listed |
| Cbs83287Json.MapAndReverseAgree | java/episim-connect-cbs/src/main/java/nl/rivm/cib/epidemes/cbs/json/Cbs83287Json.java:155-192 | whenever toMap succeeds toReverseMap succeeds too, and a municipality's region of a type in toMap lists the municipality in toReverseMap |
| CbsRegionHistory.MonthLength | java/epidemes-core/src/main/java/nl/rivm/cib/epidemes/data/cbs/CbsRegionHistory.java:82-84 | 28 to 31 days; 29 exactly for February of a leap year |
| CbsRegionHistory.MakeDate | java/epidemes-core/src/main/java/nl/rivm/cib/epidemes/data/cbs/CbsRegionHistory.java:82-84 | LocalDate.of succeeds iff the date is valid, and throws DateTime otherwise |
| CbsRegionHistory.ParseDate | java/epidemes-core/src/main/java/nl/rivm/cib/epidemes/data/cbs/CbsRegionHistory.java:80-84 | fewer than three pieces throw IndexOutOfBounds; a parsed date is valid; the errors are IndexOutOfBounds, NumberFormat or DateTime |
| CbsRegionHistory.ParseFormatDate | java/epidemes-core/src/main/java/nl/rivm/cib/epidemes/data/cbs/CbsRegionHistory.java:80-84 | every valid date read back from its "d-m-yyyy" form is itself |
| CbsRegionHistory.ParseLine | java/epidemes-core/src/main/java/nl/rivm/cib/epidemes/data/cbs/CbsRegionHistory.java:72-75 | lines without exactly six fields, or with equal old and new codes, are dropped |
| CbsRegionHistory.ParseFormatLine | java/epidemes-core/src/main/java/nl/rivm/cib/epidemes/data/cbs/CbsRegionHistory.java:72-85 | a well-formed row with a name reads back as itself, and one that changes nothing is dropped |
| CbsRegionHistory.EmptyNameDropped | java/epidemes-core/src/main/java/nl/rivm/cib/epidemes/data/cbs/CbsRegionHistory.java:72-75 | a row with an empty current name loses that field to split and is dropped |
| CbsRegionHistory.SplitDropsTrailingSeparator | java/epidemes-core/src/main/java/nl/rivm/cib/epidemes/data/cbs/CbsRegionHistory.java:72 | a trailing ';' adds only an empty field, which split drops |
| CbsRegionHistory.Put | java/epidemes-core/src/main/java/nl/rivm/cib/epidemes/data/cbs/CbsRegionHistory.java:85 | the history stays sorted; the date maps to the new code and every other date is unchanged |
| CbsRegionHistory.PutAll | java/epidemes-core/src/main/java/nl/rivm/cib/epidemes/data/cbs/CbsRegionHistory.java:94 | the other history's entries win, and the rest are kept |
| CbsRegionHistory.LookupLatest | java/epidemes-core/src/main/java/nl/rivm/cib/epidemes/data/cbs/CbsRegionHistory.java:91 | in a sorted history the latest date holds the last new code, and every other date lies before it |
| CbsRegionHistory.InsertCode | java/epidemes-core/src/main/java/nl/rivm/cib/epidemes/data/cbs/CbsRegionHistory.java:76-77 | the codes stay in ascending order with the new code added |
| CbsRegionHistory.AddRow | java/epidemes-core/src/main/java/nl/rivm/cib/epidemes/data/cbs/CbsRegionHistory.java:76-86 | the row's date maps to its new code under its old code; other codes keep their histories |
| CbsRegionHistory.LaterRowWins | java/epidemes-core/src/main/java/nl/rivm/cib/epidemes/data/cbs/CbsRegionHistory.java:85 | of two rows with the same old code and date, the later one's new code is kept |
| CbsRegionHistory.Collect | java/epidemes-core/src/main/java/nl/rivm/cib/epidemes/data/cbs/CbsRegionHistory.java:71-86 | the collector succeeds iff no line has a bad date, and keeps every code it had |
| CbsRegionHistory.CollectKeys | java/epidemes-core/src/main/java/nl/rivm/cib/epidemes/data/cbs/CbsRegionHistory.java:71-86 | the old codes afterwards are exactly those it had and those of the kept rows |
| CbsRegionHistory.CollectLookups | java/epidemes-core/src/main/java/nl/rivm/cib/epidemes/data/cbs/CbsRegionHistory.java:71-86 | on each date a code holds the new code of the last kept row with that old code and date, or else what it held before |
| CbsRegionHistory.CollectLookupAt | java/epidemes-core/src/main/java/nl/rivm/cib/epidemes/data/cbs/CbsRegionHistory.java:71-86 | for one code and date: the new code of the last kept row with that old code and date, or else what the table held |
| CbsRegionHistory.AddRowLookup | java/epidemes-core/src/main/java/nl/rivm/cib/epidemes/data/cbs/CbsRegionHistory.java:76-86 | putting one row into the table sets the new code on that row's old code and date and leaves every other lookup as it was |
| CbsRegionHistory.CollectDropped | java/epidemes-core/src/main/java/nl/rivm/cib/epidemes/data/cbs/CbsRegionHistory.java:73-75 | lines that are all dropped leave the table unchanged |
| CbsRegionHistory.Group | java/epidemes-core/src/main/java/nl/rivm/cib/epidemes/data/cbs/CbsRegionHistory.java:71-86 | the header is skipped; the old codes are exactly those of the kept rows; on each date a code holds the new code of the last kept row with that code and date |
| CbsRegionHistory.Follow | java/epidemes-core/src/main/java/nl/rivm/cib/epidemes/data/cbs/CbsRegionHistory.java:94 | the history of key takes over every change of the followed code's history; other codes are unchanged |
| CbsRegionHistory.FollowCovers | java/epidemes-core/src/main/java/nl/rivm/cib/epidemes/data/cbs/CbsRegionHistory.java:94 | after a step the history covers its own dates and those of the followed code |
| CbsRegionHistory.ExpandChainAsWrittenDiverges | java/epidemes-core/src/main/java/nl/rivm/cib/epidemes/data/cbs/CbsRegionHistory.java:88-97 | on the backdated chain the loop as written never ends |
| CbsRegionHistory.ExpandChainAsWritten | java/epidemes-core/src/main/java/nl/rivm/cib/epidemes/data/cbs/CbsRegionHistory.java:88-97 | the loop as written, run for a bounded number of turns: when it ends, every code keeps its place, the expanded history ends on a code without a history of its own, and every other history is unchanged |
| CbsRegionHistory.ExpandChain | java/epidemes-core/src/main/java/nl/rivm/cib/epidemes/data/cbs/CbsRegionHistory.java:91-96 | the loop gives the corrected expansion, ending on a last code without a history or already followed; the history covers every followed history |
| CbsRegionHistory.Expansion | java/epidemes-core/src/main/java/nl/rivm/cib/epidemes/data/cbs/CbsRegionHistory.java:91-96 | the corrected expansion of one history keeps the table well formed and its codes the same |
| CbsRegionHistory.ExpansionFrame | java/epidemes-core/src/main/java/nl/rivm/cib/epidemes/data/cbs/CbsRegionHistory.java:91-96 | only the expanded history changes, and it keeps every date it had; a history whose last new code has no history is unchanged |
| CbsRegionHistory.FollowClosed | java/epidemes-core/src/main/java/nl/rivm/cib/epidemes/data/cbs/CbsRegionHistory.java:92-95 | following the last code keeps every followed history covered, and when that code was followed before the new last code was too |
| CbsRegionHistory.StuckNext | java/epidemes-core/src/main/java/nl/rivm/cib/epidemes/data/cbs/CbsRegionHistory.java:92-95 | from a closed state whose last code was followed before, a step of the loop leads to another such state |
| CbsRegionHistory.StuckStep | java/epidemes-core/src/main/java/nl/rivm/cib/epidemes/data/cbs/CbsRegionHistory.java:92-96 | from a closed state whose last code was followed before, one turn of the loop as written leads to another such state with one turn less to go |
| CbsRegionHistory.ClosedStep | java/epidemes-core/src/main/java/nl/rivm/cib/epidemes/data/cbs/CbsRegionHistory.java:92-96 | from a closed state whose last code has a history not followed yet, one turn of the loop as written and one step of the corrected expansion follow that code and lead to a closed state |
| CbsRegionHistory.AsWrittenStep | java/epidemes-core/src/main/java/nl/rivm/cib/epidemes/data/cbs/CbsRegionHistory.java:92-95 | one turn of the loop as written merges in the history of the last code |
| CbsRegionHistory.ClosedLoopsForever | java/epidemes-core/src/main/java/nl/rivm/cib/epidemes/data/cbs/CbsRegionHistory.java:92-96 | from such a state the loop as written never ends, however many turns it is given |
| CbsRegionHistory.AsWrittenAgrees | java/epidemes-core/src/main/java/nl/rivm/cib/epidemes/data/cbs/CbsRegionHistory.java:92-96 | whenever the loop as written ends from a closed state, it ends with the corrected expansion |
| CbsRegionHistory.ExpandChainAgrees | java/epidemes-core/src/main/java/nl/rivm/cib/epidemes/data/cbs/CbsRegionHistory.java:91-96 | whenever the loop as written ends, its result is the corrected expansion |
| CbsRegionHistory.ExpandChainEnds | java/epidemes-core/src/main/java/nl/rivm/cib/epidemes/data/cbs/CbsRegionHistory.java:91-96 | when the corrected expansion ends on a code without a history, the loop as written ends with it, within one turn per code |
| CbsRegionHistory.StuckForever | java/epidemes-core/src/main/java/nl/rivm/cib/epidemes/data/cbs/CbsRegionHistory.java:92-96 | on the backdated chain, no number of rounds of the loop as written reaches its end |
| CbsRegionHistory.ChainedNext | java/epidemes-core/src/main/java/nl/rivm/cib/epidemes/data/cbs/CbsRegionHistory.java:94-95 | following one more code keeps the loop invariant |
| CbsRegionHistory.ExpandChainBackdated | java/epidemes-core/src/main/java/nl/rivm/cib/epidemes/data/cbs/CbsRegionHistory.java:88-97 | on the backdated chain the corrected expansion ends with A holding both changes, C from 1990 and B from 2000 |
| CbsRegionHistory.ExpandAll | java/epidemes-core/src/main/java/nl/rivm/cib/epidemes/data/cbs/CbsRegionHistory.java:89-97 | the same codes; the histories are those of the expansion of each code in ascending order, each expanded once on the histories the codes before it left |
| CbsRegionHistory.ExpandCodes | java/epidemes-core/src/main/java/nl/rivm/cib/epidemes/data/cbs/CbsRegionHistory.java:89-97 | expanding the codes one after the other keeps the table well formed and its codes the same |
| CbsRegionHistory.ExpandCodesFrame | java/epidemes-core/src/main/java/nl/rivm/cib/epidemes/data/cbs/CbsRegionHistory.java:89-97 | every history keeps its dates; histories not expanded, or whose last new code has no history, are unchanged |
| CbsRegionHistory.ExpandCodesAppend | java/epidemes-core/src/main/java/nl/rivm/cib/epidemes/data/cbs/CbsRegionHistory.java:89-97 | expanding a + b is expanding a, then b |
| CbsRegionHistory.ExpandCodesEach | java/epidemes-core/src/main/java/nl/rivm/cib/epidemes/data/cbs/CbsRegionHistory.java:89-97 | a code listed once is expanded on the histories the codes before it left, and later codes do not change it |
| CbsRegionHistory.ExpandCodesInOrder | java/epidemes-core/src/main/java/nl/rivm/cib/epidemes/data/cbs/CbsRegionHistory.java:89-97 | over the ascending codes of a valid table, each history ends as the expansion of its code on what the codes before it left |
| CbsRegionHistory.Parse | java/epidemes-core/src/main/java/nl/rivm/cib/epidemes/data/cbs/CbsRegionHistory.java:65-99 | fails exactly when grouping fails, with its error; otherwise the grouped codes with every history expanded in ascending code order |
| CbsRegionHistory.Floor | java/epidemes-core/src/main/java/nl/rivm/cib/epidemes/data/cbs/CbsRegionHistory.java:107-109 | none iff no change is in force at the date; otherwise the latest change in force |
| CbsRegionHistory.AllChangesAsPer | java/epidemes-core/src/main/java/nl/rivm/cib/epidemes/data/cbs/CbsRegionHistory.java:102-111 | exactly the codes with a change on or before the date, each mapped to its latest such change |
| DemoConfig.Escape | java/episim-demo/src/main/java/nl/rivm/cib/demo/DemoConfig.java:159 | never shorter, and holds the same characters other than double quotes (UnescapeEscape reads it back) |
| DemoConfig.UnescapeEscape | java/episim-demo/src/main/java/nl/rivm/cib/demo/DemoConfig.java:159 | reading the escaped text back gives the text |
| DemoConfig.CompartmentColumns | java/episim-demo/src/main/java/nl/rivm/cib/demo/DemoConfig.java:161-163 | one column per compartment, its name |
| DemoConfig.RegionRow | java/episim-demo/src/main/java/nl/rivm/cib/demo/DemoConfig.java:166-168 | one column per region: the compartment's initial, '_' and the region |
| DemoConfig.RegionColumnsLength | java/episim-demo/src/main/java/nl/rivm/cib/demo/DemoConfig.java:165-169 | as many region columns as compartments times regions |
| DemoConfig.RegionColumnAt | java/episim-demo/src/main/java/nl/rivm/cib/demo/DemoConfig.java:165-169 | the column at i times the region count plus j names compartment i and region j |
| DemoConfig.Header | java/episim-demo/src/main/java/nl/rivm/cib/demo/DemoConfig.java:152-171 | the header opens the quoted "ActualTime" field and ends with CR LF |
| DemoConfig.HeaderBody | java/episim-demo/src/main/java/nl/rivm/cib/demo/DemoConfig.java:156-170 | without its CR LF the header is every field joined with ';' |
| DemoConfig.HeaderFields | java/episim-demo/src/main/java/nl/rivm/cib/demo/DemoConfig.java:156-170 | split at ';', the header gives the time field, "VirtualTime", the compartment columns and the region columns, two more than the columns |
| DemoConfig.Fraction | java/episim-demo/src/main/java/nl/rivm/cib/demo/DemoConfig.java:200-214 | 0 when the dividend is absent or zero; otherwise the dividend over the sum of the absolute counts |
| DemoConfig.FractionBounds | java/episim-demo/src/main/java/nl/rivm/cib/demo/DemoConfig.java:206-213 | the fraction lies in [-1, 1] and has the dividend's sign |
| DemoConfig.SumAbsOverFilled | java/episim-demo/src/main/java/nl/rivm/cib/demo/DemoConfig.java:209 | zero counts added for absent compartments leave the divisor unchanged |
| DemoConfig.FractionFilled | java/episim-demo/src/main/java/nl/rivm/cib/demo/DemoConfig.java:226-230 | putting in zero counts changes no fraction |
| DemoConfig.Filled | java/episim-demo/src/main/java/nl/rivm/cib/demo/DemoConfig.java:226-230 | every listed compartment gets a count, absent ones zero |
| DemoConfig.InsertDescending | java/episim-demo/src/main/java/nl/rivm/cib/demo/DemoConfig.java:220-223 | the old order with the region added once |
| DemoConfig.InsertDescendingSorted | java/episim-demo/src/main/java/nl/rivm/cib/demo/DemoConfig.java:220-223 | insertion keeps the order descending and is a permutation |
| DemoConfig.Ranked | java/episim-demo/src/main/java/nl/rivm/cib/demo/DemoConfig.java:220-223 | a permutation of the regions |
| DemoConfig.RankedDescending | java/episim-demo/src/main/java/nl/rivm/cib/demo/DemoConfig.java:220-223 | the ranking is in descending fraction order |
| DemoConfig.Entries | java/episim-demo/src/main/java/nl/rivm/cib/demo/DemoConfig.java:225-232 | one entry per listed region |
| DemoConfig.EntryFilled | java/episim-demo/src/main/java/nl/rivm/cib/demo/DemoConfig.java:226-230 | an entry prints zero for an absent compartment, so filling zeros does not change it |
| DemoConfig.FilledRegions | java/episim-demo/src/main/java/nl/rivm/cib/demo/DemoConfig.java:226-230 | filling in zeros adds no region |
| DemoConfig.RegionCounts.constructor | java/episim-demo/src/main/java/nl/rivm/cib/demo/DemoConfig.java:216-218 | the counts `toLog` reads are a map its caller supplies; the model starts that map empty, with no region counted and none visited |
| DemoConfig.RegionCounts.CountIn | java/episim-demo/src/main/java/nl/rivm/cib/demo/DemoConfig.java:226-230 | the count of one compartment in one region through two computeIfAbsent calls: the old count, or 0 when absent; an unknown region is added last with that compartment at 0, an absent compartment is put in at 0, and no count changes |
| DemoConfig.RegionCounts.Region | java/episim-demo/src/main/java/nl/rivm/cib/demo/DemoConfig.java:204-205 | computeIfAbsent: an unknown region is added with empty counts, visited last |
| DemoConfig.RegionCounts.EvaluateFraction | java/episim-demo/src/main/java/nl/rivm/cib/demo/DemoConfig.java:200-214 | the fraction of the region; an unknown region is added with empty counts and has fraction 0 |
| DemoConfig.RegionCounts.ToLog | java/episim-demo/src/main/java/nl/rivm/cib/demo/DemoConfig.java:216-234 | the entries of the top regions joined by ", "; every listed region gets zeros for absent compartments |
| DemoConfig.Top | java/episim-demo/src/main/java/nl/rivm/cib/demo/DemoConfig.java:220-224 | as many regions as n, or all of them when there are fewer |
| DemoConfig.LogRegions | java/episim-demo/src/main/java/nl/rivm/cib/demo/DemoConfig.java:220-224 | min(n, #regions) regions are listed, in non-increasing fraction order, none of them unknown |
| DemoConfig.LogLeavesOutLower | java/episim-demo/src/main/java/nl/rivm/cib/demo/DemoConfig.java:220-224 | every listed region ranks at least as high as every region left out |
| SparseMatrix.Matrix.constructor | java/episim-model/src/main/java/nl/rivm/cib/episim/model/SocialConnector.java:196 | SparseMatrix.Factory.zeros: a new weight matrix with no cells set, so every weight reads zero |
| SparseMatrix.Matrix.Set | java/episim-model/src/main/java/nl/rivm/cib/episim/model/SocialConnector.java:128-135 | setAsBigDecimal stores the weight in one cell and changes no other |
| SparseMatrix.Matrix.Get | java/episim-model/src/main/java/nl/rivm/cib/episim/model/SocialConnector.java:137-140 | getAsBigDecimal: a set cell reads its weight, and only a set cell reads a weight other than zero |
| SocialConnector.RowSmallest | java/episim-model/src/main/java/nl/rivm/cib/episim/model/SocialConnector.java:98-101 | the pair in ascending order |
| SocialConnector.RowLargest | java/episim-model/src/main/java/nl/rivm/cib/episim/model/SocialConnector.java:109-112 | the pair in descending order |
| SocialConnector.RowSmallestSymmetric | java/episim-model/src/main/java/nl/rivm/cib/episim/model/SocialConnector.java:98-101 | either order of two indices gives the same pair |
| SocialConnector.RowLargestReversesSmallest | java/episim-model/src/main/java/nl/rivm/cib/episim/model/SocialConnector.java:98-112 | rowLargest is rowSmallest reversed |
| SocialConnector.GetSymmetricCommutes | java/episim-model/src/main/java/nl/rivm/cib/episim/model/SocialConnector.java:137-140 | getSymmetric(W, i, j) == getSymmetric(W, j, i) |
| SocialConnector.GetSymmetric | java/episim-model/src/main/java/nl/rivm/cib/episim/model/SocialConnector.java:137-140 | the weight stored in the cell with the smaller index first |
| SocialConnector.SetSymmetric | java/episim-model/src/main/java/nl/rivm/cib/episim/model/SocialConnector.java:128-135 | afterwards both orders read w, and only the cell of the ordered pair changed |
| SocialConnector.SetDiagonal | java/episim-model/src/main/java/nl/rivm/cib/episim/model/SocialConnector.java:123-126 | only the diagonal cell (i, i) changes |
| SocialConnector.PutSymmetric | java/episim-model/src/main/java/nl/rivm/cib/episim/model/SocialConnector.java:114-121 | returns the old weight and stores the new one, changing only that cell |
| SocialConnector.IsPeerSymmetric | java/episim-model/src/main/java/nl/rivm/cib/episim/model/SocialConnector.java:147-152 | peerage is symmetric |
| SocialConnector.IsPeer | java/episim-model/src/main/java/nl/rivm/cib/episim/model/SocialConnector.java:147-152 | peers exactly when the weight in the ordered cell is not zero, so only a set cell makes peers |
| SocialConnector.IsPeerSymmetricEverywhere | java/episim-model/src/main/java/nl/rivm/cib/episim/model/SocialConnector.java:147-152 | isPeer(W, i, j) == isPeer(W, j, i) for every pair |
| SocialConnector.PeersBetween | java/episim-model/src/main/java/nl/rivm/cib/episim/model/SocialConnector.java:162-165 | the peers of i within a range, ascending, each once |
| SocialConnector.AvailablePeers | java/episim-model/src/main/java/nl/rivm/cib/episim/model/SocialConnector.java:160-167 | exactly the indices below i linked to it and those above it up to the column count, ascending, never i |
| HHConnector.Top | java/episim-demo/src/main/java/nl/rivm/cib/pilot/HHConnector.java:53-56 | the pair in ascending order |
| HHConnector.TopSymmetric | java/episim-demo/src/main/java/nl/rivm/cib/pilot/HHConnector.java:53-56 | either order of two indices gives the same pair |
| HHConnector.GetSymmetricCommutes | java/episim-demo/src/main/java/nl/rivm/cib/pilot/HHConnector.java:81-84 | reads do not depend on index order |
| HHConnector.GetSymmetric | java/episim-demo/src/main/java/nl/rivm/cib/pilot/HHConnector.java:81-84 | the weight stored in the cell with the smaller index first |
| HHConnector.SetSymmetric | java/episim-demo/src/main/java/nl/rivm/cib/pilot/HHConnector.java:72-79 | afterwards both orders read w, and only the cell of the ordered pair changed |
| HHConnector.SetDiagonal | java/episim-demo/src/main/java/nl/rivm/cib/pilot/HHConnector.java:67-70 | only the diagonal cell changes |
| HHConnector.PutSymmetric | java/episim-demo/src/main/java/nl/rivm/cib/pilot/HHConnector.java:58-65 | returns the prior weight and stores the new one |
| HHConnector.IsPeerSymmetric | java/episim-demo/src/main/java/nl/rivm/cib/pilot/HHConnector.java:99-104 | peerage is symmetric |
| HHConnector.IsPeer | java/episim-demo/src/main/java/nl/rivm/cib/pilot/HHConnector.java:99-104 | peers exactly when the ordered cell was set and holds a weight above zero |
| HHConnector.IsPeerStricterThanSocial | java/episim-demo/src/main/java/nl/rivm/cib/pilot/HHConnector.java:99-104 | a household peer is a social peer, but a negative weight is a social link and no household one |
| HHConnector.PeersBetween | java/episim-demo/src/main/java/nl/rivm/cib/pilot/HHConnector.java:112-114 | the peers of i within a range, ascending |
| HHConnector.AvailablePeers | java/episim-demo/src/main/java/nl/rivm/cib/pilot/HHConnector.java:106-116 | the peers of i, never i itself, in ascending order |
| JavaStrings.TrimStart | java/episim-connect-cbs/src/main/java/nl/rivm/cib/epidemes/cbs/json/CBSRegionType.java:172 | drops exactly the leading characters at or below U+0020 |
| JavaStrings.TrimEnd | java/episim-connect-cbs/src/main/java/nl/rivm/cib/epidemes/cbs/json/CBSRegionType.java:172 | drops exactly the trailing characters at or below U+0020 |
| JavaStrings.Trim | java/episim-connect-cbs/src/main/java/nl/rivm/cib/epidemes/cbs/json/CBSRegionType.java:172 | the trimmed string starts and ends above U+0020, and is empty iff every character is at or below it |
| JavaStrings.TrimUnchanged | java/episim-connect-cbs/src/main/java/nl/rivm/cib/epidemes/cbs/json/CBSRegionType.java:172 | a string that starts and ends above U+0020 is its own trim |
| JavaStrings.Pieces | java/epidemes-core/src/main/java/nl/rivm/cib/epidemes/data/cbs/CbsRegionHistory.java:72 | at least one piece, and no piece holds the separator |
| JavaStrings.JoinAppend | java/episim-demo/src/main/java/nl/rivm/cib/demo/DemoConfig.java:161-169 | joining two runs of parts is joining each with the separator between |
| JavaStrings.JoinCons | java/episim-demo/src/main/java/nl/rivm/cib/demo/DemoConfig.java:161-169 | a part in front of a run is the part, the separator and the run joined |
| JavaStrings.JoinNested | java/episim-demo/src/main/java/nl/rivm/cib/demo/DemoConfig.java:156-169 | the header's nested joins are one join of all its fields |
| JavaStrings.DropTrailingEmpty | java/epidemes-core/src/main/java/nl/rivm/cib/epidemes/data/cbs/CbsRegionHistory.java:72 | drops exactly the trailing empty pieces |
| JavaStrings.Split | java/epidemes-core/src/main/java/nl/rivm/cib/epidemes/data/cbs/CbsRegionHistory.java:72 | a string without the separator is its own only piece; no piece holds the separator |
| JavaStrings.PiecesJoin | java/epidemes-core/src/main/java/nl/rivm/cib/epidemes/data/cbs/CbsRegionHistory.java:72 | joining the pieces with the separator gives the string back |
| JavaStrings.JoinPieces | java/epidemes-core/src/main/java/nl/rivm/cib/epidemes/data/cbs/CbsRegionHistory.java:72 | the pieces of parts joined with the separator are the parts, when none holds it |
| JavaStrings.PiecesOfPlain | java/epidemes-core/src/main/java/nl/rivm/cib/epidemes/data/cbs/CbsRegionHistory.java:72 | a string without the separator is one piece |
| JavaStrings.PiecesOfPrefix | java/epidemes-core/src/main/java/nl/rivm/cib/epidemes/data/cbs/CbsRegionHistory.java:72 | a separator after a plain prefix ends the first piece |
| JavaStrings.SplitJoin | java/epidemes-core/src/main/java/nl/rivm/cib/epidemes/data/cbs/CbsRegionHistory.java:72 | split after join gives the parts back when none holds the separator and the last is not empty |
| JavaStrings.LexIrreflexive | java/epidemes-core/src/main/java/nl/rivm/cib/epidemes/data/cbs/CbsRegionHistory.java:76 | String.compareTo never ranks a string below itself |
| JavaStrings.LexTransitive | java/epidemes-core/src/main/java/nl/rivm/cib/epidemes/data/cbs/CbsRegionHistory.java:76 | the order of the code map is transitive |
| JavaStrings.LexTotal | java/epidemes-core/src/main/java/nl/rivm/cib/epidemes/data/cbs/CbsRegionHistory.java:76 | of two different strings one ranks below the other |
| JavaStrings.LexAsymmetric | java/epidemes-core/src/main/java/nl/rivm/cib/epidemes/data/cbs/CbsRegionHistory.java:76 | two strings never rank below each other |
| JavaStrings.ToUpperAscii | java/episim-connect-cbs/src/main/java/nl/rivm/cib/epidemes/cbs/json/CBSRegionType.java:190-191 | lower-case ASCII letters become upper case; other characters stay |
| JavaStrings.UpperAscii | java/episim-connect-cbs/src/main/java/nl/rivm/cib/epidemes/cbs/json/CBSRegionType.java:190-191 | upper-cases every ASCII letter in place and keeps every other character |
| JavaStrings.UpperAsciiUnchanged | java/episim-connect-cbs/src/main/java/nl/rivm/cib/epidemes/cbs/json/CBSRegionType.java:190-191 | a string without lower-case letters is its own upper-case form |
| JavaStrings.EqualsIgnoreCaseUpper | java/episim-connect-cbs/src/main/java/nl/rivm/cib/epidemes/cbs/json/CBSRegionType.java:190-191 | against a string without lower-case ASCII letters, ignoring ASCII case is upper-casing the other side |
| JavaStrings.NatToString | java/epidemes-core/src/main/java/nl/rivm/cib/epidemes/data/cbs/CbsRegionHistory.java:82-84 | the decimal digits of n, without leading zeros, whose value is n |
| JavaStrings.LongToString | java/epidemes-core/src/main/java/nl/rivm/cib/epidemes/data/cbs/CbsRegionHistory.java:82-84 | digits for n >= 0; a minus sign followed by digits below 0 |
| JavaStrings.ParseInt | java/epidemes-core/src/main/java/nl/rivm/cib/epidemes/data/cbs/CbsRegionHistory.java:82-84 | Integer.valueOf: succeeds only on one optional sign followed by at least one ASCII digit, giving the signed digits' value in the 32-bit range; anything else, the empty string included, is a NumberFormatException; digits in range give their value |
| JavaStrings.ParseIntLongToString | java/epidemes-core/src/main/java/nl/rivm/cib/epidemes/data/cbs/CbsRegionHistory.java:82-84 | reading back the decimal form of a 32-bit value gives the value |
| JavaCollections.Add | java/episim-model/src/main/java/nl/rivm/cib/episim/model/Store.java:146 | reports a change iff the collection is list-like or lacks x; then x is appended, otherwise nothing changes |
| JavaCollections.AddDistinct | java/episim-model/src/main/java/nl/rivm/cib/episim/model/Store.java:146 | a set-like collection stays free of duplicates |
| JavaCollections.AddCount | java/episim-model/src/main/java/nl/rivm/cib/episim/model/Store.java:146 | add puts in one copy of x exactly when it reports a change |
| JavaCollections.Remove | java/episim-model/src/main/java/nl/rivm/cib/episim/model/Store.java:159 | reports a change iff x is present; then exactly one element less |
| JavaCollections.RemoveCount | java/episim-model/src/main/java/nl/rivm/cib/episim/model/Store.java:159 | remove takes out one copy of x, if there is one, and nothing else |
| JavaCollections.RemoveDistinct | java/episim-model/src/main/java/nl/rivm/cib/episim/model/Store.java:159 | removing keeps a collection duplicate-free and leaves no copy of x |
| JavaCollections.RemoveAdded | java/episim-model/src/main/java/nl/rivm/cib/episim/model/OptionPicker.java:130-141 | removing an element just added restores the contents, in order when the element was new |
| Store.AddOne | java/episim-model/src/main/java/nl/rivm/cib/episim/model/Store.java:144-153 | the source's add; only a change emits the element and then the new size |
| Store.RemoveOne | java/episim-model/src/main/java/nl/rivm/cib/episim/model/Store.java:157-166 | the source's remove; only a change emits the element and then the new size |
| Store.Removals | java/episim-model/src/main/java/nl/rivm/cib/episim/model/Store.java:116-120 | each removed element is published on onRemove |
| Store.ClearOf | java/episim-model/src/main/java/nl/rivm/cib/episim/model/Store.java:202-213 | a non-empty store empties and publishes each element, then size 0; an empty store publishes nothing |
| Store.Retained | java/episim-model/src/main/java/nl/rivm/cib/episim/model/Store.java:193-199 | only elements of both the store and c, and every element of the store that is in c |
| Store.Dropped | java/episim-model/src/main/java/nl/rivm/cib/episim/model/Store.java:193-199 | only elements of the store not in c, and every such element |
| Store.RetainAllOf | java/episim-model/src/main/java/nl/rivm/cib/episim/model/Store.java:193-199 | removes exactly the elements not in c, publishing each on onRemove but no size; true iff any was removed |
| Store.AddAllChanged | java/episim-model/src/main/java/nl/rivm/cib/episim/model/Store.java:175-181 | set-like: a change iff some element of c was absent; list-like: iff c is non-empty |
| Store.AddAllHolds | java/episim-model/src/main/java/nl/rivm/cib/episim/model/Store.java:175-181 | afterwards the store holds everything it held and every element of c |
| Store.AddAllUnchanged | java/episim-model/src/main/java/nl/rivm/cib/episim/model/Store.java:175-181 | no reported change means unchanged contents |
| Store.AddAllContents | java/episim-model/src/main/java/nl/rivm/cib/episim/model/Store.java:175-181 | list-like: the contents become s + c; set-like: no duplicates |
| Store.RemoveAllContents | java/episim-model/src/main/java/nl/rivm/cib/episim/model/Store.java:184-190 | the contents lose one copy of each element of c that is there |
| Store.RemoveAllChanged | java/episim-model/src/main/java/nl/rivm/cib/episim/model/Store.java:184-190 | a change iff some element of c was in the store |
| Store.RemoveAllUnchanged | java/episim-model/src/main/java/nl/rivm/cib/episim/model/Store.java:184-190 | no reported change means unchanged contents |
| Store.AddAllEvents | java/episim-model/src/main/java/nl/rivm/cib/episim/model/Store.java:175-181 | events are published iff a change is reported, and the last one is the final size |
| Store.RemoveAllEvents | java/episim-model/src/main/java/nl/rivm/cib/episim/model/Store.java:184-190 | the same for removeAll |
| Store.RetainedDistinct | java/episim-model/src/main/java/nl/rivm/cib/episim/model/Store.java:193-199 | retainAll keeps a set-like store duplicate-free |
| Store.ObservableStore.Of | java/episim-model/src/main/java/nl/rivm/cib/episim/model/Store.java:46-58 | a store over the source, with nothing published yet |
| Store.ObservableStore.Size | java/episim-model/src/main/java/nl/rivm/cib/episim/model/Store.java:84-87 | the source's size |
| Store.ObservableStore.IsEmpty | java/episim-model/src/main/java/nl/rivm/cib/episim/model/Store.java:90-93 | true iff the size is zero |
| Store.ObservableStore.Contains | java/episim-model/src/main/java/nl/rivm/cib/episim/model/Store.java:96-99 | true iff the source holds the element |
| Store.ObservableStore.Add | java/episim-model/src/main/java/nl/rivm/cib/episim/model/Store.java:144-153 | new contents, published events and result as AddOne gives them |
| Store.ObservableStore.Remove | java/episim-model/src/main/java/nl/rivm/cib/episim/model/Store.java:157-166 | new contents, published events and result as RemoveOne gives them |
| Store.ObservableStore.AddAll | java/episim-model/src/main/java/nl/rivm/cib/episim/model/Store.java:175-181 | the loop of adds has the contents, events and result of AddAllOf |
| Store.ObservableStore.RemoveAll | java/episim-model/src/main/java/nl/rivm/cib/episim/model/Store.java:184-190 | the loop of removes has the contents, events and result of RemoveAllOf |
| Store.ObservableStore.RetainAll | java/episim-model/src/main/java/nl/rivm/cib/episim/model/Store.java:193-199 | contents, events and result as RetainAllOf gives them |
| Store.ObservableStore.Clear | java/episim-model/src/main/java/nl/rivm/cib/episim/model/Store.java:202-213 | contents and events as ClearOf gives them |
| OptionPicker.Simple.constructor | java/episim-model/src/main/java/nl/rivm/cib/episim/model/OptionPicker.java:107-115 | the options are the collection given, with no cached pickers |
| OptionPicker.Simple.All | java/episim-model/src/main/java/nl/rivm/cib/episim/model/OptionPicker.java:117-121 | the backing collection itself |
| OptionPicker.Simple.Total | java/episim-model/src/main/java/nl/rivm/cib/episim/model/OptionPicker.java:124-127 | the number of options, the size of all() |
| OptionPicker.Simple.Register | java/episim-model/src/main/java/nl/rivm/cib/episim/model/OptionPicker.java:130-134 | clears every cached picker and returns the collection's add result |
| OptionPicker.Simple.Unregister | java/episim-model/src/main/java/nl/rivm/cib/episim/model/OptionPicker.java:137-141 | clears every cached picker and returns the collection's remove result |
| OptionPicker.Weighted | java/episim-model/src/main/java/nl/rivm/cib/episim/model/OptionPicker.java:70-74 | the weighted values a picker is built from: each option with its weight, every option the evaluator weighs and no other |
| OptionPicker.Simple.PickFrom | java/episim-model/src/main/java/nl/rivm/cib/episim/model/OptionPicker.java:67-76 | computeIfAbsent: a cached evaluator gets its picker back unchanged; otherwise a picker is built from the current options weighed by the evaluator and cached |
| OptionPicker.RegisterThenPick | java/episim-model/src/main/java/nl/rivm/cib/episim/model/OptionPicker.java:67-76 | after a register the next pick draws from the options as they now are, the registered option among them whenever the evaluator weighs it |
| OptionPicker.RegisterUnregister | java/episim-model/src/main/java/nl/rivm/cib/episim/model/OptionPicker.java:130-141 | registering a new option and unregistering it restores the options, both reporting success |
| OptionPicker.RegisterTwice | java/episim-model/src/main/java/nl/rivm/cib/episim/model/OptionPicker.java:130-134 | on a set-like collection a second register changes nothing and reports false |
| Household.Simple.constructor | java/episim-model/src/main/java/nl/rivm/cib/episim/model/Household.java:110-114 | a household starts without members |
| Household.Simple.Join | java/episim-model/src/main/java/nl/rivm/cib/episim/model/Household.java:34-38 | the member is added, at most once, and the household itself is returned |
| Household.Simple.JoinAll | java/episim-model/src/main/java/nl/rivm/cib/episim/model/Household.java:40-44 | all of the other household's members are added, and that household keeps them |
| Household.Simple.Part | java/episim-model/src/main/java/nl/rivm/cib/episim/model/Household.java:50-54 | the member is removed |
| Household.Simple.PartAll | java/episim-model/src/main/java/nl/rivm/cib/episim/model/Household.java:60-64 | all of the leavers are removed; parting from itself empties the household |
| Household.Simple.Abandon | java/episim-model/src/main/java/nl/rivm/cib/episim/model/Household.java:69-73 | the members are cleared |
| DemographicEvent.Event.constructor | java/episim-demo/src/main/java/nl/rivm/cib/episim/geard/DemographicEvent.java:41-49 | no time, no arrivals or departures, size change 0 |
| DemographicEvent.Builder.Of | java/episim-demo/src/main/java/nl/rivm/cib/episim/geard/DemographicEvent.java:96-104 | a fresh event with size change 0 and no participants, holding the given time, a missing (null) time included |
| DemographicEvent.Builder.WithUpdatedDelta | java/episim-demo/src/main/java/nl/rivm/cib/episim/geard/DemographicEvent.java:106-111 | the size change becomes the number of arrivals less the number of departures; nothing else changes |
| DemographicEvent.Builder.WithArrivals | java/episim-demo/src/main/java/nl/rivm/cib/episim/geard/DemographicEvent.java:113-119 | null throws NullPointer and changes nothing; otherwise the arrivals are set and the size change updated |
| DemographicEvent.Builder.WithDepartures | java/episim-demo/src/main/java/nl/rivm/cib/episim/geard/DemographicEvent.java:121-127 | null throws NullPointer and changes nothing; otherwise the departures are set and the size change updated |
| DemographicEvent.Builder.Build | java/episim-demo/src/main/java/nl/rivm/cib/episim/geard/DemographicEvent.java:129-132 | the event built so far |

## Left out

- Parallel streams and the concurrency of the scheduler are not modelled: every stream runs in order.
- BigDecimal values and `DecimalUtil.divide` are exact reals. Rounding to a scale is not modelled.
- Java `int` and `long` overflow is not modelled, and neither is `Math.abs(Long.MIN_VALUE)`. The counts of the demo log are unbounded integers. `Integer.valueOf` is modelled with its 32-bit range check.
- VaxHesitancyModel.WeightedAverager.SetCalculation: the early return when the same calculation object is set again is not modelled. The reset happens every time, which is what the source does for any new value.
- VaxHesitancyModel: the attitude backed by a row of a UJMP matrix (VaxHesitancy.java:317-386) is left out. Its `determinants()` builds the product of the filtered appreciation row and the position matrix and caches it; `observe` writes two cells of the position matrix and clears that cache; `setCalculation` clears it too. The model's weighted averager keeps the same positions and weights as maps instead.
- HesitantLevel: this is `HesitantScenario.Level` (HesitantScenario.java:76). The distribution draws that pick levels are left out, because they depend on random number generation.
- VaxHesitancy and VaxHesitant: `isHesitant` (VaxHesitancy.java:218-226, VaxHesitant.java:203-208) is deterministic but left out. It compares the convenience with a product of binary entropies, which take logarithms, and logarithms have no exact counterpart in Dafny's reals.
- VaxHesitant.WeightedAverager.SetCalculation: the early return when the same object is set again (VaxHesitant.java:261-264) is not modelled. The model resets on every call, so it differs from the source only when the identical object is passed in again.
- CbsRegionType.ParseTrimmed: the prefix is compared with ASCII case folding only. Java's `equalsIgnoreCase` also folds some non-ASCII characters, such as the Kelvin sign U+212A to "k" and the long s U+017F to "S", so a code starting with one of these would match a prefix in Java and not in the model.
- CbsRegionType.PrefixMatch: stated for ASCII case folding only; the non-ASCII characters `equalsIgnoreCase` also folds (U+212A, U+017F and their like) are not modelled.
- CbsRegionType.FirstByPrefix: matches prefixes with ASCII case folding only, for the same reason as CbsRegionType.ParseTrimmed.
- CbsRegionType.ParseTrimmed: a Java string is a sequence of UTF-16 code units, while the model's string is a sequence of Unicode scalar values. The two differ only for characters outside the Basic Multilingual Plane (U+10000 and above), which Java stores as two code units. For them `length()`, `substring` and `charAt` count differently. So "NL" followed by U+1F600 is NUTS1 in the model but NUTS2 in Java (CBSRegionType.java:176-183). U+1F600 alone is IndexOutOfBounds in the model, where Java finds no prefix and throws IllegalArgumentException (CBSRegionType.java:189-195). CBS region codes are ASCII, and on ASCII the two agree.
- CbsRegionType.ParseNational: counts the length of an "NL" code in scalar values, not UTF-16 code units, for the reason given under CbsRegionType.ParseTrimmed.
- CbsRegionType.Parse: inherits the scalar-value lengths and indices of CbsRegionType.ParseTrimmed.
- JavaStrings.LexIrreflexive, JavaStrings.LexTransitive, JavaStrings.LexTotal and JavaStrings.LexAsymmetric: are stated for LexLess, which orders strings by scalar value. Java's `String.compareTo` orders by UTF-16 code unit, so it ranks characters from U+10000 upward below U+E000–U+FFFF, where LexLess ranks them above. The ascending code order in which CbsRegionHistory.ExpandAll expands the histories therefore matches Java's only for codes without such characters.
- CbsRegionHistory.ExpandAll: expands the codes in scalar-value order, which differs from the UTF-16 order of Java's TreeMap only for codes with characters from U+10000 upward (see the JavaStrings order lemmas above).
- JavaStrings.UpperAscii: upper-cases ASCII letters only. Java's `toUpperCase` maps other letters too and depends on the default locale.
- JavaStrings.EqualsIgnoreCaseUpper: models `equalsIgnoreCase` with ASCII case folding only; Unicode case folding is not modelled.
- JavaStrings.ParseInt: accepts ASCII digits only. Java's `Integer.valueOf` also accepts other Unicode decimal digits (Arabic-Indic digits, full-width digits and their like).
- Mseirs.LowerDashed: lowers ASCII letters only and does not depend on a locale. Java's `toLowerCase()` uses the default locale, so under a Turkish locale "I" becomes a dotless "ı".
- SocialConnector and HHConnector: the path through `setSymmetric` for a null or non-BigDecimal weight is left out. So are UJMP's bounds checks, and the `connect` generators built on random graphs (Watts–Strogatz and its like).
- HHConnector.AvailablePeers: `availableCoordinates` is modelled only through the peers it yields. The UJMP iteration it wraps is library code.
- SparseMatrix is a map from coordinates to weights, not UJMP's storage.
- Cbs83287Json: reading and parsing the JSON file (`parse`, `main`) is left out. The model starts from the parsed columns.
- HashMap, HashSet and `keySet` iteration order is modelled as insertion order.
- DemoConfig.Ranked: ties keep their input order, because the model's insertion sort is stable. Java's sort of the key set is stable too, but the key set's own order is HashMap order.
- DemoConfig: `toLine` is left out. It stamps the wall-clock time (`ZonedDateTime.now()`) into each line, and the rest of the line is sums already covered by the counts.
- Plain getters, `toString` and format strings are not modelled.
- OptionPicker: `pick(rng)` (OptionPicker.java:53-56) is left out, because it is a random draw. The pick with an evaluator (OptionPicker.java:67-76) is modelled up to the picker `distGen` builds: the model gives the weighted values the picker is built from, not the value its supplier draws. The evaluator functions are identified by a number. `preferLargest`, `preferSmallest`, `preferFarthest` and `preferNearest` (OptionPicker.java:78-105) are left out: they draw nothing, but they are built on units-of-measure arithmetic and on angular distance between coordinates, which come from libraries that are not part of this model.
- Household: `move`, `getHome` and `population` are left out. They delegate to other components.
- DemographicEvent: the reflective subclass construction and `toString` are left out.
- Store: `iterator`, `toArray`, `containsAll` and the scheduler accessor are left out. The events are modelled as an appended log, not as Rx subjects.
- CbsRegionHistory: `allChangesDuring` is left out, because it depends on the `Range` API of the io.coala library, which is not part of this model. `main` and the reading of the file are left out too. The model starts from the file's lines.
- RvpBmr: the io.coala `Range` used for the age windows is modelled by the upper bound compared with `<`, as the schedule uses it.
- Extreme.CompareWith: two inclusive extremes at one value and at different boundaries compare by boundary, the lower one first. The source calls them EQUIVALENT, but no transitive order can keep that answer (see Findings).
- CbsRegionHistory.ExpandChain: the corrected loop stops at a code it has already followed. The source's loop does not stop there (see Findings).

## Findings

| source | as written | input that shows it | evidently intended | confidence | as-written member | corrected member |
|---|---|---|---|---|---|---|
| java/episim-api/src/main/java/nl/rivm/cib/episim/math/Extreme.java:139-147 | `compareWith` returns `that.compareLimit(...)` without reversing its sign, and compares inclusiveness at the argument's limit | `Lower(5, inclusive)` against `NegativeInfinity`, and `Lower(1, exclusive)` against `Lower(1, inclusive)`: in each pair both sides compare LESS than the other | an antisymmetric order, as `Comparable` requires | not executed | Extreme.CompareWithAsWrittenNotAntisymmetric | Extreme.CompareWithAntisymmetric |
| java/episim-api/src/main/java/nl/rivm/cib/episim/math/Extreme.java:144-149 | two inclusive extremes at one value are EQUIVALENT whatever their boundaries, while each compares with an exclusive extreme at that value by its own boundary | `Lower(5, inclusive)` and `Upper(5, inclusive)` are equivalent, yet against `Lower(5, exclusive)` the first compares LESS and the second GREATER | a transitive order in which equivalent extremes compare alike with every third one, as `Comparable` requires | not executed | Extreme.CompareWithAsWrittenTieInconsistent | Extreme.CompareWithEquivalentAlike |
| java/episim-demo/src/main/java/nl/rivm/cib/demo/Persons.java:53-58 | `shift` moves every position after the departed one up one ordinal, across the adult/child line | the partner leaves: `CHILD1.shift(PARTNER)` is `PARTNER`, so a child becomes an adult | only children move up, and only behind a departed child | not executed | Persons.ShiftAsWrittenPromotesChild | Persons.ShiftKeepsAdulthood |
| java/epidemes-core/src/main/java/nl/rivm/cib/epidemes/data/cbs/CbsRegionHistory.java:88-97 | the expansion loop follows the last entry's code until that code has no history | A becomes B on 2000-01-01 and B becomes C on 1990-01-01: after `putAll` the last entry of A is still B, so the loop never ends | the loop ends once it reaches a code it has already followed | not executed | CbsRegionHistory.ExpandChainAsWrittenDiverges | CbsRegionHistory.ExpandChain |

=== FILE: cbs83287_json.dfy ===
/**
 * The CBS table 83287 ("areas in the Netherlands") as read from JSON: the
 * municipality codes, and per other regional division a column holding,
 * for every municipality, the code of the region it lies in (or an empty
 * string). Two views are built from it: per municipality, its regions by
 * kind; and per kind of region, the municipalities in each region.
 */
module Cbs83287Json {
  import opened Wrappers
  import CbsRegionType

  type RegionType = CbsRegionType.RegionType

  /**
   * reg: the municipality codes; refs: the other columns, in the ascending
   * order of their JSON keys (a TreeMap), each listing one region code per
   * municipality.
   */
  datatype Table = Table(reg: seq<string>, refs: seq<seq<string>>)

  /**
   * The classifier of region codes, CBSRegionType.parse; the collectors
   * below take it as a parameter and the public views pass TypeOf.
   */
  type Parser = string -> Result<Option<RegionType>>

  /** CBSRegionType.parse of a region code. */
  function TypeOf(ref: string): Result<Option<RegionType>>
  {
    CbsRegionType.ParseSpec(Some(ref))
  }

  /** A non-empty region code that parses to the kind t. */
  predicate Keyed(parse: Parser, ref: string, t: RegionType)
  {
    ref != "" && parse(ref) == Ok(Some(t))
  }

  /** Column l holds, for municipality i, a code of the kind t. */
  ghost predicate KeyedAt(parse: Parser, refs: seq<seq<string>>, i: nat, l: int, t: RegionType)
  {
    0 <= l < |refs| && i < |refs[l]| && Keyed(parse, refs[l][i], t)
  }

  /** Column l is the first from column k on to hold, for municipality i, a code of the kind t. */
  ghost predicate FirstKeyedAt(parse: Parser, refs: seq<seq<string>>, i: nat, k: nat, l: int, t: RegionType)
  {
    k <= l && KeyedAt(parse, refs, i, l, t) && forall m :: k <= m < l ==> !KeyedAt(parse, refs, i, m, t)
  }

  // --------------------------------------------------------------- toMap

  /**
   * The inner collector of toMap for municipality i over the columns from
   * k on: empty codes are skipped, every other code is keyed by its kind,
   * and a kind already present keeps its first code. A column without an
   * entry for i throws, and so does a code that parse cannot classify; a
   * blank code parses to null, which an EnumMap refuses as a key.
   */
  function Regions(parse: Parser, refs: seq<seq<string>>, i: nat, k: nat, acc: map<RegionType, string>)
    : (r: Result<map<RegionType, string>>)
    ensures r.Ok? ==> forall l :: k <= l < |refs| ==> i < |refs[l]|
    decreases |refs| - k
  {
    if k >= |refs| then Ok(acc)
    else if i >= |refs[k]| then Err(IndexOutOfBounds)
    else if refs[k][i] == "" then Regions(parse, refs, i, k + 1, acc)
    else
      match parse(refs[k][i])
      case Err(e) => Err(e)
      case Ok(None) => Err(NullPointer)
      case Ok(Some(t)) => Regions(parse, refs, i, k + 1, if t in acc then acc else acc[t := refs[k][i]])
  }

  /** The step of the inner collector at column k, for a column that has an entry and does not throw. */
  function Step(parse: Parser, code: string, acc: map<RegionType, string>): map<RegionType, string>
    requires code != "" ==> parse(code).Ok? && parse(code).value.Some?
  {
    if code == "" then acc
    else
      var u := parse(code).value.value;
      if u in acc then acc else acc[u := code]
  }

  /** An inner collector that succeeds from column k on is the step at k followed by the rest. */
  lemma RegionsUnfold(parse: Parser, refs: seq<seq<string>>, i: nat, k: nat, acc: map<RegionType, string>)
    requires Regions(parse, refs, i, k, acc).Ok? && k < |refs|
    ensures i < |refs[k]|
    ensures refs[k][i] != "" ==> parse(refs[k][i]).Ok? && parse(refs[k][i]).value.Some?
    ensures Regions(parse, refs, i, k, acc) == Regions(parse, refs, i, k + 1, Step(parse, refs[k][i], acc))
  {
  }

  /**
   * What the inner collector keeps of the kind t: the kind is present iff
   * it was already or some column from k on has a code of that kind, and
   * an earlier value stays.
   */
  lemma {:induction false} RegionsKind(parse: Parser, refs: seq<seq<string>>, i: nat, k: nat, acc: map<RegionType, string>,
                                       t: RegionType)
    requires Regions(parse, refs, i, k, acc).Ok?
    ensures var r := Regions(parse, refs, i, k, acc).value;
            && (t in r <==> t in acc || exists l :: k <= l && KeyedAt(parse, refs, i, l, t))
            && (t in acc ==> r[t] == acc[t])
    decreases |refs| - k
  {
    if k < |refs| {
      RegionsUnfold(parse, refs, i, k, acc);
      var next := Step(parse, refs[k][i], acc);
      RegionsKind(parse, refs, i, k + 1, next, t);
      if !KeyedAt(parse, refs, i, k, t) {
        assert t in next <==> t in acc;
        if exists l :: k <= l && KeyedAt(parse, refs, i, l, t) {
          var l :| k <= l && KeyedAt(parse, refs, i, l, t);
          assert k + 1 <= l;
        }
      }
    }
  }

  /** A kind the inner collector adds maps to the first code of that kind from column k on. */
  lemma {:induction false} RegionsFirst(parse: Parser, refs: seq<seq<string>>, i: nat, k: nat, acc: map<RegionType, string>,
                                        t: RegionType)
    requires Regions(parse, refs, i, k, acc).Ok?
    requires t in Regions(parse, refs, i, k, acc).value && t !in acc
    ensures exists l :: FirstKeyedAt(parse, refs, i, k, l, t) && Regions(parse, refs, i, k, acc).value[t] == refs[l][i]
    decreases |refs| - k
  {
    if k < |refs| {
      RegionsUnfold(parse, refs, i, k, acc);
      var next := Step(parse, refs[k][i], acc);
      var r := Regions(parse, refs, i, k + 1, next).value;
      if KeyedAt(parse, refs, i, k, t) {
        RegionsKind(parse, refs, i, k + 1, next, t);
        FirstKeyedAtHere(parse, refs, i, k, t);
        assert r[t] == refs[k][i];
      } else {
        assert t !in next;
        RegionsFirst(parse, refs, i, k + 1, next, t);
        var l :| FirstKeyedAt(parse, refs, i, k + 1, l, t) && r[t] == refs[l][i];
        FirstKeyedAtBefore(parse, refs, i, k, l, t);
      }
    }
  }

  /** A code of the kind t in column k is the first from k on. */
  lemma FirstKeyedAtHere(parse: Parser, refs: seq<seq<string>>, i: nat, k: nat, t: RegionType)
    requires KeyedAt(parse, refs, i, k, t)
    ensures FirstKeyedAt(parse, refs, i, k, k, t)
  {
  }

  /** The first code of the kind t from column k + 1 on is the first from k on when column k has none. */
  lemma FirstKeyedAtBefore(parse: Parser, refs: seq<seq<string>>, i: nat, k: nat, l: int, t: RegionType)
    requires FirstKeyedAt(parse, refs, i, k + 1, l, t) && !KeyedAt(parse, refs, i, k, t)
    ensures FirstKeyedAt(parse, refs, i, k, l, t)
  {
  }

  /**
   * The outer collector of toMap over the municipalities from i on: each
   * code maps to its regions; the regions are collected before the code is
   * checked, and a code seen before throws.
   */
  function MapFrom(parse: Parser, d: Table, i: nat, acc: map<string, map<RegionType, string>>)
    : (r: Result<map<string, map<RegionType, string>>>)
    ensures r.Ok? ==> forall c :: c in r.value <==> c in acc || exists j :: i <= j < |d.reg| && d.reg[j] == c
    ensures r.Ok? ==> forall c :: c in acc ==> r.value[c] == acc[c]
    ensures r.Ok? ==> forall j :: i <= j < |d.reg| ==> d.reg[j] !in acc
    ensures r.Ok? ==> forall j, l :: i <= j < l < |d.reg| ==> d.reg[j] != d.reg[l]
    decreases |d.reg| - i
  {
    if i >= |d.reg| then Ok(acc)
    else
      match Regions(parse, d.refs, i, 0, map[])
      case Err(e) => Err(e)
      case Ok(inner) =>
        if d.reg[i] in acc then Err(IllegalState)
        else MapFrom(parse, d, i + 1, acc[d.reg[i] := inner])
  }

  /** The outer collector holds, under each code from i on, the regions collected for that municipality. */
  lemma {:induction false} MapFromInner(parse: Parser, d: Table, i: nat, acc: map<string, map<RegionType, string>>, j: nat)
    requires MapFrom(parse, d, i, acc).Ok? && i <= j < |d.reg|
    ensures InnerOf(parse, d, j, MapFrom(parse, d, i, acc).value)
    decreases |d.reg| - i
  {
    var inner := Regions(parse, d.refs, i, 0, map[]).value;
    var next := acc[d.reg[i] := inner];
    assert MapFrom(parse, d, i, acc) == MapFrom(parse, d, i + 1, next);
    if j > i {
      MapFromInner(parse, d, i + 1, next, j);
    }
  }

  /** The map holds, under the code of municipality j, the regions collected for it. */
  ghost predicate InnerOf(parse: Parser, d: Table, j: nat, m: map<string, map<RegionType, string>>)
    requires j < |d.reg|
  {
    && d.reg[j] in m
    && var inner := Regions(parse, d.refs, j, 0, map[]);
    && inner.Ok?
    && m[d.reg[j]] == inner.value
  }

  /** toMap: every municipality code to its regions by kind. */
  function ToMap(d: Table): (r: Result<map<string, map<RegionType, string>>>)
    ensures r.Ok? ==> forall c :: c in r.value <==> c in d.reg
    ensures r.Ok? ==> |r.value| == |d.reg|
  {
    var r := MapFrom(TypeOf, d, 0, map[]);
    if r.Ok? then
      DistinctCount(d.reg, r.value);
      r
    else r
  }

  /** In toMap, municipality j has a region of the kind t iff some column gives it a code of that kind, and then the first such code. */
  lemma ToMapRegion(d: Table, j: nat, t: RegionType)
    requires ToMap(d).Ok? && j < |d.reg|
    ensures t in ToMap(d).value[d.reg[j]] <==> exists l :: KeyedAt(TypeOf, d.refs, j, l, t)
    ensures t in ToMap(d).value[d.reg[j]] ==>
              exists l :: FirstKeyedAt(TypeOf, d.refs, j, 0, l, t) && ToMap(d).value[d.reg[j]][t] == d.refs[l][j]
  {
    MapFromInner(TypeOf, d, 0, map[], j);
    RegionsKind(TypeOf, d.refs, j, 0, map[], t);
    if t in ToMap(d).value[d.reg[j]] {
      RegionsFirst(TypeOf, d.refs, j, 0, map[], t);
    }
  }

  /** Column l has an entry for municipality i, and that entry is empty or a code parse classifies. */
  ghost predicate Classifies(parse: Parser, refs: seq<seq<string>>, i: nat, l: nat)
    requires l < |refs|
  {
    i < |refs[l]| && (refs[l][i] != "" ==> parse(refs[l][i]).Ok? && parse(refs[l][i]).value.Some?)
  }

  /** The inner collector succeeds from column k on iff every column from k on classifies the municipality's entry. */
  lemma {:induction false} RegionsOk(parse: Parser, refs: seq<seq<string>>, i: nat, k: nat, acc: map<RegionType, string>)
    ensures Regions(parse, refs, i, k, acc).Ok? <==> forall l :: k <= l < |refs| ==> Classifies(parse, refs, i, l)
    decreases |refs| - k
  {
    if k < |refs| {
      if !Classifies(parse, refs, i, k) {
        assert Regions(parse, refs, i, k, acc).Err?;
      } else {
        var code := refs[k][i];
        if code == "" {
          RegionsOk(parse, refs, i, k + 1, acc);
        } else {
          var t := parse(code).value.value;
          RegionsOk(parse, refs, i, k + 1, if t in acc then acc else acc[t := code]);
        }
        assert (forall l :: k <= l < |refs| ==> Classifies(parse, refs, i, l)) <==>
               (forall l :: k + 1 <= l < |refs| ==> Classifies(parse, refs, i, l));
      }
    }
  }

  /** The outer collector succeeds from municipality i on when the codes from i on are distinct and new, and every row classifies. */
  lemma {:induction false} MapFromOk(parse: Parser, d: Table, i: nat, acc: map<string, map<RegionType, string>>)
    requires forall j, l :: i <= j < l < |d.reg| ==> d.reg[j] != d.reg[l]
    requires forall j :: i <= j < |d.reg| ==> d.reg[j] !in acc
    requires forall j, l :: i <= j < |d.reg| && 0 <= l < |d.refs| ==> Classifies(parse, d.refs, j, l)
    ensures MapFrom(parse, d, i, acc).Ok?
    decreases |d.reg| - i
  {
    if i < |d.reg| {
      RegionsOk(parse, d.refs, i, 0, map[]);
      var inner := Regions(parse, d.refs, i, 0, map[]).value;
      MapFromOk(parse, d, i + 1, acc[d.reg[i] := inner]);
    }
  }

  /** toMap succeeds iff the municipality codes are distinct and every column classifies every municipality's entry. */
  lemma ToMapOk(d: Table)
    ensures ToMap(d).Ok? <==>
              && (forall j, l :: 0 <= j < l < |d.reg| ==> d.reg[j] != d.reg[l])
              && (forall j, l :: 0 <= j < |d.reg| && 0 <= l < |d.refs| ==> Classifies(TypeOf, d.refs, j, l))
  {
    if ToMap(d).Ok? {
      forall j, l | 0 <= j < |d.reg| && 0 <= l < |d.refs|
        ensures Classifies(TypeOf, d.refs, j, l)
      {
        MapFromInner(TypeOf, d, 0, map[], j);
        RegionsOk(TypeOf, d.refs, j, 0, map[]);
      }
    } else if forall j, l :: 0 <= j < l < |d.reg| ==> d.reg[j] != d.reg[l] {
      if forall j, l :: 0 <= j < |d.reg| && 0 <= l < |d.refs| ==> Classifies(TypeOf, d.refs, j, l) {
        MapFromOk(TypeOf, d, 0, map[]);
      }
    }
  }

  /** A duplicate municipality code makes toMap throw. */
  lemma DuplicateThrows(d: Table, j: nat, l: nat)
    requires j < l < |d.reg| && d.reg[j] == d.reg[l]
    ensures ToMap(d).Err?
  {
  }

  /** A duplicate-free code list and a map keyed by exactly those codes have the same size. */
  lemma {:induction false} DistinctCount(codes: seq<string>, m: map<string, map<RegionType, string>>)
    requires forall j, l :: 0 <= j < l < |codes| ==> codes[j] != codes[l]
    requires forall c :: c in m <==> c in codes
    ensures |m| == |codes|
    decreases |codes|
  {
    if |codes| > 0 {
      var last := codes[|codes| - 1];
      var rest := codes[..|codes| - 1];
      var m' := map c | c in m && c != last :: m[c];
      assert forall c :: c in m' <==> c in rest;
      DistinctCount(rest, m');
      assert m.Keys == m'.Keys + {last};
    }
  }

  // -------------------------------------------------------- toReverseMap

  /** The reverse map lists the municipality under the region code, within its kind. */
  ghost predicate Listed(m: map<RegionType, map<string, set<string>>>, t: RegionType, ref: string, name: string)
  {
    t in m && ref in m[t] && name in m[t][ref]
  }

  /** The reducer of toReverseMap: adds the municipality to the set of the region, creating both levels as needed. */
  function AddEntry(m: map<RegionType, map<string, set<string>>>, t: RegionType, ref: string, name: string)
    : (r: map<RegionType, map<string, set<string>>>)
    ensures forall u, f, n :: Listed(r, u, f, n) <==> Listed(m, u, f, n) || (u == t && f == ref && n == name)
    ensures forall u :: u in r ==> forall f :: f in r[u] ==> r[u][f] != {} || (u in m && f in m[u] && m[u][f] == {})
  {
    var regions := if t in m then m[t] else map[];
    var members := if ref in regions then regions[ref] else {};
    m[t := regions[ref := members + {name}]]
  }

  /**
   * The entries of one municipality, over the columns from k on: an empty
   * code is skipped, the others are keyed by their kind, which may throw as
   * in toMap.
   */
  function ReverseRow(parse: Parser, refs: seq<seq<string>>, i: nat, k: nat, name: string,
                      acc: map<RegionType, map<string, set<string>>>)
    : (r: Result<map<RegionType, map<string, set<string>>>>)
    ensures r.Ok? ==> forall l :: k <= l < |refs| ==> i < |refs[l]|
    ensures r.Ok? ==> forall t, ref, n :: Listed(r.value, t, ref, n) <==>
                        Listed(acc, t, ref, n) || (n == name && exists l :: k <= l && KeyedAt(parse, refs, i, l, t) && refs[l][i] == ref)
    decreases |refs| - k
  {
    if k >= |refs| then Ok(acc)
    else if i >= |refs[k]| then Err(IndexOutOfBounds)
    else if refs[k][i] == "" then ReverseRow(parse, refs, i, k + 1, name, acc)
    else
      match parse(refs[k][i])
      case Err(e) => Err(e)
      case Ok(None) => Err(NullPointer)
      case Ok(Some(t)) => ReverseRow(parse, refs, i, k + 1, name, AddEntry(acc, t, refs[k][i], name))
  }

  /** toReverseMap over the municipalities from i on. */
  function ReverseFrom(parse: Parser, d: Table, i: nat, acc: map<RegionType, map<string, set<string>>>)
    : (r: Result<map<RegionType, map<string, set<string>>>>)
    ensures r.Ok? ==> forall t, ref, n :: Listed(r.value, t, ref, n) <==>
                        Listed(acc, t, ref, n) || exists j :: i <= j < |d.reg| && n == d.reg[j] && HoldsCode(parse, d, j, t, ref)
    decreases |d.reg| - i
  {
    if i >= |d.reg| then Ok(acc)
    else
      match ReverseRow(parse, d.refs, i, 0, d.reg[i], acc)
      case Err(e) => Err(e)
      case Ok(m) => ReverseFrom(parse, d, i + 1, m)
  }

  /** One municipality's entries are collected iff every column classifies its entry, as in toMap. */
  lemma {:induction false} ReverseRowOk(parse: Parser, refs: seq<seq<string>>, i: nat, k: nat, name: string,
                                        acc: map<RegionType, map<string, set<string>>>)
    ensures ReverseRow(parse, refs, i, k, name, acc).Ok? <==> forall l :: k <= l < |refs| ==> Classifies(parse, refs, i, l)
    decreases |refs| - k
  {
    if k < |refs| {
      if !Classifies(parse, refs, i, k) {
        assert ReverseRow(parse, refs, i, k, name, acc).Err?;
      } else {
        var code := refs[k][i];
        if code == "" {
          ReverseRowOk(parse, refs, i, k + 1, name, acc);
        } else {
          ReverseRowOk(parse, refs, i, k + 1, name, AddEntry(acc, parse(code).value.value, code, name));
        }
        assert (forall l :: k <= l < |refs| ==> Classifies(parse, refs, i, l)) <==>
               (forall l :: k + 1 <= l < |refs| ==> Classifies(parse, refs, i, l));
      }
    }
  }

  /** The reduction from municipality i on succeeds iff every column classifies the entry of every municipality from i on. */
  lemma {:induction false} ReverseFromOk(parse: Parser, d: Table, i: nat, acc: map<RegionType, map<string, set<string>>>)
    ensures ReverseFrom(parse, d, i, acc).Ok? <==>
              forall j, l :: i <= j < |d.reg| && 0 <= l < |d.refs| ==> Classifies(parse, d.refs, j, l)
    decreases |d.reg| - i
  {
    if i < |d.reg| {
      ReverseRowOk(parse, d.refs, i, 0, d.reg[i], acc);
      match ReverseRow(parse, d.refs, i, 0, d.reg[i], acc)
      case Err(_) =>
      case Ok(m) =>
        ReverseFromOk(parse, d, i + 1, m);
        assert (forall j, l :: i <= j < |d.reg| && 0 <= l < |d.refs| ==> Classifies(parse, d.refs, j, l)) <==>
               (forall l :: 0 <= l < |d.refs| ==> Classifies(parse, d.refs, i, l)) &&
               (forall j, l :: i + 1 <= j < |d.reg| && 0 <= l < |d.refs| ==> Classifies(parse, d.refs, j, l));
    }
  }

  /** Some column gives municipality j the code ref, of the kind t. */
  ghost predicate HoldsCode(parse: Parser, d: Table, j: nat, t: RegionType, ref: string)
  {
    exists l :: KeyedAt(parse, d.refs, j, l, t) && d.refs[l][j] == ref
  }

  /**
   * toReverseMap: per kind and per region code, the municipalities whose
   * column holds that code; every municipality is listed under each
   * non-empty code it has, and nothing else is listed. It throws exactly
   * when some column has no entry for a municipality, or an entry that
   * CBSRegionType.parse cannot classify; repeated municipality codes do not
   * make it throw, unlike toMap.
   */
  function ToReverseMap(d: Table): (r: Result<map<RegionType, map<string, set<string>>>>)
    ensures r.Ok? <==> forall j, l :: 0 <= j < |d.reg| && 0 <= l < |d.refs| ==> Classifies(TypeOf, d.refs, j, l)
    ensures r.Ok? ==> forall t, ref, n :: Listed(r.value, t, ref, n) <==>
                        exists j :: 0 <= j < |d.reg| && n == d.reg[j] && HoldsCode(TypeOf, d, j, t, ref)
  {
    ReverseFromOk(TypeOf, d, 0, map[]);
    ReverseFrom(TypeOf, d, 0, map[])
  }

  /** The two views agree: a municipality's region of a kind in toMap lists the municipality in toReverseMap. */
  lemma MapAndReverseAgree(d: Table, j: nat, t: RegionType)
    requires ToMap(d).Ok?
    requires j < |d.reg| && t in ToMap(d).value[d.reg[j]]
    ensures ToReverseMap(d).Ok?
    ensures Listed(ToReverseMap(d).value, t, ToMap(d).value[d.reg[j]][t], d.reg[j])
  {
    ToMapOk(d);
    ToMapRegion(d, j, t);
    var l :| FirstKeyedAt(TypeOf, d.refs, j, 0, l, t) && ToMap(d).value[d.reg[j]][t] == d.refs[l][j];
    assert HoldsCode(TypeOf, d, j, t, d.refs[l][j]);
  }
}

=== FILE: cbs_household.dfy ===
/**
 * CBS household compositions (Statistics Netherlands household types) and
 * the moves between them when an adult or a child joins or leaves.
 * Aggregate constants (totals and "or more" groupings) have no moves, except
 * that a childless polynuclear household may gain a child.
 */
module CbsHousehold {
  import opened Wrappers

  datatype Composition =
    | TOTAL
    | POLY_NOKIDS | POLY_1PLUSKIDS
    | SOLO_NOKIDS | SOLO_1PLUSKIDS | SOLO_1KID | SOLO_2KIDS | SOLO_3PLUSKIDS
    | DUO_0PLUSKIDS | DUO_NOKIDS | DUO_1KID | DUO_2KIDS | DUO_3PLUSKIDS
    | REGDUO_0PLUS | REGDUO_NOKIDS | REGDUO_1KID | REGDUO_2KIDS | REGDUO_3PLUSKIDS
    | OTHER

  // The constructor arguments of each constant: aggregate, adult count,
  // registered partnership, child count and "or more" children.

  predicate Aggregate(h: Composition)
  {
    h in {TOTAL, POLY_NOKIDS, POLY_1PLUSKIDS, SOLO_1PLUSKIDS, DUO_0PLUSKIDS, REGDUO_0PLUS, OTHER}
  }

  function AdultCount(h: Composition): nat
  {
    match h
    case TOTAL | OTHER => 0
    case SOLO_NOKIDS | SOLO_1PLUSKIDS | SOLO_1KID | SOLO_2KIDS | SOLO_3PLUSKIDS => 1
    case _ => 2
  }

  predicate Registered(h: Composition)
  {
    h in {REGDUO_0PLUS, REGDUO_NOKIDS, REGDUO_1KID, REGDUO_2KIDS, REGDUO_3PLUSKIDS}
  }

  function ChildCount(h: Composition): nat
  {
    match h
    case POLY_1PLUSKIDS | SOLO_1PLUSKIDS | SOLO_1KID | DUO_1KID | REGDUO_1KID => 1
    case SOLO_2KIDS | DUO_2KIDS | REGDUO_2KIDS => 2
    case SOLO_3PLUSKIDS | DUO_3PLUSKIDS | REGDUO_3PLUSKIDS => 3
    case _ => 0
  }

  predicate More(h: Composition)
  {
    h in {TOTAL, POLY_1PLUSKIDS, SOLO_1PLUSKIDS, SOLO_3PLUSKIDS, DUO_0PLUSKIDS,
          DUO_3PLUSKIDS, REGDUO_0PLUS, REGDUO_3PLUSKIDS, OTHER}
  }

  /** The household size: its adults plus its (minimum number of) children. */
  function Size(h: Composition): (r: nat)
    ensures !Aggregate(h) ==> 1 <= r <= 5
    ensures r == 0 <==> h in {TOTAL, OTHER}
  {
    AdultCount(h) + ChildCount(h)
  }

  /** A single parent (or single person) is joined by a partner. */
  function PlusAdult(h: Composition): (r: Result<Composition>)
    ensures r.Ok? <==> !Aggregate(h) && AdultCount(h) == 1
    ensures r.Err? ==> r.error == IllegalState
    ensures r.Ok? ==> !Aggregate(r.value) && AdultCount(r.value) == 2 && !Registered(r.value)
                      && ChildCount(r.value) == ChildCount(h) && More(r.value) == More(h)
  {
    match h
    case SOLO_NOKIDS => Ok(DUO_NOKIDS)
    case SOLO_1KID => Ok(DUO_1KID)
    case SOLO_2KIDS => Ok(DUO_2KIDS)
    case SOLO_3PLUSKIDS => Ok(DUO_3PLUSKIDS)
    case _ => Err(IllegalState)
  }

  /** One of a couple leaves; a registered couple becomes a single parent too. */
  function MinusAdult(h: Composition): (r: Result<Composition>)
    ensures r.Ok? <==> !Aggregate(h) && AdultCount(h) == 2
    ensures r.Err? ==> r.error == IllegalState
    ensures r.Ok? ==> !Aggregate(r.value) && AdultCount(r.value) == 1 && !Registered(r.value)
                      && ChildCount(r.value) == ChildCount(h) && More(r.value) == More(h)
  {
    match h
    case REGDUO_NOKIDS | DUO_NOKIDS => Ok(SOLO_NOKIDS)
    case REGDUO_1KID | DUO_1KID => Ok(SOLO_1KID)
    case REGDUO_2KIDS | DUO_2KIDS => Ok(SOLO_2KIDS)
    case REGDUO_3PLUSKIDS | DUO_3PLUSKIDS => Ok(SOLO_3PLUSKIDS)
    case _ => Err(IllegalState)
  }

  /** A child joins; three or more children is the last step of each family. */
  function PlusChild(h: Composition): (r: Result<Composition>)
    ensures r.Ok? <==> (!Aggregate(h) && AdultCount(h) >= 1) || h == POLY_NOKIDS
    ensures r.Err? ==> r.error == IllegalState
    ensures r.Ok? ==> AdultCount(r.value) == AdultCount(h) && Registered(r.value) == Registered(h)
                      && Aggregate(r.value) == Aggregate(h)
                      && ChildCount(r.value) == (if ChildCount(h) < 3 then ChildCount(h) + 1 else 3)
                      && More(r.value) == (Aggregate(h) || ChildCount(r.value) == 3)
  {
    match h
    case SOLO_NOKIDS => Ok(SOLO_1KID)
    case SOLO_1KID => Ok(SOLO_2KIDS)
    case SOLO_2KIDS | SOLO_3PLUSKIDS => Ok(SOLO_3PLUSKIDS)
    case DUO_NOKIDS => Ok(DUO_1KID)
    case DUO_1KID => Ok(DUO_2KIDS)
    case DUO_2KIDS | DUO_3PLUSKIDS => Ok(DUO_3PLUSKIDS)
    case REGDUO_NOKIDS => Ok(REGDUO_1KID)
    case REGDUO_1KID => Ok(REGDUO_2KIDS)
    case REGDUO_2KIDS | REGDUO_3PLUSKIDS => Ok(REGDUO_3PLUSKIDS)
    case POLY_NOKIDS => Ok(POLY_1PLUSKIDS)
    case _ => Err(IllegalState)
  }

  /**
   * A child leaves. Childless compositions have no child to remove, and
   * aggregates have no defined successor; both throw IllegalStateException.
   */
  function MinusChild(h: Composition): (r: Result<Composition>)
    ensures r.Ok? <==> !Aggregate(h) && AdultCount(h) >= 1 && ChildCount(h) >= 1
    ensures r.Err? ==> r.error == IllegalState
    ensures r.Ok? ==> AdultCount(r.value) == AdultCount(h) && Registered(r.value) == Registered(h)
                      && !Aggregate(r.value) && !More(r.value)
                      && ChildCount(r.value) == ChildCount(h) - 1
  {
    match h
    case SOLO_1KID => Ok(SOLO_NOKIDS)
    case SOLO_2KIDS => Ok(SOLO_1KID)
    case SOLO_3PLUSKIDS => Ok(SOLO_2KIDS)
    case DUO_1KID => Ok(DUO_NOKIDS)
    case DUO_2KIDS => Ok(DUO_1KID)
    case DUO_3PLUSKIDS => Ok(DUO_2KIDS)
    case REGDUO_1KID => Ok(REGDUO_NOKIDS)
    case REGDUO_2KIDS => Ok(REGDUO_1KID)
    case REGDUO_3PLUSKIDS => Ok(REGDUO_2KIDS)
    case _ => Err(IllegalState)
  }

  /** Removing the child just added restores the composition, below three children. */
  lemma MinusChildAfterPlusChild(h: Composition)
    requires !Aggregate(h) && AdultCount(h) >= 1 && ChildCount(h) < 3
    ensures PlusChild(h).Ok? && MinusChild(PlusChild(h).value) == Ok(h)
  {
  }

  /** Adding a child back after removing one restores the composition. */
  lemma PlusChildAfterMinusChild(h: Composition)
    requires MinusChild(h).Ok?
    ensures PlusChild(MinusChild(h).value) == Ok(h)
  {
  }

  /** Two children and three-or-more children both move to three-or-more. */
  lemma PlusChildSaturates()
    ensures PlusChild(SOLO_2KIDS) == PlusChild(SOLO_3PLUSKIDS) == Ok(SOLO_3PLUSKIDS)
    ensures PlusChild(DUO_2KIDS) == PlusChild(DUO_3PLUSKIDS) == Ok(DUO_3PLUSKIDS)
    ensures PlusChild(REGDUO_2KIDS) == PlusChild(REGDUO_3PLUSKIDS) == Ok(REGDUO_3PLUSKIDS)
  {
  }

  /** A partner joining and leaving again restores a single-adult household. */
  lemma MinusAdultAfterPlusAdult(h: Composition)
    requires PlusAdult(h).Ok?
    ensures MinusAdult(PlusAdult(h).value) == Ok(h)
  {
  }

  /** A partner leaving and rejoining gives the unregistered couple with the same children. */
  lemma PlusAdultAfterMinusAdult(h: Composition)
    requires MinusAdult(h).Ok?
    ensures PlusAdult(MinusAdult(h).value).Ok?
    ensures var r := PlusAdult(MinusAdult(h).value).value;
      r == h || (Registered(h) && !Registered(r) && ChildCount(r) == ChildCount(h) && More(r) == More(h))
  {
  }

  /** Every move changes the size by exactly the person who joined or left, until three children. */
  lemma SizeSteps(h: Composition)
    ensures PlusAdult(h).Ok? ==> Size(PlusAdult(h).value) == Size(h) + 1
    ensures MinusAdult(h).Ok? ==> Size(MinusAdult(h).value) == Size(h) - 1
    ensures PlusChild(h).Ok? && ChildCount(h) < 3 ==> Size(PlusChild(h).value) == Size(h) + 1
    ensures MinusChild(h).Ok? ==> Size(MinusChild(h).value) == Size(h) - 1
  {
  }
}

=== FILE: cbs_region_history.dfy ===
/**
 * The history of Dutch municipality codes, read from the CBS table of
 * municipal changes: one row per change, with the date it took effect, the
 * old code, the new code, and the current code and name. The rows are
 * grouped per old code into a date-ordered history of new codes; every
 * history is then extended with the history of the code it ends in.
 */
module CbsRegionHistory {
  import opened Wrappers
  import JavaStrings

  // ------------------------------------------------------------- columns

  /** The number of columns of a row (Col.values().length). */
  const ColumnCount: nat := 6
  /** The ordinals of the columns read: CHANGE_DATE, FROM_CODE and TO_CODE. */
  const ChangeDate: nat := 0
  const FromCode: nat := 2
  const ToCode: nat := 3

  // --------------------------------------------------------------- dates

  /** A LocalDate of the ISO calendar. */
  datatype Date = Date(year: int, month: int, day: int)

  /** LocalDate.isBefore: by year, then month, then day. */
  predicate Before(a: Date, b: Date)
  {
    a.year < b.year || (a.year == b.year && (a.month < b.month || (a.month == b.month && a.day < b.day)))
  }

  const MinYear: int := -999_999_999
  const MaxYear: int := 999_999_999

  /** The proleptic leap-year rule. */
  predicate IsLeap(year: int)
  {
    year % 4 == 0 && (year % 100 != 0 || year % 400 == 0)
  }

  function MonthLength(year: int, month: int): (n: int)
    requires 1 <= month <= 12
    ensures 28 <= n <= 31
    ensures n == 29 <==> month == 2 && IsLeap(year)
  {
    if month == 2 then (if IsLeap(year) then 29 else 28)
    else if month == 4 || month == 6 || month == 9 || month == 11 then 30
    else 31
  }

  predicate ValidDate(d: Date)
  {
    MinYear <= d.year <= MaxYear && 1 <= d.month <= 12 && 1 <= d.day <= MonthLength(d.year, d.month)
  }

  /** LocalDate.of(year, month, day): refuses a year, month or day out of range. */
  function MakeDate(year: int, month: int, day: int): (r: Result<Date>)
    ensures r.Ok? <==> ValidDate(Date(year, month, day))
    ensures r.Ok? ==> r.value == Date(year, month, day)
    ensures r.Err? ==> r.error == DateTime
  {
    if year < MinYear || year > MaxYear then Err(DateTime)
    else if month < 1 || month > 12 then Err(DateTime)
    else if day < 1 || day > MonthLength(year, month) then Err(DateTime)
    else Ok(Date(year, month, day))
  }

  /**
   * The change date "d-m-yyyy": split at '-', then the third piece is the
   * year, the second the month and the first the day, each read with
   * Integer.valueOf, in that order.
   */
  function ParseDate(field: string): (r: Result<Date>)
    ensures |JavaStrings.Split(field, '-')| < 3 ==> r == Err(IndexOutOfBounds)
    ensures r.Ok? ==> ValidDate(r.value)
    ensures r.Err? ==> r.error in {IndexOutOfBounds, NumberFormat, DateTime}
  {
    var date := JavaStrings.Split(field, '-');
    if |date| < 3 then Err(IndexOutOfBounds)
    else
      match JavaStrings.ParseInt(date[2])
      case Err(e) => Err(e)
      case Ok(year) =>
        match JavaStrings.ParseInt(date[1])
        case Err(e) => Err(e)
        case Ok(month) =>
          match JavaStrings.ParseInt(date[0])
          case Err(e) => Err(e)
          case Ok(day) => MakeDate(year, month, day)
  }

  /** A date written day-month-year, as the table writes it. */
  function FormatDate(d: Date): string
  {
    JavaStrings.LongToString(d.day) + "-" + JavaStrings.LongToString(d.month) + "-" + JavaStrings.LongToString(d.year)
  }

  /** Every valid date of a year from zero on reads back from its day-month-year text. */
  lemma ParseFormatDate(d: Date)
    requires ValidDate(d) && d.year >= 0
    ensures ParseDate(FormatDate(d)) == Ok(d)
  {
    var parts := [JavaStrings.LongToString(d.day), JavaStrings.LongToString(d.month), JavaStrings.LongToString(d.year)];
    NoDashInDigits(parts[0]);
    NoDashInDigits(parts[1]);
    NoDashInDigits(parts[2]);
    assert parts[1..][1..] == [parts[2]];
    assert JavaStrings.Join("-", parts[1..]) == parts[1] + "-" + parts[2];
    assert JavaStrings.Join("-", parts) == parts[0] + "-" + (parts[1] + "-" + parts[2]);
    assert JavaStrings.Join("-", parts) == FormatDate(d);
    JavaStrings.SplitJoin(parts, '-');
    JavaStrings.ParseIntLongToString(d.year);
    JavaStrings.ParseIntLongToString(d.month);
    JavaStrings.ParseIntLongToString(d.day);
  }

  lemma NoDashInDigits(s: string)
    requires JavaStrings.AllDigits(s)
    ensures '-' !in s
  {
    forall i | 0 <= i < |s| ensures s[i] != '-' {
      assert JavaStrings.IsDigit(s[i]);
    }
  }

  // ---------------------------------------------------------------- rows

  /** A kept row: the old code, the date of the change and the new code. */
  datatype Row = Row(from: string, date: Date, to: string)

  /**
   * One line of the table: split at ';' (trailing empty fields vanish); a
   * line without exactly six fields, or whose old and new codes are equal,
   * is dropped; otherwise its date is parsed, which may throw.
   */
  function ParseLine(line: string): (r: Result<Option<Row>>)
    ensures var v := JavaStrings.Split(line, ';');
            r == Ok(None) <==> |v| != ColumnCount || v[FromCode] == v[ToCode]
    ensures var v := JavaStrings.Split(line, ';');
            r.Ok? && r.value.Some? ==> |v| == ColumnCount && r.value.value == Row(v[FromCode], r.value.value.date, v[ToCode])
                                       && ParseDate(v[ChangeDate]) == Ok(r.value.value.date)
    ensures var v := JavaStrings.Split(line, ';');
            r.Err? ==> |v| == ColumnCount && ParseDate(v[ChangeDate]) == Err(r.error)
  {
    var v := JavaStrings.Split(line, ';');
    if |v| != ColumnCount || v[FromCode] == v[ToCode] then Ok(None)
    else
      match ParseDate(v[ChangeDate])
      case Err(e) => Err(e)
      case Ok(date) => Ok(Some(Row(v[FromCode], date, v[ToCode])))
  }

  /** The six fields of a row joined by ';'. */
  function FormatLine(date: Date, year: string, from: string, to: string, current: string, name: string): string
  {
    JavaStrings.Join(";", [FormatDate(date), year, from, to, current, name])
  }

  predicate PlainField(s: string) { ';' !in s }

  /** A well-formed line with a current name reads back as its row; one that changes nothing is dropped. */
  lemma ParseFormatLine(date: Date, year: string, from: string, to: string, current: string, name: string)
    requires ValidDate(date) && date.year >= 0
    requires PlainField(year) && PlainField(from) && PlainField(to) && PlainField(current) && PlainField(name)
    requires name != ""
    ensures ParseLine(FormatLine(date, year, from, to, current, name)) ==
              if from == to then Ok(None) else Ok(Some(Row(from, date, to)))
  {
    var fields := [FormatDate(date), year, from, to, current, name];
    DateHasNoSemicolon(date);
    JavaStrings.SplitJoin(fields, ';');
    ParseFormatDate(date);
  }

  /** A line whose current name is empty loses that field to the split and is dropped. */
  lemma EmptyNameDropped(date: Date, year: string, from: string, to: string, current: string)
    requires PlainField(year) && PlainField(from) && PlainField(to) && PlainField(current) && current != ""
    ensures ParseLine(FormatLine(date, year, from, to, current, "")) == Ok(None)
  {
    var fields := [FormatDate(date), year, from, to, current];
    DateHasNoSemicolon(date);
    JavaStrings.SplitJoin(fields, ';');
    var line := FormatLine(date, year, from, to, current, "");
    assert line == JavaStrings.Join(";", fields) + ";" by {
      assert fields + [""] == [FormatDate(date), year, from, to, current, ""];
      JoinAppendEmpty(fields, ";");
    }
    SplitDropsTrailingSeparator(JavaStrings.Join(";", fields), ';');
    assert JavaStrings.Split(line, ';') == fields;
  }

  lemma DateHasNoSemicolon(d: Date)
    ensures PlainField(FormatDate(d))
  {
    DigitsHaveNoSemicolon(d.day);
    DigitsHaveNoSemicolon(d.month);
    DigitsHaveNoSemicolon(d.year);
  }

  lemma DigitsHaveNoSemicolon(n: int)
    ensures PlainField(JavaStrings.LongToString(n))
  {
    var s := JavaStrings.LongToString(n);
    forall i | 0 <= i < |s| ensures s[i] != ';' {
      if n >= 0 {
        assert JavaStrings.IsDigit(s[i]);
      } else if i >= 1 {
        assert s[1..][i - 1] == s[i];
      }
    }
  }

  lemma {:induction false} JoinAppendEmpty(parts: seq<string>, sep: string)
    requires |parts| >= 1
    ensures JavaStrings.Join(sep, parts + [""]) == JavaStrings.Join(sep, parts) + sep
  {
    if |parts| == 1 {
      assert parts + [""] == [parts[0], ""];
    } else {
      assert (parts + [""])[1..] == parts[1..] + [""];
      JoinAppendEmpty(parts[1..], sep);
    }
  }

  /** A trailing separator adds only an empty piece, which split drops. */
  lemma SplitDropsTrailingSeparator(s: string, c: char)
    requires |JavaStrings.Split(s, c)| >= 2
    ensures JavaStrings.Split(s + [c], c) == JavaStrings.Split(s, c)
  {
    PiecesAppendSeparator(s, c);
    var p := JavaStrings.Pieces(s, c);
    assert c in s;
    assert c in s + [c];
    assert JavaStrings.Pieces(s + [c], c) == p + [""];
    assert JavaStrings.DropTrailingEmpty(p + [""]) == JavaStrings.DropTrailingEmpty(p);
  }

  lemma {:induction false} PiecesAppendSeparator(s: string, c: char)
    ensures JavaStrings.Pieces(s + [c], c) == JavaStrings.Pieces(s, c) + [""]
  {
    if |s| == 0 {
      assert [c][1..] == [];
    } else {
      assert (s + [c])[1..] == s[1..] + [c];
      PiecesAppendSeparator(s[1..], c);
    }
  }

  // ----------------------------------------------------------- histories

  /** One change: from the date on, the code is replaced by the new code. */
  datatype Change = Change(date: Date, to: string)

  /** A TreeMap from dates to new codes, as its entries in ascending date order. */
  type History = seq<Change>

  predicate Sorted(h: History)
  {
    forall i, j :: 0 <= i < j < |h| ==> Before(h[i].date, h[j].date)
  }

  /** Every date of the history lies after d. */
  predicate AllAfter(h: History, d: Date)
  {
    forall i :: 0 <= i < |h| ==> Before(d, h[i].date)
  }

  /** get(date): the new code recorded for the date, if any. */
  function Lookup(h: History, d: Date): Option<string>
  {
    if |h| == 0 then None
    else if h[0].date == d then Some(h[0].to)
    else Lookup(h[1..], d)
  }

  lemma {:induction false} LookupAfter(h: History, d: Date)
    requires AllAfter(h, d)
    ensures Lookup(h, d) == None
  {
    if |h| > 0 {
      LookupAfter(h[1..], d);
    }
  }

  /** put(date, to): the entry for the date is replaced or inserted in date order. */
  function Put(h: History, d: Date, to: string): (r: History)
    requires Sorted(h)
    ensures Sorted(r) && |r| > 0
    ensures forall e :: Lookup(r, e) == if e == d then Some(to) else Lookup(h, e)
    ensures forall x :: AllAfter(h, x) && Before(x, d) ==> AllAfter(r, x)
  {
    if |h| == 0 then [Change(d, to)]
    else if h[0].date == d then [Change(d, to)] + h[1..]
    else if Before(d, h[0].date) then
      assert forall e :: Lookup([Change(d, to)] + h, e) == if e == d then Some(to) else Lookup(h, e) by {
        assert ([Change(d, to)] + h)[1..] == h;
      }
      [Change(d, to)] + h
    else
      var rest := Put(h[1..], d, to);
      assert AllAfter(h[1..], h[0].date);
      [h[0]] + rest
  }

  /** putAll(other): every entry of the other history is put, so the other's codes win on shared dates. */
  function PutAll(h: History, other: History): (r: History)
    requires Sorted(h) && Sorted(other)
    ensures Sorted(r)
    ensures |h| > 0 || |other| > 0 ==> |r| > 0
    ensures forall e :: Lookup(r, e) == if Lookup(other, e).Some? then Lookup(other, e) else Lookup(h, e)
    decreases |other|
  {
    if |other| == 0 then h
    else
      assert AllAfter(other[1..], other[0].date);
      LookupAfter(other[1..], other[0].date);
      PutAll(Put(h, other[0].date, other[0].to), other[1..])
  }

  /** The date of the latest change (lastKey()). */
  function LastDate(h: History): Date
    requires |h| > 0
  {
    h[|h| - 1].date
  }

  /** lastEntry().getValue(): the new code of the latest change. */
  function Last(h: History): string
    requires |h| > 0
  {
    h[|h| - 1].to
  }

  /** In a sorted history the latest date holds the last new code, and every other date lies before it. */
  lemma {:induction false} LookupLatest(h: History)
    requires |h| > 0
    ensures Sorted(h) ==> Lookup(h, LastDate(h)) == Some(Last(h))
    ensures Sorted(h) ==> forall e :: Lookup(h, e).Some? ==> e == LastDate(h) || Before(e, LastDate(h))
  {
    if |h| > 1 {
      assert h[1..][|h| - 2] == h[|h| - 1];
      LookupLatest(h[1..]);
    }
  }

  // --------------------------------------------------------------- table

  /** Every old code's history is in date order and holds at least one change. */
  ghost predicate WellFormed(m: map<string, History>)
  {
    && (forall c {:trigger Sorted(m[c])} :: c in m ==> Sorted(m[c]))
    && (forall c {:trigger m[c]} :: c in m ==> |m[c]| > 0)
  }

  /**
   * The TreeMap of histories: the old codes in ascending order (String
   * order), and each code's history.
   */
  datatype Table = Table(codes: seq<string>, histories: map<string, History>)

  ghost predicate ValidTable(t: Table)
  {
    && (forall i, j :: 0 <= i < j < |t.codes| ==> JavaStrings.LexLess(t.codes[i], t.codes[j]))
    && (forall c :: c in t.codes <==> c in t.histories)
    && WellFormed(t.histories)
  }

  /** A new key takes its place in the ascending order of the keys. */
  function InsertCode(codes: seq<string>, c: string): (r: seq<string>)
    requires forall i, j :: 0 <= i < j < |codes| ==> JavaStrings.LexLess(codes[i], codes[j])
    requires c !in codes
    ensures forall i, j :: 0 <= i < j < |r| ==> JavaStrings.LexLess(r[i], r[j])
    ensures forall x :: x in r <==> x in codes || x == c
    ensures forall x :: (forall k :: 0 <= k < |codes| ==> JavaStrings.LexLess(x, codes[k])) && JavaStrings.LexLess(x, c) ==>
                        forall k :: 0 <= k < |r| ==> JavaStrings.LexLess(x, r[k])
  {
    if |codes| == 0 then [c]
    else if JavaStrings.LexLess(c, codes[0]) then
      forall k | 0 <= k < |codes| ensures JavaStrings.LexLess(c, codes[k]) {
        if k > 0 { JavaStrings.LexTransitive(c, codes[0], codes[k]); }
      }
      [c] + codes
    else
      JavaStrings.LexTotal(c, codes[0]);
      [codes[0]] + InsertCode(codes[1..], c)
  }

  /** The collector: the row's change is put into its old code's history, a new code getting a new history. */
  function AddRow(t: Table, row: Row): (r: Table)
    requires ValidTable(t)
    ensures ValidTable(r)
    ensures r.histories.Keys == t.histories.Keys + {row.from}
    ensures Lookup(r.histories[row.from], row.date) == Some(row.to)
    ensures forall e :: e != row.date ==>
              Lookup(r.histories[row.from], e) == (if row.from in t.histories then Lookup(t.histories[row.from], e) else None)
    ensures forall c :: c in t.histories && c != row.from ==> r.histories[c] == t.histories[c]
  {
    var old_ := if row.from in t.histories then t.histories[row.from] else [];
    var codes := if row.from in t.histories then t.codes else InsertCode(t.codes, row.from);
    Table(codes, t.histories[row.from := Put(old_, row.date, row.to)])
  }

  /** Of two rows with the same old code and date, the later one's new code is kept. */
  lemma LaterRowWins(t: Table, first: Row, second: Row)
    requires ValidTable(t)
    requires first.from == second.from && first.date == second.date
    ensures Lookup(AddRow(AddRow(t, first), second).histories[first.from], first.date) == Some(second.to)
  {
  }

  /** The stream over the lines after the header: each kept row is collected, and a bad date throws. */
  function Collect(lines: seq<string>, t: Table): (r: Result<Table>)
    requires ValidTable(t)
    ensures r.Ok? ==> ValidTable(r.value) && t.histories.Keys <= r.value.histories.Keys
    ensures r.Err? <==> exists i :: 0 <= i < |lines| && ParseLine(lines[i]).Err?
    decreases |lines|
  {
    if |lines| == 0 then Ok(t)
    else
      assert forall i :: 1 <= i < |lines| ==> lines[1..][i - 1] == lines[i];
      match ParseLine(lines[0])
      case Err(e) => Err(e)
      case Ok(None) => Collect(lines[1..], t)
      case Ok(Some(row)) => Collect(lines[1..], AddRow(t, row))
  }

  /** Lines that are all dropped leave the table as it is. */
  lemma {:induction false} CollectDropped(lines: seq<string>, t: Table)
    requires ValidTable(t)
    requires forall i :: 0 <= i < |lines| ==> ParseLine(lines[i]) == Ok(None)
    ensures Collect(lines, t) == Ok(t)
  {
    if |lines| > 0 {
      CollectDropped(lines[1..], t);
    }
  }

  /** The rows the filter keeps, in the order of the lines. */
  function KeptRows(lines: seq<string>): seq<Row>
  {
    if |lines| == 0 then []
    else
      match ParseLine(lines[0])
      case Ok(Some(row)) => [row] + KeptRows(lines[1..])
      case _ => KeptRows(lines[1..])
  }

  /** The new code of the last of the rows with the old code and the date, if any. */
  function LastTo(rows: seq<Row>, from: string, date: Date): Option<string>
  {
    if |rows| == 0 then None
    else
      var rest := LastTo(rows[1..], from, date);
      if rest.Some? then rest
      else if rows[0].from == from && rows[0].date == date then Some(rows[0].to)
      else None
  }

  /** The old codes the collector ends with are those it had and those of the kept rows. */
  lemma {:induction false} CollectKeys(lines: seq<string>, t: Table)
    requires ValidTable(t)
    ensures var r := Collect(lines, t);
            r.Ok? ==> forall c :: c in r.value.histories <==> c in t.histories || exists row :: row in KeptRows(lines) && row.from == c
    decreases |lines|
  {
    if |lines| > 0 {
      match ParseLine(lines[0])
      case Err(_) =>
      case Ok(None) =>
        CollectKeys(lines[1..], t);
      case Ok(Some(row)) =>
        CollectKeys(lines[1..], AddRow(t, row));
        assert KeptRows(lines) == [row] + KeptRows(lines[1..]);
    }
  }

  /**
   * On the date d the code c holds the new code of the last kept row with
   * that old code and date, or else what it held before the lines.
   */
  lemma {:induction false} CollectLookupAt(lines: seq<string>, t: Table, c: string, d: Date)
    requires ValidTable(t)
    ensures var r := Collect(lines, t);
            r.Ok? && c in r.value.histories ==>
              Lookup(r.value.histories[c], d) ==
                if LastTo(KeptRows(lines), c, d).Some? then LastTo(KeptRows(lines), c, d)
                else if c in t.histories then Lookup(t.histories[c], d)
                else None
    decreases |lines|
  {
    if |lines| > 0 {
      match ParseLine(lines[0])
      case Err(_) =>
      case Ok(None) =>
        CollectLookupAt(lines[1..], t, c, d);
      case Ok(Some(row)) =>
        var next := AddRow(t, row);
        CollectLookupAt(lines[1..], next, c, d);
        var rows := KeptRows(lines[1..]);
        assert KeptRows(lines) == [row] + rows;
        assert ([row] + rows)[1..] == rows;
        if c in next.histories {
          AddRowLookup(t, row, c, d);
        }
    }
  }

  /** CollectLookupAt on every code and date. */
  lemma CollectLookups(lines: seq<string>, t: Table)
    requires ValidTable(t)
    ensures var r := Collect(lines, t);
            r.Ok? ==> forall c, d :: c in r.value.histories ==>
                        Lookup(r.value.histories[c], d) ==
                          if LastTo(KeptRows(lines), c, d).Some? then LastTo(KeptRows(lines), c, d)
                          else if c in t.histories then Lookup(t.histories[c], d)
                          else None
  {
    forall c, d {
      CollectLookupAt(lines, t, c, d);
    }
  }

  /** After a row is collected, a code holds on a date the row's new code if the row is for that code and date, else what it held. */
  lemma AddRowLookup(t: Table, row: Row, c: string, d: Date)
    requires ValidTable(t) && c in AddRow(t, row).histories
    ensures Lookup(AddRow(t, row).histories[c], d) ==
              if row.from == c && row.date == d then Some(row.to)
              else if c in t.histories then Lookup(t.histories[c], d)
              else None
  {
  }

  /**
   * The header line is skipped; the old codes are those of the kept rows,
   * and on each date a code holds the new code of the last kept row with
   * that old code and date: a later duplicate replaces an earlier one.
   */
  function Group(lines: seq<string>): (r: Result<Table>)
    ensures r.Ok? ==> ValidTable(r.value)
    ensures |lines| <= 1 ==> r == Ok(Table([], map[]))
    ensures var rows := KeptRows(if |lines| == 0 then [] else lines[1..]);
            r.Ok? ==>
              && (forall c :: c in r.value.histories <==> exists row :: row in rows && row.from == c)
              && (forall c, d :: c in r.value.histories ==> Lookup(r.value.histories[c], d) == LastTo(rows, c, d))
  {
    var body := if |lines| == 0 then [] else lines[1..];
    CollectKeys(body, Table([], map[]));
    CollectLookups(body, Table([], map[]));
    Collect(body, Table([], map[]))
  }

  // ----------------------------------------------------------- expansion

  /** Every date of g has an entry in h. */
  ghost predicate Covers(h: History, g: History)
  {
    forall e :: Lookup(g, e).Some? ==> Lookup(h, e).Some?
  }

  lemma CoversTransitive(h: History, g: History, f: History)
    requires Covers(h, g) && Covers(g, f)
    ensures Covers(h, f)
  {
  }

  /** After a step, the history of key covers what it held and what the followed code's history holds. */
  lemma FollowCovers(m: map<string, History>, key: string, last: string)
    requires WellFormed(m) && key in m && last in m
    ensures Covers(Follow(m, key, last)[key], m[key])
    ensures Covers(Follow(m, key, last)[key], m[last])
  {
  }

  /** One step of the expansion: the history of key takes over every change of the history of last. */
  function Follow(m: map<string, History>, key: string, last: string): (r: map<string, History>)
    requires WellFormed(m) && key in m && last in m
    ensures WellFormed(r) && r.Keys == m.Keys
    ensures forall c :: c in m && c != key ==> r[c] == m[c]
    ensures forall e :: Lookup(r[key], e) == if Lookup(m[last], e).Some? then Lookup(m[last], e) else Lookup(m[key], e)
  {
    m[key := PutAll(m[key], m[last])]
  }

  /**
   * The expansion loop of one history as written: while the last new code
   * has a history of its own, that history is merged in. It need not end,
   * so it is run for at most fuel steps; None means the fuel ran out.
   */
  function ExpandChainAsWritten(m: map<string, History>, key: string, fuel: nat): (r: Option<map<string, History>>)
    requires WellFormed(m) && key in m
    ensures r.Some? ==> WellFormed(r.value) && r.value.Keys == m.Keys
    ensures r.Some? ==> Last(r.value[key]) !in r.value
    ensures r.Some? ==> forall c :: c in m && c != key ==> r.value[c] == m[c]
    decreases fuel
  {
    var last := Last(m[key]);
    if last !in m then Some(m)
    else if fuel == 0 then None
    else ExpandChainAsWritten(Follow(m, key, last), key, fuel - 1)
  }

  /** Two changes that are followed back in time: A became B in 2000, after B had become C in 1990. */
  function BackdatedChain(): map<string, History>
  {
    map["A" := [Change(Date(2000, 1, 1), "B")], "B" := [Change(Date(1990, 1, 1), "C")]]
  }

  /**
   * The loop as written never ends on the backdated chain: merging B's
   * history into A's adds the 1990 change before the 2000 one, so A's last
   * new code stays B, and B is merged again and again.
   */
  lemma ExpandChainAsWrittenDiverges(fuel: nat)
    ensures ExpandChainAsWritten(BackdatedChain(), "A", fuel) == None
  {
    var m := BackdatedChain();
    assert WellFormed(m);
    var merged := [Change(Date(1990, 1, 1), "C"), Change(Date(2000, 1, 1), "B")];
    var m1 := m["A" := merged];
    assert Put(m["A"], Date(1990, 1, 1), "C") == merged;
    assert Follow(m, "A", "B") == m1;
    assert Put(merged, Date(1990, 1, 1), "C") == merged;
    assert Follow(m1, "A", "B") == m1;
    if fuel > 0 {
      StuckForever(m1, fuel - 1);
    }
  }

  lemma {:induction false} StuckForever(m1: map<string, History>, fuel: nat)
    requires m1 == map["A" := [Change(Date(1990, 1, 1), "C"), Change(Date(2000, 1, 1), "B")],
                       "B" := [Change(Date(1990, 1, 1), "C")]]
    requires WellFormed(m1)
    requires Follow(m1, "A", "B") == m1
    ensures ExpandChainAsWritten(m1, "A", fuel) == None
  {
    if fuel > 0 {
      StuckForever(m1, fuel - 1);
    }
  }

  /**
   * The state of the corrected expansion of key: only the history of key
   * has changed, and it covers its own original dates and those of every
   * other code followed so far.
   */
  ghost predicate Chained(m: map<string, History>, key: string, r: map<string, History>, followed: set<string>)
    requires WellFormed(m) && key in m
  {
    && WellFormed(r) && r.Keys == m.Keys
    && (forall c :: c in m && c != key ==> r[c] == m[c])
    && followed <= m.Keys
    && Covers(r[key], m[key])
    && (forall c :: c in followed && c != key ==> Covers(r[key], m[c]))
  }

  /** Following one more code keeps the state of the corrected expansion. */
  lemma ChainedNext(m: map<string, History>, key: string, r: map<string, History>, followed: set<string>, last: string)
    requires WellFormed(m) && key in m && Chained(m, key, r, followed) && last in r
    ensures Chained(m, key, Follow(r, key, last), followed + {last})
  {
    var next := Follow(r, key, last);
    FollowCovers(r, key, last);
    forall c | c in followed + {last} && c != key ensures Covers(next[key], m[c]) {
      if c in followed {
        CoversTransitive(next[key], r[key], m[c]);
      }
    }
    CoversTransitive(next[key], r[key], m[key]);
  }

  /**
   * The expansion of one history, corrected to follow each code at most
   * once: while the last new code of key's history has a history and has
   * not been followed yet, that history is merged in.
   */
  function Expansion(m: map<string, History>, key: string, followed: set<string>): (r: map<string, History>)
    requires WellFormed(m) && key in m && followed <= m.Keys
    ensures WellFormed(r) && r.Keys == m.Keys
    decreases |m.Keys - followed|
  {
    var last := Last(m[key]);
    if last !in m || last in followed then m
    else
      var next := Follow(m, key, last);
      assert next.Keys - (followed + {last}) < m.Keys - followed;
      Expansion(next, key, followed + {last})
  }

  /**
   * The expansion changes only the history of key, which keeps every date
   * it had; a history whose last new code has no history is left as it is.
   */
  lemma {:induction false} ExpansionFrame(m: map<string, History>, key: string, followed: set<string>)
    requires WellFormed(m) && key in m && followed <= m.Keys
    ensures var r := Expansion(m, key, followed);
            && (forall c :: c in m && c != key ==> r[c] == m[c])
            && Covers(r[key], m[key])
            && (Last(m[key]) !in m ==> r == m)
    decreases |m.Keys - followed|
  {
    var last := Last(m[key]);
    if last in m && last !in followed {
      var next := Follow(m, key, last);
      assert next.Keys - (followed + {last}) < m.Keys - followed;
      ExpansionFrame(next, key, followed + {last});
      FollowCovers(m, key, last);
      CoversTransitive(Expansion(next, key, followed + {last})[key], next[key], m[key]);
    }
  }

  /**
   * What every state of the expansion of key keeps, whichever codes it has
   * followed: the history of key covers every followed history, and a
   * followed history with an entry on the latest date of key's history
   * has there a followed code or key's last code.
   */
  ghost predicate FollowedClosed(m: map<string, History>, key: string, followed: set<string>)
    requires WellFormed(m) && key in m
  {
    forall c {:trigger m[c]} :: c in followed && c in m ==>
      && Covers(m[key], m[c])
      && (Lookup(m[c], LastDate(m[key])).Some? ==> Lookup(m[c], LastDate(m[key])).value in followed + {Last(m[key])})
  }

  /**
   * Following the last code keeps the closure; and when that code was
   * followed before, the new last code was followed before too.
   */
  lemma FollowClosed(m: map<string, History>, key: string, followed: set<string>, last: string)
    requires WellFormed(m) && key in m && followed <= m.Keys && FollowedClosed(m, key, followed)
    requires last == Last(m[key]) && last in m
    ensures FollowedClosed(Follow(m, key, last), key, followed + {last})
    ensures last in followed ==> FollowedClosed(Follow(m, key, last), key, followed)
    ensures last in followed ==> Last(Follow(m, key, last)[key]) in followed
  {
    var n := Follow(m, key, last);
    var h, g := m[key], n[key];
    var d, d' := LastDate(h), LastDate(g);
    LookupLatest(h);
    LookupLatest(g);
    assert Lookup(g, d).Some?;
    assert d' == d || Before(d, d');
    assert d' != d ==> Lookup(h, d').None?;
    forall c | c in followed + {last} && c in n
      ensures Covers(g, n[c])
      ensures Lookup(n[c], d').Some? ==> Lookup(n[c], d').value in (followed + {last}) + {Last(g)}
    {
      if c == key {
      } else if c == last {
        FollowCovers(m, key, last);
      } else {
        FollowCovers(m, key, last);
        CoversTransitive(g, h, m[c]);
      }
    }
    if last in followed {
      if last != key {
        assert Covers(h, m[last]);
      }
      assert Lookup(h, d').Some?;
      assert d' == d;
      assert followed + {last} == followed;
    }
  }

  /** A closed state whose last code was followed before. */
  ghost predicate Stuck(m: map<string, History>, key: string, followed: set<string>)
  {
    WellFormed(m) && key in m && followed <= m.Keys && FollowedClosed(m, key, followed) && Last(m[key]) in followed
  }

  /** A step from a stuck state follows a code with a history and leads to a stuck state. */
  lemma StuckNext(m: map<string, History>, key: string, followed: set<string>)
    requires Stuck(m, key, followed)
    ensures Last(m[key]) in m && Stuck(Follow(m, key, Last(m[key])), key, followed)
  {
    FollowClosed(m, key, followed, Last(m[key]));
  }

  /** One turn of the loop as written, from a last code that has a history. */
  lemma AsWrittenStep(m: map<string, History>, key: string, fuel: nat)
    requires WellFormed(m) && key in m && Last(m[key]) in m
    ensures ExpandChainAsWritten(m, key, fuel) ==
              if fuel == 0 then None else ExpandChainAsWritten(Follow(m, key, Last(m[key])), key, fuel - 1)
  {
  }

  /** From a stuck state, the loop as written never ends. */
  lemma {:induction false} ClosedLoopsForever(m: map<string, History>, key: string, followed: set<string>, fuel: nat)
    requires Stuck(m, key, followed)
    ensures ExpandChainAsWritten(m, key, fuel) == None
    decreases fuel
  {
    StuckStep(m, key, followed, fuel);
    if fuel > 0 {
      ClosedLoopsForever(Follow(m, key, Last(m[key])), key, followed, fuel - 1);
    }
  }

  /** A turn of the loop as written from a stuck state leads to a stuck state. */
  lemma StuckStep(m: map<string, History>, key: string, followed: set<string>, fuel: nat)
    requires Stuck(m, key, followed)
    ensures Last(m[key]) in m && Stuck(Follow(m, key, Last(m[key])), key, followed)
    ensures ExpandChainAsWritten(m, key, fuel) ==
              if fuel == 0 then None else ExpandChainAsWritten(Follow(m, key, Last(m[key])), key, fuel - 1)
  {
    StuckNext(m, key, followed);
    AsWrittenStep(m, key, fuel);
  }

  lemma {:induction false} AsWrittenAgrees(m: map<string, History>, key: string, followed: set<string>, fuel: nat)
    requires Closed(m, key, followed)
    ensures ExpandChainAsWritten(m, key, fuel).Some? ==> ExpandChainAsWritten(m, key, fuel).value == Expansion(m, key, followed)
    decreases fuel
  {
    var last := Last(m[key]);
    if last !in m {
      ExpansionFrame(m, key, followed);
    } else if fuel == 0 {
      AsWrittenStep(m, key, fuel);
    } else if last in followed {
      ClosedLoopsForever(m, key, followed, fuel);
    } else {
      ClosedStep(m, key, followed, fuel);
      AsWrittenAgrees(Follow(m, key, last), key, followed + {last}, fuel - 1);
    }
  }

  /** A state of the expansion of key: well formed, and closed over the codes followed so far. */
  ghost predicate Closed(m: map<string, History>, key: string, followed: set<string>)
  {
    WellFormed(m) && key in m && followed <= m.Keys && FollowedClosed(m, key, followed)
  }

  /**
   * From a closed state whose last code has a history and was not followed
   * yet, one turn of the loop as written and one step of the corrected
   * expansion both follow that code, and lead to a closed state.
   */
  lemma ClosedStep(m: map<string, History>, key: string, followed: set<string>, fuel: nat)
    requires Closed(m, key, followed) && Last(m[key]) in m && Last(m[key]) !in followed && fuel > 0
    ensures Closed(Follow(m, key, Last(m[key])), key, followed + {Last(m[key])})
    ensures ExpandChainAsWritten(m, key, fuel) == ExpandChainAsWritten(Follow(m, key, Last(m[key])), key, fuel - 1)
    ensures Expansion(m, key, followed) == Expansion(Follow(m, key, Last(m[key])), key, followed + {Last(m[key])})
  {
    FollowClosed(m, key, followed, Last(m[key]));
    AsWrittenStep(m, key, fuel);
  }

  /** Whenever the loop as written ends, it ends with the corrected expansion. */
  lemma ExpandChainAgrees(m: map<string, History>, key: string, fuel: nat)
    requires WellFormed(m) && key in m
    ensures ExpandChainAsWritten(m, key, fuel).Some? ==> ExpandChainAsWritten(m, key, fuel).value == Expansion(m, key, {})
  {
    assert Closed(m, key, {});
    AsWrittenAgrees(m, key, {}, fuel);
  }

  /**
   * When the corrected expansion ends on a code without a history, the
   * loop as written ends as well, after at most one step per code.
   */
  lemma {:induction false} ExpandChainEnds(m: map<string, History>, key: string, followed: set<string>)
    requires WellFormed(m) && key in m && followed <= m.Keys
    requires Last(Expansion(m, key, followed)[key]) !in m
    ensures ExpandChainAsWritten(m, key, |m.Keys - followed|) == Some(Expansion(m, key, followed))
    decreases |m.Keys - followed|
  {
    var last := Last(m[key]);
    if last in m && last !in followed {
      var next := Follow(m, key, last);
      assert next.Keys - (followed + {last}) == (m.Keys - followed) - {last};
      assert |next.Keys - (followed + {last})| == |m.Keys - followed| - 1;
      ExpandChainEnds(next, key, followed + {last});
    }
  }

  /**
   * The expansion of one history, as a loop: it gives the corrected
   * expansion, whose history of key covers every history it followed.
   */
  method ExpandChain(m: map<string, History>, key: string) returns (r: map<string, History>, followed: set<string>)
    requires WellFormed(m) && key in m
    ensures r == Expansion(m, key, {})
    ensures Chained(m, key, r, followed)
    ensures Last(r[key]) !in m || Last(r[key]) in followed
  {
    r, followed := m, {};
    var last := Last(r[key]);
    while last in r && last !in followed
      invariant Chained(m, key, r, followed)
      invariant Expansion(r, key, followed) == Expansion(m, key, {})
      invariant last == Last(r[key])
      decreases |m.Keys - followed|
    {
      assert m.Keys - (followed + {last}) < m.Keys - followed;
      ChainedNext(m, key, r, followed, last);
      r := Follow(r, key, last);
      followed := followed + {last};
      last := Last(r[key]);
    }
  }

  /** The corrected expansion ends on the backdated chain, with A's history holding both changes. */
  lemma ExpandChainBackdated()
    ensures var m := BackdatedChain();
            WellFormed(m) && Expansion(m, "A", {})["A"] == [Change(Date(1990, 1, 1), "C"), Change(Date(2000, 1, 1), "B")]
  {
    var m := BackdatedChain();
    assert WellFormed(m);
    var merged := [Change(Date(1990, 1, 1), "C"), Change(Date(2000, 1, 1), "B")];
    assert Put(m["A"], Date(1990, 1, 1), "C") == merged;
    var m1 := Follow(m, "A", "B");
    assert m1["A"] == merged;
    assert Last(m1["A"]) == "B";
    assert Expansion(m1, "A", {"B"}) == m1;
  }

  /**
   * The expansion of the histories of codes, one after the other, each on
   * the histories as the ones before it left them.
   */
  function ExpandCodes(m: map<string, History>, codes: seq<string>): (r: map<string, History>)
    requires WellFormed(m) && forall i :: 0 <= i < |codes| ==> codes[i] in m
    ensures WellFormed(r) && r.Keys == m.Keys
    decreases |codes|
  {
    if |codes| == 0 then m
    else ExpandCodes(Expansion(m, codes[0], {}), codes[1..])
  }

  /**
   * Every history keeps its dates; the histories of codes not expanded and
   * those whose last new code has no history are left as they are.
   */
  lemma {:induction false} ExpandCodesFrame(m: map<string, History>, codes: seq<string>)
    requires WellFormed(m) && forall i :: 0 <= i < |codes| ==> codes[i] in m
    ensures var r := ExpandCodes(m, codes);
            && (forall c :: c in m ==> Covers(r[c], m[c]))
            && (forall c :: c in m && c !in codes ==> r[c] == m[c])
            && (forall c :: c in m && Last(m[c]) !in m ==> r[c] == m[c])
    decreases |codes|
  {
    if |codes| > 0 {
      var next := Expansion(m, codes[0], {});
      ExpansionFrame(m, codes[0], {});
      ExpandCodesFrame(next, codes[1..]);
      var r := ExpandCodes(next, codes[1..]);
      forall c | c in m ensures Covers(r[c], m[c]) {
        CoversTransitive(r[c], next[c], m[c]);
      }
    }
  }

  lemma {:induction false} ExpandCodesAppend(m: map<string, History>, a: seq<string>, b: seq<string>)
    requires WellFormed(m) && (forall i :: 0 <= i < |a| ==> a[i] in m) && (forall i :: 0 <= i < |b| ==> b[i] in m)
    ensures ExpandCodes(m, a + b) == ExpandCodes(ExpandCodes(m, a), b)
    decreases |a|
  {
    if |a| == 0 {
      assert a + b == b;
    } else {
      assert (a + b)[1..] == a[1..] + b;
      ExpandCodesAppend(Expansion(m, a[0], {}), a[1..], b);
    }
  }

  /**
   * Each code's history is expanded once, on the histories as the codes
   * before it left them, and no later code changes it again.
   */
  lemma ExpandCodesEach(m: map<string, History>, codes: seq<string>, k: nat)
    requires WellFormed(m) && forall i :: 0 <= i < |codes| ==> codes[i] in m
    requires k < |codes| && codes[k] !in codes[k + 1..]
    ensures ExpandCodes(m, codes)[codes[k]] == Expansion(ExpandCodes(m, codes[..k]), codes[k], {})[codes[k]]
  {
    assert codes == codes[..k] + ([codes[k]] + codes[k + 1..]);
    ExpandCodesAppend(m, codes[..k], [codes[k]] + codes[k + 1..]);
    var before := ExpandCodes(m, codes[..k]);
    ExpandCodesAppend(before, [codes[k]], codes[k + 1..]);
    assert [codes[k]][1..] == [];
    var after := Expansion(before, codes[k], {});
    assert ExpandCodes(before, [codes[k]]) == after;
    ExpandCodesFrame(after, codes[k + 1..]);
  }

  /**
   * The expansion of every history, in ascending order of the old codes;
   * an expanded history is what later histories merge in.
   */
  method ExpandAll(t: Table) returns (r: Table)
    requires ValidTable(t)
    ensures ValidTable(r) && r.codes == t.codes
    ensures r.histories == ExpandCodes(t.histories, t.codes)
    ensures forall k :: 0 <= k < |t.codes| ==>
              r.histories[t.codes[k]] == Expansion(ExpandCodes(t.histories, t.codes[..k]), t.codes[k], {})[t.codes[k]]
  {
    var m := t.histories;
    var i := 0;
    while i < |t.codes|
      invariant i <= |t.codes| && WellFormed(m) && m.Keys == t.histories.Keys
      invariant ExpandCodes(m, t.codes[i..]) == ExpandCodes(t.histories, t.codes)
    {
      assert t.codes[i..][1..] == t.codes[i + 1..];
      var next, followed := ExpandChain(m, t.codes[i]);
      m := next;
      i := i + 1;
    }
    r := Table(t.codes, m);
    ExpandCodesInOrder(t);
  }

  /** Over the ascending codes of a table, each history is expanded once, on what the codes before it left. */
  lemma ExpandCodesInOrder(t: Table)
    requires ValidTable(t)
    ensures forall k :: 0 <= k < |t.codes| ==>
              ExpandCodes(t.histories, t.codes)[t.codes[k]] ==
                Expansion(ExpandCodes(t.histories, t.codes[..k]), t.codes[k], {})[t.codes[k]]
  {
    forall k | 0 <= k < |t.codes|
      ensures ExpandCodes(t.histories, t.codes)[t.codes[k]] ==
                Expansion(ExpandCodes(t.histories, t.codes[..k]), t.codes[k], {})[t.codes[k]]
    {
      assert t.codes[k] !in t.codes[k + 1..] by {
        JavaStrings.LexIrreflexive(t.codes[k]);
      }
      ExpandCodesEach(t.histories, t.codes, k);
    }
  }

  /** parse over the lines of the file: group the rows, then expand every history. */
  method Parse(lines: seq<string>) returns (r: Result<Table>)
    ensures r.Ok? <==> Group(lines).Ok?
    ensures r.Err? ==> r == Group(lines)
    ensures r.Ok? ==> ValidTable(r.value)
    ensures r.Ok? ==> var g := Group(lines).value;
                      r.value == Table(g.codes, ExpandCodes(g.histories, g.codes))
  {
    var grouped := Group(lines);
    if grouped.Err? {
      return grouped;
    }
    var expanded := ExpandAll(grouped.value);
    r := Ok(expanded);
  }

  // --------------------------------------------------------- queries

  /** An entry that took effect on or before the date. */
  predicate InForce(c: Change, date: Date)
  {
    !Before(date, c.date)
  }

  /** floorEntry(date): the latest change on or before the date. */
  function Floor(h: History, date: Date): (r: Option<Change>)
    requires Sorted(h)
    ensures r.None? <==> forall i :: 0 <= i < |h| ==> !InForce(h[i], date)
    ensures r.Some? ==> r.value in h && InForce(r.value, date)
    ensures r.Some? ==> forall i :: 0 <= i < |h| && InForce(h[i], date) ==> !Before(r.value.date, h[i].date)
  {
    if |h| == 0 then None
    else if InForce(h[|h| - 1], date) then Some(h[|h| - 1])
    else Floor(h[..|h| - 1], date)
  }

  /**
   * allChangesAsPer(date): every old code with a change on or before the
   * date, mapped to the new code of its latest such change.
   */
  function AllChangesAsPer(date: Date, m: map<string, History>): (r: map<string, string>)
    requires WellFormed(m)
    ensures forall c :: c in r <==> c in m && exists i :: 0 <= i < |m[c]| && InForce(m[c][i], date)
    ensures forall c :: c in r ==>
              exists i :: 0 <= i < |m[c]| && InForce(m[c][i], date) && r[c] == m[c][i].to &&
                (forall j :: 0 <= j < |m[c]| && InForce(m[c][j], date) ==> !Before(m[c][i].date, m[c][j].date))
  {
    map c | c in m && Floor(m[c], date).Some? :: Floor(m[c], date).value.to
  }
}

=== FILE: cbs_region_type.dfy ===
/**
 * The kinds of region that Statistics Netherlands (CBS) identifies by code,
 * each with its two-letter code prefix ("GM0363" is a municipality), and
 * the classification of a region code by its prefix. The four kinds
 * prefixed "NL" (country, NUTS1-3) are told apart by the code's length.
 */
module CbsRegionType {
  import opened Wrappers
  import opened JavaStrings

  datatype RegionType =
    | CITY | BOROUGH | WARD | MUNICIPAL | COROP | COROP_SUB | COROP_PLUS | PROVINCE | TERRITORY
    | COUNTRY | NUTS1 | NUTS2 | NUTS3
    | LABOR_MARKET | DISTRICT | HEALTH_SERVICES | CHILD_SERVICES | COMMERCE | AGRICULTURE | AGRI_GROUP
    | POLICE | APPEAL_COURT | LABOR_PLATFORM | TOURISM | SAFETY | MUNICIPAL_COOP | HEALTH_WELFARE

  /** Declaration order, as values() lists the types. */
  const Values: seq<RegionType> := [
    CITY, BOROUGH, WARD, MUNICIPAL, COROP, COROP_SUB, COROP_PLUS, PROVINCE, TERRITORY,
    COUNTRY, NUTS1, NUTS2, NUTS3,
    LABOR_MARKET, DISTRICT, HEALTH_SERVICES, CHILD_SERVICES, COMMERCE, AGRICULTURE, AGRI_GROUP,
    POLICE, APPEAL_COURT, LABOR_PLATFORM, TOURISM, SAFETY, MUNICIPAL_COOP, HEALTH_WELFARE]

  function Ordinal(t: RegionType): (r: nat)
    ensures r < |Values| && Values[r] == t
  {
    match t
    case CITY => 0 case BOROUGH => 1 case WARD => 2 case MUNICIPAL => 3 case COROP => 4
    case COROP_SUB => 5 case COROP_PLUS => 6 case PROVINCE => 7 case TERRITORY => 8
    case COUNTRY => 9 case NUTS1 => 10 case NUTS2 => 11 case NUTS3 => 12
    case LABOR_MARKET => 13 case DISTRICT => 14 case HEALTH_SERVICES => 15 case CHILD_SERVICES => 16
    case COMMERCE => 17 case AGRICULTURE => 18 case AGRI_GROUP => 19 case POLICE => 20
    case APPEAL_COURT => 21 case LABOR_PLATFORM => 22 case TOURISM => 23 case SAFETY => 24
    case MUNICIPAL_COOP => 25 case HEALTH_WELFARE => 26
  }

  /** The four kinds whose codes start with "NL". */
  predicate IsNational(t: RegionType)
  {
    t == COUNTRY || t == NUTS1 || t == NUTS2 || t == NUTS3
  }

  /** The two letters of the code prefix. */
  function PrefixLetters(t: RegionType): (r: (char, char))
    ensures 'A' <= r.0 <= 'Z' && 'A' <= r.1 <= 'Z'
  {
    match t
    case CITY => ('W', 'P') case BOROUGH => ('B', 'U') case WARD => ('W', 'K')
    case MUNICIPAL => ('G', 'M') case COROP => ('C', 'R') case COROP_SUB => ('C', 'S')
    case COROP_PLUS => ('C', 'P') case PROVINCE => ('P', 'V') case TERRITORY => ('L', 'D')
    case COUNTRY | NUTS1 | NUTS2 | NUTS3 => ('N', 'L')
    case LABOR_MARKET => ('A', 'M') case DISTRICT => ('A', 'R') case HEALTH_SERVICES => ('G', 'G')
    case CHILD_SERVICES => ('J', 'Z') case COMMERCE => ('K', 'K') case AGRICULTURE => ('L', 'B')
    case AGRI_GROUP => ('L', 'G') case POLICE => ('R', 'E') case APPEAL_COURT => ('R', 'T')
    case LABOR_PLATFORM => ('R', 'P') case TOURISM => ('T', 'R') case SAFETY => ('V', 'R')
    case MUNICIPAL_COOP => ('W', 'G') case HEALTH_WELFARE => ('Z', 'K')
  }

  function Prefix(t: RegionType): (r: string)
    ensures |r| == 2 && NoLowerAscii(r) && 'A' <= r[0] <= 'Z' && 'A' <= r[1] <= 'Z'
    ensures r == "NL" <==> IsNational(t)
  {
    [PrefixLetters(t).0, PrefixLetters(t).1]
  }

  /** The kind of region with the (upper-case) prefix letters a, b; the "NL" kinds are not looked up by prefix. */
  function OfLetters(a: char, b: char): (r: Option<RegionType>)
    ensures r.Some? ==> PrefixLetters(r.value).0 == a && PrefixLetters(r.value).1 == b && !IsNational(r.value)
  {
    match a
    case 'W' => (match b case 'P' => Some(CITY) case 'K' => Some(WARD) case 'G' => Some(MUNICIPAL_COOP) case _ => None)
    case 'B' => (match b case 'U' => Some(BOROUGH) case _ => None)
    case 'G' => (match b case 'M' => Some(MUNICIPAL) case 'G' => Some(HEALTH_SERVICES) case _ => None)
    case 'C' => (match b case 'R' => Some(COROP) case 'S' => Some(COROP_SUB) case 'P' => Some(COROP_PLUS) case _ => None)
    case 'P' => (match b case 'V' => Some(PROVINCE) case _ => None)
    case 'L' => (match b case 'D' => Some(TERRITORY) case 'B' => Some(AGRICULTURE) case 'G' => Some(AGRI_GROUP) case _ => None)
    case 'A' => (match b case 'M' => Some(LABOR_MARKET) case 'R' => Some(DISTRICT) case _ => None)
    case 'J' => (match b case 'Z' => Some(CHILD_SERVICES) case _ => None)
    case 'K' => (match b case 'K' => Some(COMMERCE) case _ => None)
    case 'R' => (match b case 'E' => Some(POLICE) case 'T' => Some(APPEAL_COURT) case 'P' => Some(LABOR_PLATFORM) case _ => None)
    case 'T' => (match b case 'R' => Some(TOURISM) case _ => None)
    case 'V' => (match b case 'R' => Some(SAFETY) case _ => None)
    case 'Z' => (match b case 'K' => Some(HEALTH_WELFARE) case _ => None)
    case _ => None
  }

  /** The kind of region whose (upper-case) two-letter prefix is p. */
  function OfPrefix(p: string): (r: Option<RegionType>)
    ensures r.Some? ==> Prefix(r.value) == p && !IsNational(r.value)
  {
    if |p| != 2 then None else OfLetters(p[0], p[1])
  }

  /** Looking up the prefix of any kind outside "NL" gives that kind back. */
  lemma OfPrefixPrefix(t: RegionType)
    requires !IsNational(t)
    ensures OfPrefix(Prefix(t)) == Some(t)
  {
    var p := PrefixLetters(t);
    assert Prefix(t)[0] == p.0 && Prefix(t)[1] == p.1;
    match t
    case CITY | BOROUGH | WARD | MUNICIPAL | COROP | COROP_SUB | COROP_PLUS | PROVINCE | TERRITORY => OfLettersPrefixLocal(t);
    case LABOR_MARKET | DISTRICT | HEALTH_SERVICES | CHILD_SERVICES | COMMERCE | AGRICULTURE | AGRI_GROUP => OfLettersPrefixServices(t);
    case POLICE | APPEAL_COURT | LABOR_PLATFORM | TOURISM | SAFETY | MUNICIPAL_COOP | HEALTH_WELFARE => OfLettersPrefixOther(t);
  }

  /** The prefix letters of the kinds from CITY to TERRITORY are looked up back to that kind. */
  lemma OfLettersPrefixLocal(t: RegionType)
    requires t == CITY || t == BOROUGH || t == WARD || t == MUNICIPAL || t == COROP || t == COROP_SUB || t == COROP_PLUS || t == PROVINCE || t == TERRITORY
    ensures OfLetters(PrefixLetters(t).0, PrefixLetters(t).1) == Some(t)
  {
  }

  /** The prefix letters of the kinds from LABOR_MARKET to AGRI_GROUP are looked up back to that kind. */
  lemma OfLettersPrefixServices(t: RegionType)
    requires t == LABOR_MARKET || t == DISTRICT || t == HEALTH_SERVICES || t == CHILD_SERVICES || t == COMMERCE || t == AGRICULTURE || t == AGRI_GROUP
    ensures OfLetters(PrefixLetters(t).0, PrefixLetters(t).1) == Some(t)
  {
  }

  /** The prefix letters of the kinds from POLICE to HEALTH_WELFARE are looked up back to that kind. */
  lemma OfLettersPrefixOther(t: RegionType)
    requires t == POLICE || t == APPEAL_COURT || t == LABOR_PLATFORM || t == TOURISM || t == SAFETY || t == MUNICIPAL_COOP || t == HEALTH_WELFARE
    ensures OfLetters(PrefixLetters(t).0, PrefixLetters(t).1) == Some(t)
  {
  }

  // ------------------------------------------------------------ type ids

  function Name(t: RegionType): string
  {
    match t
    case CITY => "CITY" case BOROUGH => "BOROUGH" case WARD => "WARD" case MUNICIPAL => "MUNICIPAL"
    case COROP => "COROP" case COROP_SUB => "COROP_SUB" case COROP_PLUS => "COROP_PLUS"
    case PROVINCE => "PROVINCE" case TERRITORY => "TERRITORY" case COUNTRY => "COUNTRY"
    case NUTS1 => "NUTS1" case NUTS2 => "NUTS2" case NUTS3 => "NUTS3"
    case LABOR_MARKET => "LABOR_MARKET" case DISTRICT => "DISTRICT"
    case HEALTH_SERVICES => "HEALTH_SERVICES" case CHILD_SERVICES => "CHILD_SERVICES"
    case COMMERCE => "COMMERCE" case AGRICULTURE => "AGRICULTURE" case AGRI_GROUP => "AGRI_GROUP"
    case POLICE => "POLICE" case APPEAL_COURT => "APPEAL_COURT" case LABOR_PLATFORM => "LABOR_PLATFORM"
    case TOURISM => "TOURISM" case SAFETY => "SAFETY" case MUNICIPAL_COOP => "MUNICIPAL_COOP"
    case HEALTH_WELFARE => "HEALTH_WELFARE"
  }

  /** toTypeID: the region type id, made from the constant's name. */
  function ToTypeId(t: RegionType): string
  {
    Name(t)
  }

  /** Distinct kinds have distinct type ids. */
  lemma TypeIdInjective(t: RegionType, u: RegionType)
    requires ToTypeId(t) == ToTypeId(u)
    ensures t == u
  {
    match t
    case CITY | BOROUGH | WARD | MUNICIPAL | COROP | COROP_SUB | COROP_PLUS | PROVINCE | TERRITORY => NameInjectiveLocal(t, u);
    case COUNTRY | NUTS1 | NUTS2 | NUTS3 => NameInjectiveNational(t, u);
    case LABOR_MARKET | DISTRICT | HEALTH_SERVICES | CHILD_SERVICES | COMMERCE | AGRICULTURE | AGRI_GROUP => NameInjectiveServices(t, u);
    case POLICE | APPEAL_COURT | LABOR_PLATFORM | TOURISM | SAFETY | MUNICIPAL_COOP | HEALTH_WELFARE => NameInjectiveOther(t, u);
  }

  lemma NameInjectiveLocal(t: RegionType, u: RegionType)
    requires t == CITY || t == BOROUGH || t == WARD || t == MUNICIPAL || t == COROP || t == COROP_SUB || t == COROP_PLUS || t == PROVINCE || t == TERRITORY
    requires Name(t) == Name(u)
    ensures t == u
  {
  }

  lemma NameInjectiveNational(t: RegionType, u: RegionType)
    requires t == COUNTRY || t == NUTS1 || t == NUTS2 || t == NUTS3
    requires Name(t) == Name(u)
    ensures t == u
  {
  }

  lemma NameInjectiveServices(t: RegionType, u: RegionType)
    requires t == LABOR_MARKET || t == DISTRICT || t == HEALTH_SERVICES || t == CHILD_SERVICES || t == COMMERCE || t == AGRICULTURE || t == AGRI_GROUP
    requires Name(t) == Name(u)
    ensures t == u
  {
  }

  lemma NameInjectiveOther(t: RegionType, u: RegionType)
    requires t == POLICE || t == APPEAL_COURT || t == LABOR_PLATFORM || t == TOURISM || t == SAFETY || t == MUNICIPAL_COOP || t == HEALTH_WELFARE
    requires Name(t) == Name(u)
    ensures t == u
  {
  }

  // --------------------------------------------------------------- parse

  /**
   * Classifies a trimmed region code: empty gives null; a single character
   * cannot be cut to a two-letter prefix; "NL" codes are told apart by
   * length; every other code is looked up by its prefix, ignoring case.
   */
  function ParseTrimmed(s: string): (r: Result<Option<RegionType>>)
    ensures r == Ok(None) <==> s == ""
    ensures r == Err(IndexOutOfBounds) <==> |s| == 1
    ensures r.Err? ==> r.error == IndexOutOfBounds || r.error == IllegalArgument
    ensures r.Ok? && r.value.Some? ==> EqualsIgnoreCase(s[..2], Prefix(r.value.value))
    ensures |s| >= 2 && !EqualsIgnoreCase(s[..2], "NL") ==>
              (r.Err? <==> forall t :: !EqualsIgnoreCase(s[..2], Prefix(t)))
  {
    if |s| == 0 then Ok(None)
    else if |s| < 2 then Err(IndexOutOfBounds)
    else if EqualsIgnoreCase(s[..2], "NL") then
      if |s| == 3 then Ok(Some(NUTS1))
      else if |s| == 5 then Ok(Some(NUTS3))
      else if |s| == 4 then Ok(Some(if s[2] == '0' then COUNTRY else NUTS2))
      else Err(IllegalArgument)
    else
      EqualsIgnoreCaseUpper(s[..2], "NL");
      PrefixMatch(s[..2]);
      OfPrefixNone(UpperAscii(s[..2]));
      match OfPrefix(UpperAscii(s[..2]))
      case None => Err(IllegalArgument)
      case Some(t) => Ok(Some(t))
  }

  /** A prefix that is not found belongs to no kind outside "NL". */
  lemma OfPrefixNone(p: string)
    ensures OfPrefix(p).None? ==> forall t :: !IsNational(t) ==> Prefix(t) != p
  {
    forall t | !IsNational(t) ensures OfPrefix(p).None? ==> Prefix(t) != p {
      OfPrefixPrefix(t);
    }
  }

  /** A two-letter string matches a prefix, ignoring case, exactly when its upper-case form is that prefix. */
  lemma PrefixMatch(p: string)
    ensures forall t :: EqualsIgnoreCase(p, Prefix(t)) <==> UpperAscii(p) == Prefix(t)
  {
    forall t ensures EqualsIgnoreCase(p, Prefix(t)) <==> UpperAscii(p) == Prefix(t) {
      EqualsIgnoreCaseUpper(p, Prefix(t));
    }
  }

  /** parse: null stays null, and anything else is trimmed and classified. */
  function ParseSpec(regionId: Option<string>): Result<Option<RegionType>>
  {
    match regionId
    case None => Ok(None)
    case Some(id) => ParseTrimmed(Trim(id))
  }

  /** parse, with the loop over values() returning the first kind whose prefix matches. */
  method Parse(regionId: Option<string>) returns (r: Result<Option<RegionType>>)
    ensures r == ParseSpec(regionId)
  {
    if regionId.None? {
      return Ok(None);
    }
    var s := Trim(regionId.value);
    if |s| == 0 {
      return Ok(None);
    }
    if |s| < 2 {
      return Err(IndexOutOfBounds);
    }
    if EqualsIgnoreCase(s[..2], "NL") {
      if |s| == 3 {
        return Ok(Some(NUTS1));
      } else if |s| == 5 {
        return Ok(Some(NUTS3));
      } else if |s| == 4 {
        return Ok(Some(if s[2] == '0' then COUNTRY else NUTS2));
      }
      return Err(IllegalArgument);
    }
    var found := FirstByPrefix(s);
    return if found.Some? then Ok(found) else Err(IllegalArgument);
  }

  /** The loop over values(): the first kind whose prefix matches the start of s, ignoring case. */
  method FirstByPrefix(s: string) returns (r: Option<RegionType>)
    requires |s| >= 2 && !EqualsIgnoreCase(s[..2], "NL")
    ensures r == OfPrefix(UpperAscii(s[..2]))
  {
    var p := s[..2];
    PrefixMatch(p);
    OfPrefixNone(UpperAscii(p));
    var i := 0;
    while i < |Values|
      invariant 0 <= i <= |Values|
      invariant forall j :: 0 <= j < i ==> !EqualsIgnoreCase(p, Prefix(Values[j]))
    {
      var value := Values[i];
      if EqualsIgnoreCase(s[..|Prefix(value)|], Prefix(value)) {
        assert !IsNational(value);
        OfPrefixPrefix(value);
        return Some(value);
      }
      i := i + 1;
    }
    forall t ensures !EqualsIgnoreCase(p, Prefix(t)) {
      assert Values[Ordinal(t)] == t;
    }
    return None;
  }

  /** A code made of a kind's prefix and digits is classified as that kind, for every kind outside "NL". */
  lemma ParsePrefixDigits(t: RegionType, digits: string)
    requires !IsNational(t) && AllDigits(digits)
    ensures ParseSpec(Some(Prefix(t) + digits)) == Ok(Some(t))
  {
    var s := Prefix(t) + digits;
    assert s[0] == Prefix(t)[0];
    assert IsDigit(s[|s| - 1]) || s[|s| - 1] == Prefix(t)[1];
    TrimUnchanged(s);
    assert s[..2] == Prefix(t);
    ParseStartingWithPrefix(s, t);
  }

  /** A trimmed code that starts with a kind's prefix (outside "NL") is that kind. */
  lemma ParseStartingWithPrefix(s: string, t: RegionType)
    requires |s| >= 2 && s[..2] == Prefix(t) && !IsNational(t)
    ensures ParseTrimmed(s) == Ok(Some(t))
  {
    UpperAsciiUnchanged(Prefix(t));
    EqualsIgnoreCaseUpper(s[..2], "NL");
    OfPrefixPrefix(t);
  }

  /** The "NL" codes by length: three characters NUTS1, five NUTS3, four COUNTRY or NUTS2 by the third character. */
  lemma ParseNational(s: string)
    requires |s| >= 2 && EqualsIgnoreCase(s[..2], "NL")
    ensures |s| == 3 ==> ParseTrimmed(s) == Ok(Some(NUTS1))
    ensures |s| == 5 ==> ParseTrimmed(s) == Ok(Some(NUTS3))
    ensures |s| == 4 ==> ParseTrimmed(s) == Ok(Some(if s[2] == '0' then COUNTRY else NUTS2))
    ensures |s| != 3 && |s| != 4 && |s| != 5 ==> ParseTrimmed(s) == Err(IllegalArgument)
  {
  }
}

=== FILE: demo_config.dfy ===
/**
 * The output helpers of the demo configuration: the CSV header of the
 * compartment counts per region, the fraction of a region's population in
 * one compartment, and the log line of the regions with the largest such
 * fractions.
 */
module DemoConfig {
  import opened Wrappers
  import opened JavaStrings
  import Mseirs

  type Compartment = Mseirs.Compartment

  const Sep: char := ';'
  const Eol: string := "\r\n"

  // ---------------------------------------------------------- toHeader

  /** The configuration text with every double quote doubled, as inside a quoted CSV field. */
  function Escape(s: string): (r: string)
    ensures |r| >= |s|
    ensures forall c :: c != '"' ==> (c in r <==> c in s)
  {
    if s == [] then []
    else (if s[0] == '"' then "\"\"" else [s[0]]) + Escape(s[1..])
  }

  /** Reads an escaped field back: a doubled quote is one quote, and a lone quote is malformed. */
  function Unescape(s: string): (r: Option<string>)
  {
    if s == [] then Some([])
    else if s[0] != '"' then
      match Unescape(s[1..])
      case None => None
      case Some(rest) => Some([s[0]] + rest)
    else if |s| >= 2 && s[1] == '"' then
      match Unescape(s[2..])
      case None => None
      case Some(rest) => Some("\"" + rest)
    else None
  }

  /** Escaping loses nothing: reading the escaped text back gives the text. */
  lemma {:induction false} UnescapeEscape(s: string)
    ensures Unescape(Escape(s)) == Some(s)
  {
    if s != [] {
      UnescapeEscape(s[1..]);
      var head := if s[0] == '"' then "\"\"" else [s[0]];
      var e := head + Escape(s[1..]);
      assert Escape(s) == e;
      if s[0] == '"' {
        assert e[2..] == Escape(s[1..]);
      } else {
        assert e[1..] == Escape(s[1..]);
      }
      assert s == [s[0]] + s[1..];
    }
  }

  /** The first header field: the start time label and the escaped configuration, quoted. */
  function TimeField(configText: string): string
  {
    "\"ActualTime " + Escape(configText) + "\""
  }

  /** One column per compartment, named after it. */
  function CompartmentColumns(sirCols: seq<Compartment>): (r: seq<string>)
    ensures |r| == |sirCols|
    ensures forall k :: 0 <= k < |r| ==> r[k] == Mseirs.CompartmentName(sirCols[k])
  {
    seq(|sirCols|, k requires 0 <= k < |sirCols| => Mseirs.CompartmentName(sirCols[k]))
  }

  /** The column of one compartment in one region: the compartment's initial, '_' and the region. */
  function RegionColumn(c: Compartment, region: string): string
  {
    Mseirs.CompartmentName(c)[..1] + "_" + region
  }

  /** The columns of one compartment, one per region. */
  function RegionRow(c: Compartment, regions: seq<string>): (r: seq<string>)
    ensures |r| == |regions|
    ensures forall j :: 0 <= j < |regions| ==> r[j] == RegionColumn(c, regions[j])
  {
    seq(|regions|, j requires 0 <= j < |regions| => RegionColumn(c, regions[j]))
  }

  /** For every compartment in turn, one column per region. */
  function RegionColumns(sirCols: seq<Compartment>, regions: seq<string>): seq<string>
  {
    Flatten(seq(|sirCols|, i requires 0 <= i < |sirCols| => RegionRow(sirCols[i], regions)))
  }

  /** The rows one after the other. */
  function Flatten<T>(rows: seq<seq<T>>): seq<T>
  {
    if rows == [] then [] else rows[0] + Flatten(rows[1..])
  }

  /** Where row i starts when every row has m members, counted without multiplying. */
  function Offset(i: nat, m: nat): nat
  {
    if i == 0 then 0 else m + Offset(i - 1, m)
  }

  lemma {:induction false} OffsetIsProduct(i: nat, m: nat)
    ensures Offset(i, m) == i * m
  {
    if i > 0 {
      OffsetIsProduct(i - 1, m);
    }
  }

  lemma {:induction false} FlattenLength<T>(rows: seq<seq<T>>, m: nat)
    requires forall k :: 0 <= k < |rows| ==> |rows[k]| == m
    ensures |Flatten(rows)| == Offset(|rows|, m)
  {
    if rows != [] {
      FlattenLength(rows[1..], m);
    }
  }

  lemma {:induction false} FlattenAt<T>(rows: seq<seq<T>>, m: nat, i: nat, j: nat)
    requires forall k :: 0 <= k < |rows| ==> |rows[k]| == m
    requires i < |rows| && j < m
    ensures Offset(i, m) + j < |Flatten(rows)|
    ensures Flatten(rows)[Offset(i, m) + j] == rows[i][j]
  {
    FlattenLength(rows, m);
    if i > 0 {
      FlattenAt(rows[1..], m, i - 1, j);
      assert rows[1..][i - 1] == rows[i];
      var o := Offset(i - 1, m) + j;
      assert (rows[0] + Flatten(rows[1..]))[|rows[0]| + o] == Flatten(rows[1..])[o];
    } else {
      assert (rows[0] + Flatten(rows[1..]))[j] == rows[0][j];
    }
  }

  lemma {:induction false} FlattenMember<T>(rows: seq<seq<T>>, x: T)
    requires x in Flatten(rows)
    ensures exists i :: 0 <= i < |rows| && x in rows[i]
  {
    if x !in rows[0] {
      FlattenMember(rows[1..], x);
      var i :| 0 <= i < |rows[1..]| && x in rows[1..][i];
      assert rows[i + 1] == rows[1..][i];
    }
  }

  /** There is one region column per compartment and region. */
  lemma RegionColumnsLength(sirCols: seq<Compartment>, regions: seq<string>)
    ensures |RegionColumns(sirCols, regions)| == |sirCols| * |regions|
  {
    FlattenLength(seq(|sirCols|, i requires 0 <= i < |sirCols| => RegionRow(sirCols[i], regions)), |regions|);
    OffsetIsProduct(|sirCols|, |regions|);
  }

  /** Each region column names its compartment and region. */
  lemma RegionColumnAt(sirCols: seq<Compartment>, regions: seq<string>, i: nat, j: nat)
    requires i < |sirCols| && j < |regions|
    ensures i * |regions| + j < |RegionColumns(sirCols, regions)|
    ensures RegionColumns(sirCols, regions)[i * |regions| + j] == RegionColumn(sirCols[i], regions[j])
  {
    OffsetIsProduct(i, |regions|);
    FlattenAt(seq(|sirCols|, i requires 0 <= i < |sirCols| => RegionRow(sirCols[i], regions)), |regions|, i, j);
  }

  /** toHeader: the time field, "VirtualTime", the compartment columns and the region columns, then CR LF. */
  function Header(configText: string, sirCols: seq<Compartment>, regions: seq<string>): (r: string)
    ensures |r| >= 14 && r[..12] == "\"ActualTime " && r[|r| - 2..] == Eol
  {
    Join([Sep], [TimeField(configText), "VirtualTime",
                 Join([Sep], CompartmentColumns(sirCols)), Join([Sep], RegionColumns(sirCols, regions))]) + Eol
  }

  /**
   * With at least one compartment and one region, and no ';' in the
   * configuration text or a region name, the header line splits into the
   * time field, "VirtualTime", one field per compartment and one per
   * compartment and region: 2 + |sirCols| + |sirCols| * |regions| fields.
   */
  lemma HeaderFields(configText: string, sirCols: seq<Compartment>, regions: seq<string>)
    requires |sirCols| >= 1 && |regions| >= 1
    requires Sep !in configText && forall j :: 0 <= j < |regions| ==> Sep !in regions[j]
    ensures var h := Header(configText, sirCols, regions);
            Pieces(h[..|h| - 2], Sep) ==
              [TimeField(configText), "VirtualTime"] + CompartmentColumns(sirCols) + RegionColumns(sirCols, regions)
    ensures var h := Header(configText, sirCols, regions);
            |Pieces(h[..|h| - 2], Sep)| == 2 + |sirCols| + |sirCols| * |regions|
  {
    var fields := [TimeField(configText), "VirtualTime"] + CompartmentColumns(sirCols) + RegionColumns(sirCols, regions);
    HeaderBody(configText, sirCols, regions);
    FieldsHaveNoSeparator(configText, sirCols, regions);
    JoinPieces(fields, Sep);
    RegionColumnsLength(sirCols, regions);
    var h := Header(configText, sirCols, regions);
    assert h[..|h| - 2] == Join([Sep], fields);
  }

  /** The header line without its CR LF joins every field with ';'. */
  lemma HeaderBody(configText: string, sirCols: seq<Compartment>, regions: seq<string>)
    requires |sirCols| >= 1 && |regions| >= 1
    ensures var h := Header(configText, sirCols, regions);
            h == Join([Sep], [TimeField(configText), "VirtualTime"] + CompartmentColumns(sirCols)
                               + RegionColumns(sirCols, regions)) + Eol
  {
    assert |RegionColumns(sirCols, regions)| >= 1 by {
      RegionColumnAt(sirCols, regions, 0, 0);
    }
    JoinNested([Sep], TimeField(configText), "VirtualTime", CompartmentColumns(sirCols), RegionColumns(sirCols, regions));
  }

  /** No header field holds a ';' when neither the configuration text nor a region name does. */
  lemma FieldsHaveNoSeparator(configText: string, sirCols: seq<Compartment>, regions: seq<string>)
    requires Sep !in configText && forall j :: 0 <= j < |regions| ==> Sep !in regions[j]
    ensures var fields := [TimeField(configText), "VirtualTime"] + CompartmentColumns(sirCols)
                            + RegionColumns(sirCols, regions);
            forall k :: 0 <= k < |fields| ==> Sep !in fields[k]
  {
    var names := CompartmentColumns(sirCols);
    var cols := RegionColumns(sirCols, regions);
    var fields := [TimeField(configText), "VirtualTime"] + names + cols;
    RegionColumnsHaveNoSeparator(sirCols, regions);
    forall k | 0 <= k < |fields| ensures Sep !in fields[k] {
      if k == 0 {
        assert fields[k] == TimeField(configText);
      } else if 2 <= k < 2 + |names| {
        assert fields[k] == Mseirs.CompartmentName(sirCols[k - 2]);
        CompartmentNameHasNoSeparator(sirCols[k - 2]);
      } else if 2 + |names| <= k {
        assert fields[k] == cols[k - 2 - |names|];
      }
    }
  }

  lemma CompartmentNameHasNoSeparator(c: Compartment)
    ensures Sep !in Mseirs.CompartmentName(c)
  {
  }

  lemma RegionColumnsHaveNoSeparator(sirCols: seq<Compartment>, regions: seq<string>)
    requires forall j :: 0 <= j < |regions| ==> Sep !in regions[j]
    ensures forall k :: 0 <= k < |RegionColumns(sirCols, regions)| ==> Sep !in RegionColumns(sirCols, regions)[k]
  {
    var rows := seq(|sirCols|, i requires 0 <= i < |sirCols| => RegionRow(sirCols[i], regions));
    forall k | 0 <= k < |RegionColumns(sirCols, regions)| ensures Sep !in RegionColumns(sirCols, regions)[k] {
      var x := Flatten(rows)[k];
      FlattenMember(rows, x);
      var i :| 0 <= i < |rows| && x in rows[i];
      var j :| 0 <= j < |regions| && rows[i][j] == x;
      CompartmentNameHasNoSeparator(sirCols[i]);
    }
  }

  // --------------------------------------------------- evaluateFraction

  /** The count of a compartment in a region's counts, zero when absent. */
  function Count(v: map<Compartment, int>, c: Compartment): int
  {
    if c in v then v[c] else 0
  }

  function Abs(x: int): nat
  {
    if x < 0 then -x else x
  }

  /** The sum of the absolute counts over the given compartments. */
  function SumAbsOver(v: map<Compartment, int>, cs: seq<Compartment>): (r: nat)
  {
    if cs == [] then 0 else Abs(Count(v, cs[0])) + SumAbsOver(v, cs[1..])
  }

  /** The divisor of evaluateFraction: the sum of the absolute counts of every compartment present. */
  function SumAbs(v: map<Compartment, int>): nat
  {
    SumAbsOver(v, Mseirs.Compartments)
  }

  lemma InCompartments(c: Compartment)
    ensures c in Mseirs.Compartments
  {
  }

  /** A compartment listed once contributes its absolute count to the sum. */
  lemma {:induction false} SumAbsOverAtLeast(v: map<Compartment, int>, cs: seq<Compartment>, c: Compartment)
    requires c in cs
    ensures SumAbsOver(v, cs) >= Abs(Count(v, c))
  {
    if cs[0] != c {
      SumAbsOverAtLeast(v, cs[1..], c);
    }
  }

  /**
   * evaluateFraction on a region's counts: zero when the dividend
   * compartment is absent or zero, otherwise the dividend over the sum of
   * the absolute counts.
   */
  function Fraction(v: map<Compartment, int>, col: Compartment): (r: real)
    ensures Count(v, col) == 0 ==> r == 0.0
    ensures Count(v, col) != 0 ==> SumAbs(v) > 0 && r == Count(v, col) as real / SumAbs(v) as real
  {
    if Count(v, col) == 0 then 0.0
    else
      InCompartments(col);
      SumAbsOverAtLeast(v, Mseirs.Compartments, col);
      Count(v, col) as real / SumAbs(v) as real
  }

  /** The fraction lies within [-1, 1], has the sign of the dividend, and is 1 exactly when no other count is non-zero. */
  lemma FractionBounds(v: map<Compartment, int>, col: Compartment)
    ensures -1.0 <= Fraction(v, col) <= 1.0
    ensures Fraction(v, col) > 0.0 <==> Count(v, col) > 0
    ensures Fraction(v, col) < 0.0 <==> Count(v, col) < 0
  {
    if Count(v, col) != 0 {
      InCompartments(col);
      SumAbsOverAtLeast(v, Mseirs.Compartments, col);
      DivBound(Count(v, col) as real, SumAbs(v) as real);
    }
  }

  lemma DivBound(d: real, s: real)
    requires s > 0.0 && -s <= d <= s
    ensures -1.0 <= d / s <= 1.0
    ensures d / s > 0.0 <==> d > 0.0
    ensures d / s < 0.0 <==> d < 0.0
  {
  }

  /** Zero counts added for absent compartments change no fraction. */
  lemma {:induction false} SumAbsOverFilled(v: map<Compartment, int>, cols: seq<Compartment>, cs: seq<Compartment>)
    ensures SumAbsOver(Filled(v, cols), cs) == SumAbsOver(v, cs)
  {
    if cs != [] {
      SumAbsOverFilled(v, cols, cs[1..]);
    }
  }

  lemma FractionFilled(v: map<Compartment, int>, cols: seq<Compartment>, col: Compartment)
    ensures Fraction(Filled(v, cols), col) == Fraction(v, col)
  {
    SumAbsOverFilled(v, cols, Mseirs.Compartments);
  }

  /** The region's counts with a zero put in for every listed compartment that is absent. */
  function Filled(v: map<Compartment, int>, cols: seq<Compartment>): (r: map<Compartment, int>)
    ensures forall c :: Count(r, c) == Count(v, c)
    ensures forall c :: c in r <==> c in v || c in cols
  {
    v + map c | c in cols && c !in v :: 0
  }

  // -------------------------------------------------------------- toLog

  /** The fraction of a region, as evaluateFraction gives it; a region without counts has fraction zero. */
  function Score(counts: map<string, map<Compartment, int>>, col: Compartment, region: string): real
  {
    if region in counts then Fraction(counts[region], col) else 0.0
  }

  /** Non-increasing in the fraction. */
  ghost predicate Descending(counts: map<string, map<Compartment, int>>, col: Compartment, s: seq<string>)
  {
    forall a, b :: 0 <= a < b < |s| ==> Score(counts, col, s[a]) >= Score(counts, col, s[b])
  }

  /** Inserts a region after every region with at least its fraction. */
  function InsertDescending(counts: map<string, map<Compartment, int>>, col: Compartment, region: string, s: seq<string>)
    : (r: seq<string>)
    ensures multiset(r) == multiset(s) + multiset{region}
    ensures |r| == |s| + 1
  {
    if s == [] then [region]
    else if Score(counts, col, s[0]) < Score(counts, col, region) then [region] + s
    else
      assert s == [s[0]] + s[1..];
      [s[0]] + InsertDescending(counts, col, region, s[1..])
  }

  lemma {:induction false} InsertDescendingSorted(counts: map<string, map<Compartment, int>>, col: Compartment,
                                                  region: string, s: seq<string>)
    requires Descending(counts, col, s)
    ensures Descending(counts, col, InsertDescending(counts, col, region, s))
  {
    if s != [] && Score(counts, col, s[0]) >= Score(counts, col, region) {
      InsertDescendingSorted(counts, col, region, s[1..]);
      var m := Score(counts, col, s[0]);
      assert AtMost(counts, col, s[1..], m);
      InsertDescendingAtMost(counts, col, region, s[1..], m);
      ConsDescending(counts, col, s[0], InsertDescending(counts, col, region, s[1..]));
    }
  }

  /** No fraction above m. */
  ghost predicate AtMost(counts: map<string, map<Compartment, int>>, col: Compartment, s: seq<string>, m: real)
  {
    forall k :: 0 <= k < |s| ==> Score(counts, col, s[k]) <= m
  }

  /** Inserting a region of fraction at most m keeps every fraction at most m. */
  lemma {:induction false} InsertDescendingAtMost(counts: map<string, map<Compartment, int>>, col: Compartment,
                                                  region: string, s: seq<string>, m: real)
    requires AtMost(counts, col, s, m) && Score(counts, col, region) <= m
    ensures AtMost(counts, col, InsertDescending(counts, col, region, s), m)
  {
    if s == [] {
      assert InsertDescending(counts, col, region, s) == [region];
    } else if Score(counts, col, s[0]) < Score(counts, col, region) {
      ConsAtMost(counts, col, region, s, m);
    } else {
      var rest := InsertDescending(counts, col, region, s[1..]);
      assert InsertDescending(counts, col, region, s) == [s[0]] + rest;
      assert AtMost(counts, col, s[1..], m);
      InsertDescendingAtMost(counts, col, region, s[1..], m);
      ConsAtMost(counts, col, s[0], rest, m);
    }
  }

  lemma ConsAtMost(counts: map<string, map<Compartment, int>>, col: Compartment, head: string, rest: seq<string>, m: real)
    requires AtMost(counts, col, rest, m) && Score(counts, col, head) <= m
    ensures AtMost(counts, col, [head] + rest, m)
  {
    var r := [head] + rest;
    forall k | 0 <= k < |r| ensures Score(counts, col, r[k]) <= m {
      if k > 0 {
        assert r[k] == rest[k - 1];
      }
    }
  }

  /** A descending run stays descending behind a region of at least its fractions. */
  lemma ConsDescending(counts: map<string, map<Compartment, int>>, col: Compartment, head: string, rest: seq<string>)
    requires Descending(counts, col, rest) && AtMost(counts, col, rest, Score(counts, col, head))
    ensures Descending(counts, col, [head] + rest)
  {
    var r := [head] + rest;
    forall a, b | 0 <= a < b < |r| ensures Score(counts, col, r[a]) >= Score(counts, col, r[b]) {
      assert r[b] == rest[b - 1];
      if a > 0 {
        assert r[a] == rest[a - 1];
      }
    }
  }

  /** The regions by descending fraction; regions of equal fraction keep their order. */
  function Ranked(counts: map<string, map<Compartment, int>>, col: Compartment, regions: seq<string>): (r: seq<string>)
    ensures multiset(r) == multiset(regions)
    ensures |r| == |regions|
  {
    if regions == [] then []
    else
      var init := regions[..|regions| - 1];
      assert regions == init + [regions[|regions| - 1]];
      InsertDescending(counts, col, regions[|regions| - 1], Ranked(counts, col, init))
  }

  lemma {:induction false} RankedDescending(counts: map<string, map<Compartment, int>>, col: Compartment, regions: seq<string>)
    ensures Descending(counts, col, Ranked(counts, col, regions))
  {
    if regions != [] {
      var init := regions[..|regions| - 1];
      RankedDescending(counts, col, init);
      InsertDescendingSorted(counts, col, regions[|regions| - 1], Ranked(counts, col, init));
    }
  }

  /** The counts of a region, empty when the region is unknown. */
  function CountsOf(counts: map<string, map<Compartment, int>>, region: string): map<Compartment, int>
  {
    if region in counts then counts[region] else map[]
  }

  /** One log entry: the region, then its counts of the listed compartments in brackets. */
  function Entry(region: string, v: map<Compartment, int>, sirCols: seq<Compartment>): string
  {
    region + ":[" + Join(",", seq(|sirCols|, k requires 0 <= k < |sirCols| => LongToString(Count(v, sirCols[k])))) + "]"
  }

  /** The entries of the listed regions, in order. */
  function Entries(counts: map<string, map<Compartment, int>>, regions: seq<string>, sirCols: seq<Compartment>)
    : (r: seq<string>)
    ensures |r| == |regions|
  {
    seq(|regions|, k requires 0 <= k < |regions| => Entry(regions[k], CountsOf(counts, regions[k]), sirCols))
  }

  /** An entry prints zero for an absent compartment, so filling in zeros does not change it. */
  lemma EntryFilled(region: string, v: map<Compartment, int>, sirCols: seq<Compartment>)
    ensures Entry(region, Filled(v, sirCols), sirCols) == Entry(region, v, sirCols)
  {
    var f := Filled(v, sirCols);
    assert seq(|sirCols|, k requires 0 <= k < |sirCols| => LongToString(Count(f, sirCols[k])))
        == seq(|sirCols|, k requires 0 <= k < |sirCols| => LongToString(Count(v, sirCols[k])));
  }

  /** The counts after the listed regions have had zeros put in for absent compartments. */
  function FilledRegions(counts: map<string, map<Compartment, int>>, regions: seq<string>, sirCols: seq<Compartment>)
    : (r: map<string, map<Compartment, int>>)
    ensures r.Keys == counts.Keys
  {
    map k | k in counts :: if k in regions then Filled(counts[k], sirCols) else counts[k]
  }

  lemma EntriesStep(counts: map<string, map<Compartment, int>>, regions: seq<string>, region: string,
                    sirCols: seq<Compartment>)
    ensures Entries(counts, regions + [region], sirCols)
         == Entries(counts, regions, sirCols) + [Entry(region, CountsOf(counts, region), sirCols)]
  {
  }

  /** Filling one more region, whose counts may be filled already. */
  lemma FilledRegionsStep(counts: map<string, map<Compartment, int>>, regions: seq<string>, region: string,
                          sirCols: seq<Compartment>)
    requires region in counts
    ensures var m := FilledRegions(counts, regions, sirCols);
            FilledRegions(counts, regions + [region], sirCols) == m[region := Filled(m[region], sirCols)]
  {
    var m := FilledRegions(counts, regions, sirCols);
    assert Filled(Filled(counts[region], sirCols), sirCols) == Filled(counts[region], sirCols);
    assert forall k :: k in regions + [region] <==> k in regions || k == region;
  }

  /** One more listed region: its counts are filled and its entry is added. */
  lemma LogStep(start: map<string, map<Compartment, int>>, top: seq<string>, i: nat, sirCols: seq<Compartment>)
    requires i < |top| && top[i] in start
    ensures var m := FilledRegions(start, top[..i], sirCols);
            && top[i] in m
            && FilledRegions(start, top[..i + 1], sirCols) == m[top[i] := Filled(m[top[i]], sirCols)]
            && Entries(start, top[..i + 1], sirCols)
               == Entries(start, top[..i], sirCols) + [Entry(top[i], Filled(m[top[i]], sirCols), sirCols)]
  {
    var region := top[i];
    var m := FilledRegions(start, top[..i], sirCols);
    assert top[..i + 1] == top[..i] + [region];
    FilledRegionsStep(start, top[..i], region, sirCols);
    EntriesStep(start, top[..i], region, sirCols);
    EntryFilled(region, m[region], sirCols);
    EntryFilled(region, start[region], sirCols);
  }

  /**
   * The counts per region of a run, as the simulation keeps them: a map
   * from region to compartment counts, and the order in which its regions
   * are visited.
   */
  class RegionCounts {
    var counts: map<string, map<Compartment, int>>
    var order: seq<string>

    /** The order visits every region once. */
    ghost predicate Valid()
      reads this
    {
      && (forall k :: k in order <==> k in counts)
      && (forall a, b :: 0 <= a < b < |order| ==> order[a] != order[b])
    }

    constructor ()
      ensures Valid() && counts == map[] && order == []
    {
      counts := map[];
      order := [];
    }

    /** computeIfAbsent of a region: a new region gets empty counts and is visited last. */
    method Region(key: string) returns (v: map<Compartment, int>)
      requires Valid()
      modifies this
      ensures Valid()
      ensures key in old(counts) ==> counts == old(counts) && order == old(order)
      ensures key !in old(counts) ==> counts == old(counts)[key := map[]] && order == old(order) + [key]
      ensures v == counts[key]
    {
      if key !in counts {
        counts := counts[key := map[]];
        order := order + [key];
      }
      v := counts[key];
    }

    /**
     * The count of one compartment in one region, read through two
     * computeIfAbsent calls: an unknown region is added with empty counts
     * and visited last, and an absent compartment is put in with 0. Reading
     * changes no count as Count reads it.
     */
    method CountIn(key: string, c: Compartment) returns (n: int)
      requires Valid()
      modifies this
      ensures Valid()
      ensures n == if key in old(counts) then Count(old(counts)[key], c) else 0
      ensures counts == old(counts)[key := Filled(if key in old(counts) then old(counts)[key] else map[], [c])]
      ensures order == if key in old(counts) then old(order) else old(order) + [key]
      ensures forall k, d :: k in old(counts) ==> Count(counts[k], d) == Count(old(counts)[k], d)
    {
      var v := Region(key);
      if c !in v {
        assert Filled(v, [c]) == v[c := 0];
        v := v[c := 0];
        counts := counts[key := v];
      } else {
        assert Filled(v, [c]) == v;
      }
      n := v[c];
    }

    /**
     * evaluateFraction: the fraction of the region in the compartment col;
     * an unknown region is added with empty counts and has fraction zero.
     */
    method EvaluateFraction(key: string, col: Compartment) returns (r: real)
      requires Valid()
      modifies this
      ensures Valid()
      ensures r == Score(old(counts), col, key)
      ensures key in old(counts) ==> counts == old(counts) && order == old(order)
      ensures key !in old(counts) ==> counts == old(counts)[key := map[]] && order == old(order) + [key]
    {
      var v := Region(key);
      var dividend := Count(v, col);
      if dividend == 0 {
        return 0.0;
      }
      InCompartments(col);
      SumAbsOverAtLeast(v, Mseirs.Compartments, col);
      var divisor := SumAbs(v);
      r := dividend as real / divisor as real;
    }

    /**
     * toLog: the entries of at most n regions, those with the largest
     * fractions in col first, separated by ", ". Each listed region has a
     * zero put in for every listed compartment it lacks. A negative n is
     * refused before anything happens.
     */
    method ToLog(sirCols: seq<Compartment>, n: int, col: Compartment) returns (r: Result<string>)
      requires Valid()
      modifies this
      ensures Valid() && order == old(order)
      ensures n < 0 ==> r == Err(IllegalArgument) && counts == old(counts)
      ensures n >= 0 ==>
                var top := Top(old(counts), col, old(order), n);
                && r == Ok(Join(", ", Entries(old(counts), top, sirCols)))
                && counts == FilledRegions(old(counts), top, sirCols)
    {
      if n < 0 {
        return Err(IllegalArgument);
      }
      var top := Top(counts, col, order, n);
      TopKnown(counts, col, order, n);
      ghost var start := counts;
      var entries: seq<string> := [];
      var i := 0;
      while i < |top|
        invariant 0 <= i <= |top|
        invariant counts == FilledRegions(start, top[..i], sirCols)
        invariant entries == Entries(start, top[..i], sirCols)
        invariant order == old(order)
      {
        var region := top[i];
        LogStep(start, top, i, sirCols);
        var v := counts[region];
        counts := counts[region := Filled(v, sirCols)];
        entries := entries + [Entry(region, Filled(v, sirCols), sirCols)];
        i := i + 1;
      }
      assert top[..i] == top;
      r := Ok(Join(", ", entries));
    }
  }

  /** The regions toLog lists: the first n by descending fraction, or all of them when there are fewer. */
  function Top(counts: map<string, map<Compartment, int>>, col: Compartment, order: seq<string>, n: nat): (r: seq<string>)
    ensures |r| == if n < |order| then n else |order|
  {
    var ranked := Ranked(counts, col, order);
    ranked[..if n < |ranked| then n else |ranked|]
  }

  lemma TopKnown(counts: map<string, map<Compartment, int>>, col: Compartment, order: seq<string>, n: nat)
    requires forall k :: k in order ==> k in counts
    ensures forall k :: k in Top(counts, col, order, n) ==> k in counts
  {
    var ranked := Ranked(counts, col, order);
    forall k | k in Top(counts, col, order, n) ensures k in counts {
      assert k in ranked;
      assert k in multiset(ranked);
    }
  }

  /** toLog lists min(n, #regions) regions, with non-increasing fractions, none of them unknown. */
  lemma LogRegions(counts: map<string, map<Compartment, int>>, order: seq<string>, col: Compartment, n: nat)
    ensures var top := Top(counts, col, order, n);
            && |top| == (if n < |order| then n else |order|)
            && Descending(counts, col, top)
            && forall k :: k in top ==> k in order
  {
    var ranked := Ranked(counts, col, order);
    RankedDescending(counts, col, order);
    var top := Top(counts, col, order, n);
    forall k | k in top ensures k in order {
      assert k in ranked;
      assert k in multiset(ranked);
    }
  }

  /** Every listed region ranks at least as high as every region left out. */
  lemma LogLeavesOutLower(counts: map<string, map<Compartment, int>>, order: seq<string>, col: Compartment, n: nat,
                          a: nat, b: nat)
    requires a < n <= b < |order|
    ensures Score(counts, col, Ranked(counts, col, order)[a]) >= Score(counts, col, Ranked(counts, col, order)[b])
  {
    RankedDescending(counts, col, order);
  }
}

=== FILE: demographic_event.dfy ===
/**
 * A demographic event of Geard's model (a birth, death, migration, couple
 * formation or separation, or someone leaving home): its time, the
 * participants who arrive and depart, and the change in population size,
 * put together by a builder.
 */
module DemographicEvent {
  import opened Wrappers

  /** A point on the simulation's time line. */
  type Instant = real

  class Event<T> {
    var time: Option<Instant>
    var deltaSize: int
    var arrivals: seq<T>
    var departures: seq<T>

    /** The size change is the number of arrivals less the number of departures. */
    ghost predicate Valid()
      reads this
    {
      deltaSize == |arrivals| - |departures|
    }

    /** A fresh event: no time, no arrivals or departures, and size change 0. */
    constructor ()
      ensures Valid()
      ensures time == None && deltaSize == 0 && arrivals == [] && departures == []
    {
      time := None;
      deltaSize := 0;
      arrivals := [];
      departures := [];
    }
  }

  class Builder<T> {
    var event: Event<T>

    /** Builder.of: a builder around a fresh event at the given time; a missing time (null) is stored as it is. */
    constructor Of(time: Option<Instant>)
      ensures fresh(event) && event.Valid()
      ensures event.time == time && event.deltaSize == 0
      ensures event.arrivals == [] && event.departures == []
    {
      var e := new Event();
      e.time := time;
      event := e;
    }

    /** withUpdatedDelta: recomputes the size change from the participants. */
    method WithUpdatedDelta() returns (r: Builder<T>)
      modifies event
      ensures r == this && event.Valid()
      ensures event.time == old(event.time)
      ensures event.arrivals == old(event.arrivals) && event.departures == old(event.departures)
    {
      event.deltaSize := |event.arrivals| - |event.departures|;
      r := this;
    }

    /** withArrivals: a missing collection is refused with a NullPointerException before anything changes. */
    method WithArrivals(arrivals: Option<seq<T>>) returns (r: Result<Builder<T>>)
      modifies event
      ensures arrivals.None? ==> r == Err(NullPointer) && unchanged(event)
      ensures arrivals.Some? ==>
                && r == Ok(this) && event.Valid()
                && event.arrivals == arrivals.value
                && event.departures == old(event.departures) && event.time == old(event.time)
    {
      if arrivals.None? {
        return Err(NullPointer);
      }
      event.arrivals := arrivals.value;
      var b := WithUpdatedDelta();
      r := Ok(b);
    }

    /** withDepartures: a missing collection is refused with a NullPointerException before anything changes. */
    method WithDepartures(departures: Option<seq<T>>) returns (r: Result<Builder<T>>)
      modifies event
      ensures departures.None? ==> r == Err(NullPointer) && unchanged(event)
      ensures departures.Some? ==>
                && r == Ok(this) && event.Valid()
                && event.departures == departures.value
                && event.arrivals == old(event.arrivals) && event.time == old(event.time)
    {
      if departures.None? {
        return Err(NullPointer);
      }
      event.departures := departures.value;
      var b := WithUpdatedDelta();
      r := Ok(b);
    }

    /** build: the event itself, with the time given to Builder.of. */
    method Build() returns (e: Event<T>)
      ensures e == event
    {
      e := event;
    }
  }
}

=== FILE: extreme.dfy ===
/**
 * An extreme is one end of a linear range: a value (absent for an infinite
 * end), whether the value itself belongs to the range, and whether it is the
 * lower or the upper end. Extremes are ordered so that infinite lower ends
 * come first and infinite upper ends last.
 */
module Extreme {
  import opened Wrappers

  datatype Inclusiveness = INCLUSIVE | EXCLUSIVE

  /** Inclusiveness.of(Boolean). */
  function InclusivenessOf(inclusive: Option<bool>): (r: Option<Inclusiveness>)
    ensures inclusive == None <==> r == None
    ensures inclusive == Some(true) <==> r == Some(INCLUSIVE)
    ensures inclusive == Some(false) <==> r == Some(EXCLUSIVE)
  {
    match inclusive
    case None => None
    case Some(b) => Some(if b then INCLUSIVE else EXCLUSIVE)
  }

  /** LOWER precedes UPPER in declaration order. */
  datatype BoundaryPosition = LOWER | UPPER

  datatype Comparison = LESS | EQUIVALENT | GREATER

  function Reverse(c: Comparison): Comparison
  {
    match c
    case LESS => GREATER
    case EQUIVALENT => EQUIVALENT
    case GREATER => LESS
  }

  /** How a finite value compares with the infinite limit of a boundary: below +inf, above -inf. */
  function CompareLimit(b: BoundaryPosition): Comparison
  {
    match b
    case LOWER => LESS
    case UPPER => GREATER
  }

  /** Comparison.of two comparables. */
  function CompareReals(x: real, y: real): (r: Comparison)
    ensures r == LESS <==> x < y
    ensures r == GREATER <==> x > y
  {
    if x < y then LESS else if x > y then GREATER else EQUIVALENT
  }

  function CompareBoundaries(a: BoundaryPosition, b: BoundaryPosition): Comparison
  {
    if a == b then EQUIVALENT else if a == LOWER then LESS else GREATER
  }

  datatype Extreme = Extreme(value: Option<real>, inclusive: Option<Inclusiveness>, boundary: BoundaryPosition)

  /** The constructor (and Extreme.of): an infinite extreme has no inclusiveness. */
  function Make(value: Option<real>, inclusiveness: Option<Inclusiveness>, position: BoundaryPosition): (e: Extreme)
    ensures e.value == value && e.boundary == position
    ensures value == None ==> e.inclusive == None
    ensures value != None ==> e.inclusive == inclusiveness
  {
    Extreme(value, if value == None then None else inclusiveness, position)
  }

  function NegativeInfinity(): (e: Extreme)
    ensures IsInfinity(e) && e.boundary == LOWER
  {
    Make(None, None, LOWER)
  }

  function PositiveInfinity(): (e: Extreme)
    ensures IsInfinity(e) && e.boundary == UPPER
  {
    Make(None, None, UPPER)
  }

  function Lower(value: Option<real>, inclusive: Option<bool>): (e: Extreme)
    ensures e.value == value && e.boundary == LOWER
    ensures value != None ==> (IsInclusive(e) <==> inclusive == Some(true))
  {
    Make(value, InclusivenessOf(inclusive), LOWER)
  }

  function Upper(value: Option<real>, inclusive: Option<bool>): (e: Extreme)
    ensures e.value == value && e.boundary == UPPER
    ensures value != None ==> (IsInclusive(e) <==> inclusive == Some(true))
  {
    Make(value, InclusivenessOf(inclusive), UPPER)
  }

  predicate IsInfinity(e: Extreme) { e.value == None }

  predicate IsInclusive(e: Extreme) { e.inclusive == Some(INCLUSIVE) }

  /**
   * compareWith as written. When only the argument is infinite, and when the
   * values are equal and only the argument is inclusive, it returns the
   * argument's own limit instead of that limit reversed.
   */
  function CompareWithAsWritten(a: Extreme, b: Extreme): (r: Comparison)
    // the sign comes out reversed where only the argument is infinite, or where
    // at equal values only the argument is inclusive
    ensures !IsInfinity(a) && IsInfinity(b) ==> r == Reverse(CompareWith(a, b))
    ensures !IsInfinity(a) && !IsInfinity(b) && a.value.value == b.value.value && !IsInclusive(a) && IsInclusive(b) ==>
              r == Reverse(CompareWith(a, b))
    // two inclusive extremes at equal values are equivalent
    ensures !IsInfinity(a) && !IsInfinity(b) && a.value.value == b.value.value && IsInclusive(a) && IsInclusive(b) ==>
              r == EQUIVALENT
    // elsewhere it is the order
    ensures IsInfinity(a) || (!IsInfinity(b) && (a.value.value != b.value.value || (IsInclusive(a) && !IsInclusive(b)))) ==>
              r == CompareWith(a, b)
  {
    if IsInfinity(a) then (if IsInfinity(b) then CompareBoundaries(a.boundary, b.boundary) else CompareLimit(a.boundary))
    else if IsInfinity(b) then CompareLimit(b.boundary)
    else
      var valueCmp := CompareReals(a.value.value, b.value.value);
      if valueCmp != EQUIVALENT then valueCmp
      else if IsInclusive(a) && !IsInclusive(b) then CompareLimit(a.boundary)
      else if !IsInclusive(a) && IsInclusive(b) then CompareLimit(b.boundary)
      else EQUIVALENT
  }

  /** A finite lower bound of 5 and negative infinity each compare LESS than the other. */
  lemma CompareWithAsWrittenNotAntisymmetric()
    ensures var five, inf := Lower(Some(5.0), Some(true)), NegativeInfinity();
      CompareWithAsWritten(five, inf) == LESS && CompareWithAsWritten(inf, five) == LESS
  {
  }

  /** An exclusive and an inclusive lower bound at 1 each compare LESS than the other. */
  lemma CompareWithAsWrittenInclusiveness()
    ensures var open, closed := Lower(Some(1.0), Some(false)), Lower(Some(1.0), Some(true));
      CompareWithAsWritten(open, closed) == LESS && CompareWithAsWritten(closed, open) == LESS
  {
  }

  /**
   * As written, two equivalent extremes compare differently with a third:
   * an inclusive lower bound at 5 is equivalent to an inclusive upper bound
   * at 5, yet the lower one is below, and the upper one above, an exclusive
   * lower bound at 5.
   */
  lemma CompareWithAsWrittenTieInconsistent()
    ensures var z, x, w := Lower(Some(5.0), Some(true)), Lower(Some(5.0), Some(false)), Upper(Some(5.0), Some(true));
      && CompareWithAsWritten(z, w) == EQUIVALENT
      && CompareWithAsWritten(z, x) == LESS
      && CompareWithAsWritten(w, x) == GREATER
  {
  }

  /**
   * Where an extreme stands among the extremes at its own value: an
   * inclusive lower bound first, then every extreme that is not inclusive,
   * then an inclusive upper bound.
   */
  function TieRank(e: Extreme): (r: int)
    ensures 0 <= r <= 2
    ensures r == 1 <==> !IsInclusive(e)
  {
    if !IsInclusive(e) then 1 else if e.boundary == LOWER then 0 else 2
  }

  /** Negative infinity first, then every finite extreme, then positive infinity. */
  function Tier(e: Extreme): int
  {
    if !IsInfinity(e) then 1 else if e.boundary == LOWER then 0 else 2
  }

  /** The order the comparison is meant to be: by tier, then by value, then by rank at the value. */
  predicate Precedes(a: Extreme, b: Extreme)
  {
    || Tier(a) < Tier(b)
    || (Tier(a) == 1 && Tier(b) == 1 &&
        (a.value.value < b.value.value || (a.value.value == b.value.value && TieRank(a) < TieRank(b))))
  }

  /**
   * compareWith with the argument's limit reversed where the receiver is the
   * finite or the exclusive one, so that a finite value lies above negative
   * infinity and below positive infinity whichever side it is on; two
   * inclusive extremes at one value compare by boundary, so that the
   * comparison is an order (see CompareWithPrecedes).
   */
  function CompareWith(a: Extreme, b: Extreme): (r: Comparison)
    // infinities compare by boundary order, LOWER first
    ensures IsInfinity(a) && IsInfinity(b) ==> r == CompareBoundaries(a.boundary, b.boundary)
    // negative infinity is below, positive infinity above, every finite extreme
    ensures IsInfinity(a) && !IsInfinity(b) ==> r == (if a.boundary == LOWER then LESS else GREATER)
    ensures !IsInfinity(a) && IsInfinity(b) ==> r == (if b.boundary == LOWER then GREATER else LESS)
    // finite extremes compare by value first
    ensures !IsInfinity(a) && !IsInfinity(b) && a.value.value != b.value.value ==>
              (r == LESS <==> a.value.value < b.value.value) && r != EQUIVALENT
    // at equal values an inclusive lower bound comes first and an inclusive upper bound last
    ensures !IsInfinity(a) && !IsInfinity(b) && a.value.value == b.value.value ==>
              && (r == LESS <==> TieRank(a) < TieRank(b))
              && (r == GREATER <==> TieRank(a) > TieRank(b))
  {
    if IsInfinity(a) then (if IsInfinity(b) then CompareBoundaries(a.boundary, b.boundary) else CompareLimit(a.boundary))
    else if IsInfinity(b) then Reverse(CompareLimit(b.boundary))
    else
      var valueCmp := CompareReals(a.value.value, b.value.value);
      if valueCmp != EQUIVALENT then valueCmp
      else if IsInclusive(a) && !IsInclusive(b) then CompareLimit(a.boundary)
      else if !IsInclusive(a) && IsInclusive(b) then Reverse(CompareLimit(b.boundary))
      else if IsInclusive(a) && IsInclusive(b) then CompareBoundaries(a.boundary, b.boundary)
      else EQUIVALENT
  }

  /** The comparison is the order Precedes: LESS exactly when a precedes b, GREATER exactly when b precedes a. */
  lemma CompareWithPrecedes(a: Extreme, b: Extreme)
    ensures CompareWith(a, b) == LESS <==> Precedes(a, b)
    ensures CompareWith(a, b) == GREATER <==> Precedes(b, a)
  {
  }

  /** The comparison is antisymmetric, as Comparable requires. */
  lemma CompareWithAntisymmetric(a: Extreme, b: Extreme)
    ensures CompareWith(a, b) == Reverse(CompareWith(b, a))
  {
  }

  /** Every extreme is equivalent to itself. */
  lemma CompareWithReflexive(a: Extreme)
    ensures CompareWith(a, a) == EQUIVALENT
  {
  }

  /** The comparison is transitive, as Comparable requires. */
  lemma CompareWithTransitive(a: Extreme, b: Extreme, c: Extreme)
    requires CompareWith(a, b) == LESS && CompareWith(b, c) == LESS
    ensures CompareWith(a, c) == LESS
  {
    CompareWithPrecedes(a, b);
    CompareWithPrecedes(b, c);
    CompareWithPrecedes(a, c);
  }

  /** Equivalent extremes compare alike with every third one, as Comparable requires. */
  lemma CompareWithEquivalentAlike(a: Extreme, b: Extreme, c: Extreme)
    requires CompareWith(a, b) == EQUIVALENT
    ensures CompareWith(a, c) == CompareWith(b, c)
  {
    CompareWithPrecedes(a, b);
    CompareWithPrecedes(a, c);
    CompareWithPrecedes(b, c);
  }

  /**
   * Both versions agree whenever the receiver is infinite, or the values
   * differ, or the receiver is inclusive and the argument is not an
   * inclusive extreme at the other boundary.
   */
  lemma CompareWithAgreesAsWritten(a: Extreme, b: Extreme)
    requires || IsInfinity(a)
             || (!IsInfinity(b) && a.value.value != b.value.value)
             || (!IsInfinity(b) && IsInclusive(a) && !(IsInclusive(b) && a.boundary != b.boundary))
    ensures CompareWithAsWritten(a, b) == CompareWith(a, b)
  {
  }

  /** Compare.max: the greater extreme, the first one on a tie. */
  function Max(a: Extreme, b: Extreme): (r: Extreme)
    ensures r == a || r == b
    ensures CompareWith(r, a) != LESS && CompareWith(r, b) != LESS
  {
    CompareWithAntisymmetric(a, b);
    CompareWithReflexive(a);
    CompareWithReflexive(b);
    if CompareWith(a, b) == LESS then b else a
  }
}

=== FILE: hesitant_level.dfy ===
/**
 * The three-point Likert scale of the hesitancy scenario: a number maps to
 * LO, MID or HI with both MID boundaries exclusive, which keeps the mapping
 * symmetric under inversion.
 */
module HesitantLevel {

  datatype Level = LO | MID | HI

  const Values: seq<Level> := [LO, MID, HI]

  const MidLower: real := 0.25
  const MidUpper: real := 0.75

  function Ordinal(l: Level): (r: nat)
    ensures r < |Values| && Values[r] == l
  {
    match l
    case LO => 0
    case MID => 1
    case HI => 2
  }

  /** Level.valueOf(Number). */
  function ValueOf(d: real): (r: Level)
    ensures r == LO <==> d <= MidLower
    ensures r == MID <==> MidLower < d < MidUpper
    ensures r == HI <==> d >= MidUpper
  {
    if d > MidLower then (if d < MidUpper then MID else HI) else LO
  }

  /** The level at the mirrored position of the scale. */
  function Invert(l: Level): (r: Level)
    ensures Ordinal(r) + Ordinal(l) == |Values| - 1
  {
    Values[|Values| - 1 - Ordinal(l)]
  }

  /** The crisp value of a level: its ordinal divided by the largest ordinal. */
  function ToNumber(l: Level): (r: real)
    ensures 0.0 <= r <= 1.0
    ensures r * (|Values| - 1) as real == Ordinal(l) as real
  {
    Ordinal(l) as real / (|Values| - 1) as real
  }

  lemma InvertInvolution(l: Level)
    ensures Invert(Invert(l)) == l
    ensures Invert(LO) == HI && Invert(MID) == MID && Invert(HI) == LO
  {
  }

  /** Every level's crisp value maps back to the level. */
  lemma ValueOfToNumber(l: Level)
    ensures ValueOf(ToNumber(l)) == l
  {
  }

  /** Inverting a level mirrors its crisp value. */
  lemma ToNumberInvert(l: Level)
    ensures ToNumber(Invert(l)) == 1.0 - ToNumber(l)
  {
  }

  /** Inversion symmetry: the level of 1 - d is the inverted level of d. */
  lemma InversionSymmetry(d: real)
    ensures ValueOf(1.0 - d) == Invert(ValueOf(d))
  {
  }
}

=== FILE: hh_attitude_evaluator.dfy ===
/**
 * Household attitude evaluators of the pilot: whether a household, given
 * its confidence and complacency attributes, is positive about a vaccination
 * occasion (or in general), and the selection of the positive households
 * among a set of rows.
 */
module HHAttitudeEvaluator {
  import opened Wrappers
  import VaxHesitancyCore

  type Occasion = VaxHesitancyCore.Occasion

  /** The attributes of one household row that the evaluators read. */
  datatype Household = Household(attractorRef: int, confidence: real, complacency: real)

  /** The two example evaluators: by the average barrier and by the difference barrier. */
  datatype Evaluator = Average | Difference

  /** The barrier an occasion's convenience must reach under the evaluator. */
  function Barrier(e: Evaluator, h: Household): real
  {
    match e
    case Average => VaxHesitancyCore.AverageBarrier(h.confidence, h.complacency)
    case Difference => VaxHesitancyCore.DifferenceBarrier(h.confidence, h.complacency)
  }

  /**
   * isPositive of one row: without an occasion, confidence must exceed
   * complacency; with one, every factor of the occasion must reach the
   * barrier.
   */
  function IsPositive(e: Evaluator, occ: Option<Occasion>, h: Household): (r: bool)
    ensures occ.None? ==> (r <==> h.confidence > h.complacency)
    ensures occ.Some? && e == Average ==>
              (r <==> VaxHesitancyCore.MinimumConvenience(occ.value) >= 0.5 - (h.confidence - h.complacency) / 2.0)
    ensures occ.Some? && e == Difference ==>
              (r <==> VaxHesitancyCore.MinimumConvenience(occ.value) >= h.complacency - h.confidence)
  {
    match occ
    case None => h.confidence > h.complacency
    case Some(o) => VaxHesitancyCore.MinimumConvenience(o) >= Barrier(e, h)
  }

  /** With an occasion, a household is positive iff every factor of the occasion reaches its barrier. */
  lemma PositiveIffEveryFactor(e: Evaluator, o: Occasion, h: Household)
    ensures IsPositive(e, Some(o), h) <==>
              var b := Barrier(e, h);
              o.utility >= b && o.proximity >= b && o.clarity >= b && o.affinity >= b
  {
    VaxHesitancyCore.MinimumConvenienceAtLeast(o, Barrier(e, h));
  }

  /** More confidence and less complacency never turn a positive household negative. */
  lemma PositiveMonotone(e: Evaluator, occ: Option<Occasion>, h: Household, g: Household)
    requires IsPositive(e, occ, h)
    requires g.confidence >= h.confidence && g.complacency <= h.complacency
    ensures IsPositive(e, occ, g)
  {
  }

  /** At convenience one half the average evaluator, and at convenience zero the difference evaluator, ask for confidence at least complacency. */
  lemma NeutralConvenience(o: Occasion, h: Household)
    ensures VaxHesitancyCore.MinimumConvenience(o) == 0.5 ==>
              (IsPositive(Average, Some(o), h) <==> h.confidence >= h.complacency)
    ensures VaxHesitancyCore.MinimumConvenience(o) == 0.0 ==>
              (IsPositive(Difference, Some(o), h) <==> h.confidence >= h.complacency)
  {
  }

  /** With attitudes in [0, 1], a fully convenient occasion is accepted under the average evaluator. */
  lemma FullConvenienceAccepted(o: Occasion, h: Household)
    requires VaxHesitancyCore.MinimumConvenience(o) == 1.0
    requires 0.0 <= h.confidence <= 1.0 && 0.0 <= h.complacency <= 1.0
    ensures IsPositive(Average, Some(o), h)
  {
  }

  // ------------------------------------------------------ the stream filter

  /** The row indices 0 .. n - 1, in order. */
  function Indices(n: nat): (r: seq<int>)
    ensures |r| == n && forall i :: 0 <= i < n ==> r[i] == i
  {
    if n == 0 then [] else Indices(n - 1) + [n - 1]
  }

  /** The row indices to consider: a missing or empty filter means every row. */
  function Candidates(rows: seq<Household>, filter: Option<seq<int>>): (r: seq<int>)
    ensures filter.None? || filter.value == [] ==> r == Indices(|rows|)
    ensures filter.Some? && filter.value != [] ==> r == filter.value
  {
    if filter.None? || filter.value == [] then Indices(|rows|) else filter.value
  }

  /** A row is selected when it is not its own attractor and the evaluator finds it positive. */
  predicate Keeps(e: Evaluator, occ: Option<Occasion>, rows: seq<Household>, i: int)
    requires 0 <= i < |rows|
  {
    i != rows[i].attractorRef && IsPositive(e, occ, rows[i])
  }

  /** The two stream filters over the candidates, keeping their order. */
  function Select(e: Evaluator, occ: Option<Occasion>, rows: seq<Household>, candidates: seq<int>): (r: seq<int>)
    requires forall k :: 0 <= k < |candidates| ==> 0 <= candidates[k] < |rows|
    ensures |r| <= |candidates|
  {
    if candidates == [] then []
    else
      var rest := Select(e, occ, rows, candidates[1..]);
      if Keeps(e, occ, rows, candidates[0]) then [candidates[0]] + rest else rest
  }

  /** Every candidate names a row. */
  predicate InRange(rows: seq<Household>, candidates: seq<int>)
  {
    forall k :: 0 <= k < |candidates| ==> 0 <= candidates[k] < |rows|
  }

  /**
   * The default isPositive over a set of rows, consumed in full: the
   * candidate indices (every row when the filter is missing or empty) that
   * are not their own attractor and are positive, in the candidates' order;
   * a filter index outside the rows makes the matrix read throw.
   */
  function Positives(e: Evaluator, occ: Option<Occasion>, rows: seq<Household>, filter: Option<seq<int>>): (r: Result<seq<int>>)
    ensures r.Err? <==> exists k :: 0 <= k < |Candidates(rows, filter)| && !(0 <= Candidates(rows, filter)[k] < |rows|)
    ensures r.Err? ==> r.error == IndexOutOfBounds
    ensures r.Ok? ==> forall i :: i in r.value <==> 0 <= i < |rows| && i in Candidates(rows, filter) && Keeps(e, occ, rows, i)
  {
    var candidates := Candidates(rows, filter);
    if InRange(rows, candidates) then
      SelectMembers(e, occ, rows, candidates);
      Ok(Select(e, occ, rows, candidates))
    else Err(IndexOutOfBounds)
  }

  /** Without a filter, or with an empty one, every row is a candidate and nothing throws. */
  lemma PositivesUnfiltered(e: Evaluator, occ: Option<Occasion>, rows: seq<Household>, filter: Option<seq<int>>)
    requires filter.None? || filter.value == []
    ensures Positives(e, occ, rows, filter).Ok?
    ensures forall i :: i in Positives(e, occ, rows, filter).value <==> 0 <= i < |rows| && Keeps(e, occ, rows, i)
  {
    var candidates := Candidates(rows, filter);
    assert InRange(rows, candidates);
    forall i | 0 <= i < |rows| ensures i in candidates {
      assert candidates[i] == i;
    }
  }

  /** The selection holds exactly the candidates that are kept. */
  lemma {:induction false} SelectMembers(e: Evaluator, occ: Option<Occasion>, rows: seq<Household>, candidates: seq<int>)
    requires forall k :: 0 <= k < |candidates| ==> 0 <= candidates[k] < |rows|
    ensures forall i :: i in Select(e, occ, rows, candidates) <==> i in candidates && Keeps(e, occ, rows, i)
  {
    if candidates != [] {
      SelectMembers(e, occ, rows, candidates[1..]);
      assert candidates == [candidates[0]] + candidates[1..];
    }
  }

  /** Selecting from two runs of candidates is selecting from each in turn: the filter keeps the input order. */
  lemma {:induction false} SelectAppend(e: Evaluator, occ: Option<Occasion>, rows: seq<Household>, a: seq<int>, b: seq<int>)
    requires forall k :: 0 <= k < |a| ==> 0 <= a[k] < |rows|
    requires forall k :: 0 <= k < |b| ==> 0 <= b[k] < |rows|
    ensures Select(e, occ, rows, a + b) == Select(e, occ, rows, a) + Select(e, occ, rows, b)
    decreases |a|
  {
    if a == [] {
      assert a + b == b;
    } else {
      assert (a + b)[0] == a[0];
      assert (a + b)[1..] == a[1..] + b;
      SelectAppend(e, occ, rows, a[1..], b);
      var head := if Keeps(e, occ, rows, a[0]) then [a[0]] else [];
      assert Select(e, occ, rows, a + b) == head + Select(e, occ, rows, a[1..] + b);
      assert Select(e, occ, rows, a) == head + Select(e, occ, rows, a[1..]);
    }
  }

  /** A single candidate is kept alone or dropped. */
  lemma SelectSingle(e: Evaluator, occ: Option<Occasion>, rows: seq<Household>, i: int)
    requires 0 <= i < |rows|
    ensures Select(e, occ, rows, [i]) == if Keeps(e, occ, rows, i) then [i] else []
  {
  }

  predicate Increasing(s: seq<int>)
  {
    forall a, b :: 0 <= a < b < |s| ==> s[a] < s[b]
  }

  /** Over all rows, the selection is increasing: row order is kept. */
  lemma {:induction false} PositivesIncreasing(e: Evaluator, occ: Option<Occasion>, rows: seq<Household>, n: nat)
    requires n <= |rows|
    ensures Increasing(Select(e, occ, rows, Indices(n)))
    ensures forall x :: x in Select(e, occ, rows, Indices(n)) ==> x < n
  {
    if n > 0 {
      PositivesIncreasing(e, occ, rows, n - 1);
      SelectAppend(e, occ, rows, Indices(n - 1), [n - 1]);
      SelectSingle(e, occ, rows, n - 1);
      var before := Select(e, occ, rows, Indices(n - 1));
      var r := Select(e, occ, rows, Indices(n));
      assert r == before + Select(e, occ, rows, [n - 1]);
      forall a, b | 0 <= a < b < |r| ensures r[a] < r[b] {
        if b < |before| {
          assert r[a] == before[a] && r[b] == before[b];
          assert before[a] < before[b];
        } else {
          var last := Select(e, occ, rows, [n - 1]);
          assert last == [n - 1] && b == |before|;
          assert r[b] == n - 1 && r[a] == before[a];
          assert before[a] in before;
          assert before[a] < n - 1;
        }
      }
      forall x | x in r ensures x < n {
        if x !in before {
          assert x in Select(e, occ, rows, [n - 1]);
        }
      }
    }
  }
}

=== FILE: hh_connector.dfy ===
/**
 * The symmetric helpers of the household connector. They store a link once,
 * under the ordered pair of its ends, as the social connector does; a link
 * counts as a peer only when its cell was set and holds a positive weight.
 */
module HHConnector {
  import opened SparseMatrix
  import SocialConnector

  /** top: the social connector's rowSmallest, the two indices in ascending order. */
  function Top(x: Coordinate): (y: Coordinate)
    ensures y.0 <= y.1
    ensures {y.0, y.1} == {x.0, x.1}
    ensures x.0 <= x.1 ==> y == x
  {
    SocialConnector.RowSmallest(x)
  }

  /** getSymmetric: the weight of the link, read from the cell of the ordered pair. */
  function GetSymmetric(W: Matrix, i: nat, j: nat): (w: real)
    reads W
    ensures w == if i <= j then W.Get((i, j)) else W.Get((j, i))
  {
    W.Get(Top((i, j)))
  }

  /** Either order of the same two indices leads to the same cell. */
  lemma TopSymmetric(i: nat, j: nat)
    ensures Top((i, j)) == Top((j, i))
  {
  }

  /** The link's weight does not depend on the order of its ends. */
  lemma GetSymmetricCommutes(W: Matrix, i: nat, j: nat)
    ensures GetSymmetric(W, i, j) == GetSymmetric(W, j, i)
  {
    TopSymmetric(i, j);
  }

  /** setSymmetric: the weight goes into the cell of the ordered pair, and only that cell changes. */
  method SetSymmetric(W: Matrix, w: real, i: nat, j: nat)
    modifies W
    ensures W.cells == old(W.cells)[Top((i, j)) := w]
    ensures GetSymmetric(W, i, j) == w && GetSymmetric(W, j, i) == w
  {
    W.Set(Top((i, j)), w);
    TopSymmetric(i, j);
  }

  /** setSymmetric with one index: the weight of the diagonal cell. */
  method SetDiagonal(W: Matrix, w: real, i: nat)
    modifies W
    ensures W.cells == old(W.cells)[(i, i) := w]
  {
    W.Set((i, i), w);
  }

  /** putSymmetric: stores the new weight of the link and returns the old one. */
  method PutSymmetric(W: Matrix, wNew: real, i: nat, j: nat) returns (wOld: real)
    modifies W
    ensures wOld == old(GetSymmetric(W, i, j)) && wOld == old(GetSymmetric(W, j, i))
    ensures W.cells == old(W.cells)[Top((i, j)) := wNew]
  {
    TopSymmetric(i, j);
    var top := Top((i, j));
    wOld := GetSymmetric(W, top.0, top.1);
    SetSymmetric(W, wNew, top.0, top.1);
  }

  /** isPeer: the link's cell was set and holds a strictly positive weight. */
  predicate IsPeer(W: Matrix, i: nat, j: nat): (b: bool)
    reads W
    ensures b <==> var c := if i <= j then (i, j) else (j, i); c in W.cells && W.cells[c] > 0.0
    ensures b ==> GetSymmetric(W, i, j) > 0.0
  {
    W.Contains(Top((i, j))) && W.Get(Top((i, j))) > 0.0
  }

  /** Peerage is symmetric. */
  lemma IsPeerSymmetric(W: Matrix, i: nat, j: nat)
    ensures IsPeer(W, i, j) <==> IsPeer(W, j, i)
  {
    TopSymmetric(i, j);
  }

  /** A household peer is a social peer; a negative weight is a social link but no household one. */
  lemma IsPeerStricterThanSocial(W: Matrix, i: nat, j: nat)
    ensures IsPeer(W, i, j) ==> SocialConnector.IsPeer(W, i, j)
    ensures SocialConnector.GetSymmetric(W, i, j) < 0.0 ==> SocialConnector.IsPeer(W, i, j) && !IsPeer(W, i, j)
  {
  }

  /** The peers of i among the indices lo .. hi - 1, in ascending order. */
  function PeersBetween(W: Matrix, i: nat, lo: nat, hi: nat): (r: seq<nat>)
    reads W
    ensures forall j: nat :: j in r <==> lo <= j < hi && IsPeer(W, i, j)
    ensures forall a :: 0 <= a < |r| ==> lo <= r[a] < hi
    ensures forall a, b :: 0 <= a < b < |r| ==> r[a] < r[b]
    decreases hi - lo
  {
    if lo >= hi then []
    else if IsPeer(W, i, lo) then [lo] + PeersBetween(W, i, lo + 1, hi)
    else PeersBetween(W, i, lo + 1, hi)
  }

  /**
   * availablePeers: every peer of i below it, then every peer above it up
   * to the column count; each once, in ascending order, never i itself.
   */
  function AvailablePeers(W: Matrix, i: nat): (r: seq<nat>)
    reads W
    ensures forall j: nat :: j in r <==> j != i && j < (if i < W.columnCount then W.columnCount else i) && IsPeer(W, i, j)
    ensures i !in r
    ensures forall a, b :: 0 <= a < b < |r| ==> r[a] < r[b]
  {
    PeersBetween(W, i, 0, i) + PeersBetween(W, i, i + 1, W.columnCount)
  }
}

=== FILE: household.dfy ===
/**
 * A household of individuals, after Geard's demographic model: a set of
 * members that individuals join and part from, that joins or sheds the
 * members of another household, and that can be abandoned. Every
 * operation returns the household itself, for chaining.
 */
module Household {

  /** An individual, known by its identity. */
  type Individual = nat

  class Simple {
    /** The members; a hash set, so an individual is a member at most once. */
    var members: set<Individual>

    constructor ()
      ensures members == {}
    {
      members := {};
    }

    /** join(member): adds the individual. */
    method Join(member: Individual) returns (r: Simple)
      modifies this
      ensures r == this && members == old(members) + {member}
    {
      members := members + {member};
      r := this;
    }

    /** join(extra): adds all the other household's members; that household keeps them. */
    method JoinAll(extra: Simple) returns (r: Simple)
      modifies this
      ensures r == this && members == old(members) + old(extra.members)
      ensures extra != this ==> extra.members == old(extra.members)
    {
      members := members + extra.members;
      r := this;
    }

    /** part(member): removes the individual. */
    method Part(member: Individual) returns (r: Simple)
      modifies this
      ensures r == this && members == old(members) - {member}
    {
      members := members - {member};
      r := this;
    }

    /** part(leavers): removes all the other household's members; parting from itself empties it. */
    method PartAll(leavers: Simple) returns (r: Simple)
      modifies this
      ensures r == this && members == old(members) - old(leavers.members)
      ensures leavers != this ==> leavers.members == old(leavers.members)
    {
      members := members - leavers.members;
      r := this;
    }

    /** abandon: clears the members. */
    method Abandon() returns (r: Simple)
      modifies this
      ensures r == this && members == {}
    {
      members := {};
      r := this;
    }
  }
}

=== FILE: java_collections.dfy ===
/**
 * java.util.Collection's add and remove on a backing collection, seen as
 * the sequence its iterator visits. A set-like collection (a HashSet)
 * refuses an element it already holds; a list-like one (an ArrayList)
 * appends it again. remove takes out the first element equal to its
 * argument. Both report whether the collection changed.
 */
module JavaCollections {

  datatype Kind = SetLike | ListLike

  /** No element occurs twice: what a set-like collection keeps. */
  predicate Distinct<T(==)>(s: seq<T>)
  {
    forall a, b :: 0 <= a < b < |s| ==> s[a] != s[b]
  }

  /** Collection.add: the contents afterwards and whether they changed. */
  function Add<T(==)>(kind: Kind, s: seq<T>, x: T): (r: (seq<T>, bool))
    ensures r.1 <==> kind.ListLike? || x !in s
    ensures x in r.0 && r.0 == if r.1 then s + [x] else s
  {
    if kind.SetLike? && x in s then (s, false) else (s + [x], true)
  }

  /** A set-like collection stays without duplicates. */
  lemma AddDistinct<T>(s: seq<T>, x: T)
    requires Distinct(s)
    ensures Distinct(Add(SetLike, s, x).0)
  {
  }

  /** add puts in one copy of x exactly when it reports a change. */
  lemma AddCount<T>(kind: Kind, s: seq<T>, x: T)
    ensures multiset(Add(kind, s, x).0) == if Add(kind, s, x).1 then multiset(s) + multiset{x} else multiset(s)
  {
  }

  /** Collection.remove: the first element equal to x goes, and the result says whether there was one. */
  function Remove<T(==)>(s: seq<T>, x: T): (r: (seq<T>, bool))
    ensures r.1 <==> x in s
    ensures !r.1 ==> r.0 == s
    ensures |r.0| == if r.1 then |s| - 1 else |s|
  {
    if s == [] then (s, false)
    else if s[0] == x then (s[1..], true)
    else
      var t := Remove(s[1..], x);
      ([s[0]] + t.0, t.1)
  }

  /** remove takes out one copy of x, when there is one, and nothing else. */
  lemma {:induction false} RemoveCount<T>(s: seq<T>, x: T)
    ensures multiset(Remove(s, x).0) == multiset(s) - multiset{x}
  {
    if s != [] {
      assert s == [s[0]] + s[1..];
      if s[0] != x {
        RemoveCount(s[1..], x);
      }
    }
  }

  /** Removing from a collection without duplicates keeps it so, and leaves no copy of the element. */
  lemma {:induction false} RemoveDistinct<T>(s: seq<T>, x: T)
    requires Distinct(s)
    ensures Distinct(Remove(s, x).0) && x !in Remove(s, x).0
  {
    if s != [] {
      assert s[0] !in s[1..];
      if s[0] != x {
        assert Distinct(s[1..]);
        RemoveDistinct(s[1..], x);
        var t := Remove(s[1..], x).0;
        RemoveKeeps(s[1..], x);
        ConsDistinct(s[0], t);
      }
    }
  }

  /** Remove puts in nothing new. */
  lemma {:induction false} RemoveKeeps<T>(s: seq<T>, x: T)
    ensures forall y :: y in Remove(s, x).0 ==> y in s
  {
    if s != [] && s[0] != x {
      RemoveKeeps(s[1..], x);
    }
  }

  lemma ConsDistinct<T>(h: T, t: seq<T>)
    requires Distinct(t) && h !in t
    ensures Distinct([h] + t)
  {
    var r := [h] + t;
    forall a, b | 0 <= a < b < |r| ensures r[a] != r[b] {
      assert r[b] == t[b - 1];
      if a > 0 {
        assert r[a] == t[a - 1];
      }
    }
  }

  /**
   * Removing an element that add has just put in: the contents hold what
   * they held before, in the same order when the element was new.
   */
  lemma RemoveAdded<T>(kind: Kind, s: seq<T>, x: T)
    requires Add(kind, s, x).1
    ensures Remove(Add(kind, s, x).0, x).1
    ensures multiset(Remove(Add(kind, s, x).0, x).0) == multiset(s)
    ensures x !in s ==> Remove(Add(kind, s, x).0, x).0 == s
  {
    AddCount(kind, s, x);
    RemoveCount(Add(kind, s, x).0, x);
    if x !in s {
      RemoveAppended(s, x);
    }
  }

  lemma {:induction false} RemoveAppended<T>(s: seq<T>, x: T)
    requires x !in s
    ensures Remove(s + [x], x) == (s, true)
  {
    if s == [] {
    } else {
      assert (s + [x])[1..] == s[1..] + [x];
      RemoveAppended(s[1..], x);
      assert [s[0]] + s[1..] == s;
    }
  }
}

=== FILE: java_strings.dfy ===
/**
 * The java.lang.String and java.lang.Integer behaviour the modelled code
 * relies on: trim, split on a single character, join, lexicographic order
 * (String.compareTo, which orders the keys of a TreeMap), ASCII case folding
 * (equalsIgnoreCase) and decimal conversion (Integer.valueOf, Long.toString).
 */
module JavaStrings {
  import opened Wrappers

  // ---------------------------------------------------------------- trim

  /** String.trim strips every leading and trailing character at or below U+0020. */
  function TrimStart(s: string): (r: string)
    ensures |r| <= |s| && r == s[|s| - |r|..]
    ensures |r| > 0 ==> r[0] > ' '
    ensures forall i :: 0 <= i < |s| - |r| ==> s[i] <= ' '
  {
    if |s| > 0 && s[0] <= ' ' then TrimStart(s[1..]) else s
  }

  function TrimEnd(s: string): (r: string)
    ensures |r| <= |s| && r == s[..|r|]
    ensures |r| > 0 ==> r[|r| - 1] > ' '
    ensures forall i :: |r| <= i < |s| ==> s[i] <= ' '
  {
    if |s| > 0 && s[|s| - 1] <= ' ' then TrimEnd(s[..|s| - 1]) else s
  }

  function Trim(s: string): (r: string)
    ensures |r| <= |s|
    ensures |r| > 0 ==> r[0] > ' ' && r[|r| - 1] > ' '
    ensures (forall i :: 0 <= i < |s| ==> s[i] <= ' ') <==> r == ""
  {
    TrimEnd(TrimStart(s))
  }

  /** A string that starts and ends above U+0020 is its own trim. */
  lemma TrimUnchanged(s: string)
    requires |s| > 0 ==> s[0] > ' ' && s[|s| - 1] > ' '
    ensures Trim(s) == s
  {
  }

  // ------------------------------------------------------- split and join

  /** Every piece between occurrences of c, empty pieces included. */
  function Pieces(s: string, c: char): (r: seq<string>)
    ensures |r| >= 1
    ensures forall k :: 0 <= k < |r| ==> c !in r[k]
  {
    if |s| == 0 then [""]
    else if s[0] == c then [""] + Pieces(s[1..], c)
    else
      var rest := Pieces(s[1..], c);
      [[s[0]] + rest[0]] + rest[1..]
  }

  /** String.join(sep, parts). */
  function Join(sep: string, parts: seq<string>): string
  {
    if |parts| == 0 then ""
    else if |parts| == 1 then parts[0]
    else parts[0] + sep + Join(sep, parts[1..])
  }

  /** Joining two non-empty runs of parts is joining each and putting the separator between. */
  lemma {:induction false} JoinAppend(sep: string, a: seq<string>, b: seq<string>)
    requires |a| >= 1 && |b| >= 1
    ensures Join(sep, a + b) == Join(sep, a) + sep + Join(sep, b)
    decreases |a|
  {
    if |a| == 1 {
      assert (a + b)[1..] == b;
    } else {
      assert (a + b)[1..] == a[1..] + b;
      JoinAppend(sep, a[1..], b);
    }
  }

  /** A part in front of a non-empty run is the part, the separator and the run joined. */
  lemma JoinCons(sep: string, p: string, rest: seq<string>)
    requires |rest| >= 1
    ensures Join(sep, [p] + rest) == p + sep + Join(sep, rest)
  {
    assert ([p] + rest)[1..] == rest;
  }

  /** Joining two parts with two joined runs is joining the parts and the runs' members. */
  lemma JoinNested(sep: string, a: string, b: string, xs: seq<string>, ys: seq<string>)
    requires |xs| >= 1 && |ys| >= 1
    ensures Join(sep, [a, b, Join(sep, xs), Join(sep, ys)]) == Join(sep, [a, b] + xs + ys)
  {
    var x, y := Join(sep, xs), Join(sep, ys);
    JoinCons(sep, x, [y]);
    JoinCons(sep, b, [x, y]);
    JoinCons(sep, a, [b, x, y]);
    JoinCons(sep, a, [b]);
    assert [x] + [y] == [x, y] && [b] + [x, y] == [b, x, y] && [a] + [b, x, y] == [a, b, x, y];
    JoinAppend(sep, [a, b], xs);
    JoinAppend(sep, [a, b] + xs, ys);
  }

  function DropTrailingEmpty(p: seq<string>): (r: seq<string>)
    ensures |r| <= |p| && r == p[..|r|]
    ensures |r| > 0 ==> r[|r| - 1] != ""
    ensures forall k :: |r| <= k < |p| ==> p[k] == ""
  {
    if |p| > 0 && p[|p| - 1] == "" then DropTrailingEmpty(p[..|p| - 1]) else p
  }

  /**
   * String.split with a one-character pattern that is not a regular
   * expression metacharacter: a string without c is its own only piece,
   * otherwise the pieces lose their trailing empty strings.
   */
  function Split(s: string, c: char): (r: seq<string>)
    ensures c !in s ==> r == [s]
    ensures forall k :: 0 <= k < |r| ==> c !in r[k]
  {
    if c !in s then [s] else DropTrailingEmpty(Pieces(s, c))
  }

  lemma {:induction false} PiecesJoin(s: string, c: char)
    ensures Join([c], Pieces(s, c)) == s
  {
    if |s| > 0 {
      PiecesJoin(s[1..], c);
      var rest := Pieces(s[1..], c);
      if s[0] == c {
        assert Pieces(s, c) == [""] + rest;
        assert s == [s[0]] + s[1..];
      } else {
        assert s == [s[0]] + s[1..];
        if |rest| == 1 {
        } else {
          var p := Pieces(s, c);
          assert p[1..] == rest[1..];
        }
      }
    }
  }

  lemma {:induction false} JoinPieces(parts: seq<string>, c: char)
    requires |parts| >= 1
    requires forall k :: 0 <= k < |parts| ==> c !in parts[k]
    ensures Pieces(Join([c], parts), c) == parts
  {
    if |parts| == 1 {
      PiecesOfPlain(parts[0], c);
    } else {
      JoinPieces(parts[1..], c);
      PiecesOfPrefix(parts[0], Join([c], parts[1..]), c);
    }
  }

  lemma {:induction false} PiecesOfPlain(s: string, c: char)
    requires c !in s
    ensures Pieces(s, c) == [s]
  {
    if |s| > 0 {
      PiecesOfPlain(s[1..], c);
      assert [s[0]] + s[1..] == s;
    }
  }

  lemma {:induction false} PiecesOfPrefix(a: string, b: string, c: char)
    requires c !in a
    ensures Pieces(a + [c] + b, c) == [a] + Pieces(b, c)
  {
    if |a| == 0 {
      assert a + [c] + b == [c] + b;
      assert ([c] + b)[1..] == b;
    } else {
      PiecesOfPrefix(a[1..], b, c);
      assert (a + [c] + b)[1..] == a[1..] + [c] + b;
      assert [a[0]] + a[1..] == a;
    }
  }

  /** Split after Join gives the parts back when none holds the separator and the last is not empty. */
  lemma SplitJoin(parts: seq<string>, c: char)
    requires |parts| >= 2
    requires forall k :: 0 <= k < |parts| ==> c !in parts[k]
    requires parts[|parts| - 1] != ""
    ensures Split(Join([c], parts), c) == parts
  {
    JoinPieces(parts, c);
    var s := Join([c], parts);
    assert s == parts[0] + [c] + Join([c], parts[1..]);
    assert s[|parts[0]|] == c;
  }

  // -------------------------------------------------- lexicographic order

  /** String.compareTo(a, b) < 0: the first differing character decides, else the shorter string. */
  predicate LexLess(a: string, b: string)
  {
    if |b| == 0 then false
    else if |a| == 0 then true
    else if a[0] != b[0] then a[0] < b[0]
    else LexLess(a[1..], b[1..])
  }

  lemma {:induction false} LexIrreflexive(a: string)
    ensures !LexLess(a, a)
  {
    if |a| > 0 { LexIrreflexive(a[1..]); }
  }

  lemma {:induction false} LexTransitive(a: string, b: string, c: string)
    requires LexLess(a, b) && LexLess(b, c)
    ensures LexLess(a, c)
  {
    if |a| > 0 && a[0] == b[0] && b[0] == c[0] {
      LexTransitive(a[1..], b[1..], c[1..]);
    }
  }

  lemma {:induction false} LexTotal(a: string, b: string)
    requires a != b
    ensures LexLess(a, b) || LexLess(b, a)
  {
    if |a| > 0 && |b| > 0 && a[0] == b[0] {
      assert a == [a[0]] + a[1..] && b == [b[0]] + b[1..];
      LexTotal(a[1..], b[1..]);
    }
  }

  lemma LexAsymmetric(a: string, b: string)
    requires LexLess(a, b)
    ensures !LexLess(b, a)
  {
    if LexLess(b, a) {
      LexTransitive(a, b, a);
      LexIrreflexive(a);
    }
  }

  // --------------------------------------------------------- case folding

  function ToUpperAscii(c: char): (r: char)
    ensures 'a' <= c <= 'z' ==> 'A' <= r <= 'Z'
    ensures !('a' <= c <= 'z') ==> r == c
  {
    if 'a' <= c <= 'z' then (c as int - 32) as char else c
  }

  /** String.equalsIgnoreCase, restricted to ASCII case mappings. */
  predicate EqualsIgnoreCase(a: string, b: string)
  {
    |a| == |b| && forall i :: 0 <= i < |a| ==> ToUpperAscii(a[i]) == ToUpperAscii(b[i])
  }

  /** String.toUpperCase, restricted to ASCII case mappings. */
  function UpperAscii(s: string): (r: string)
    ensures |r| == |s| && forall i :: 0 <= i < |s| ==> r[i] == ToUpperAscii(s[i])
  {
    seq(|s|, i requires 0 <= i < |s| => ToUpperAscii(s[i]))
  }

  predicate NoLowerAscii(s: string) { forall i :: 0 <= i < |s| ==> !('a' <= s[i] <= 'z') }

  lemma UpperAsciiUnchanged(s: string)
    requires NoLowerAscii(s)
    ensures UpperAscii(s) == s
  {
  }

  /** Against a string without lower-case letters, ignoring case means upper-casing the other side. */
  lemma EqualsIgnoreCaseUpper(a: string, b: string)
    requires NoLowerAscii(b)
    ensures EqualsIgnoreCase(a, b) <==> UpperAscii(a) == b
  {
    if UpperAscii(a) == b {
      assert forall i :: 0 <= i < |a| ==> ToUpperAscii(b[i]) == b[i];
    }
  }

  // -------------------------------------------------------------- numbers

  predicate IsDigit(c: char) { '0' <= c <= '9' }

  predicate AllDigits(s: string) { forall i :: 0 <= i < |s| ==> IsDigit(s[i]) }

  /** The value of a string of decimal digits, most significant first. */
  function DigitsValue(s: string): nat
    requires AllDigits(s)
  {
    if |s| == 0 then 0 else DigitsValue(s[..|s| - 1]) * 10 + (s[|s| - 1] as int - '0' as int)
  }

  /** Decimal digits of n without leading zeros (Long.toString of a non-negative value). */
  function NatToString(n: nat): (r: string)
    ensures |r| >= 1 && AllDigits(r)
    ensures DigitsValue(r) == n
    ensures |r| > 1 ==> r[0] != '0'
  {
    var d := [(n % 10 + '0' as int) as char];
    if n < 10 then d else NatToString(n / 10) + d
  }

  /** Long.toString / Integer.toString. */
  function LongToString(n: int): (r: string)
    ensures n >= 0 ==> AllDigits(r)
    ensures n < 0 ==> |r| >= 2 && r[0] == '-' && AllDigits(r[1..])
  {
    if n < 0 then "-" + NatToString(-n) else NatToString(n)
  }

  const IntMin: int := -0x8000_0000
  const IntMax: int := 0x7fff_ffff

  /**
   * Integer.valueOf(String) / Integer.parseInt: an optional sign followed by
   * at least one digit, with the value inside the 32-bit range.
   */
  function ParseInt(s: string): (r: Result<int>)
    ensures r.Ok? ==> IntMin <= r.value <= IntMax
    ensures r.Err? ==> r.error == NumberFormat
    ensures AllDigits(s) && |s| > 0 && DigitsValue(s) <= IntMax ==> r == Ok(DigitsValue(s))
    ensures s == "" ==> r.Err?
    // anything but one leading sign and then digits is refused
    ensures r.Ok? ==> var d := if s[0] == '+' || s[0] == '-' then s[1..] else s;
                      |d| > 0 && AllDigits(d) && r.value == (if s[0] == '-' then -(DigitsValue(d) as int) else DigitsValue(d))
  {
    if |s| == 0 then Err(NumberFormat)
    else
      var negative := s[0] == '-';
      var digits := if s[0] == '-' || s[0] == '+' then s[1..] else s;
      if |digits| == 0 || !AllDigits(digits) then Err(NumberFormat)
      else
        var v: int := if negative then -(DigitsValue(digits) as int) else DigitsValue(digits);
        if v < IntMin || v > IntMax then Err(NumberFormat) else Ok(v)
  }

  lemma ParseIntLongToString(n: int)
    requires IntMin <= n <= IntMax
    ensures ParseInt(LongToString(n)) == Ok(n)
  {
    if n < 0 {
      var s := LongToString(n);
      assert s[1..] == NatToString(-n);
    }
  }
}

=== FILE: mseirs.dfy ===
/**
 * The MSEIRS compartment model: the compartments an individual moves
 * through (passively immune, susceptible, exposed, infective, recovered,
 * newborn, vaccinated, dormant), the transitions between them, and the
 * transition each compartment takes by default.
 */
module Mseirs {

  datatype Compartment =
    | PASSIVE_IMMUNE | SUSCEPTIBLE | EXPOSED | INFECTIVE | RECOVERED | NEWBORN | VACCINATED | DORMANT

  datatype Transition =
    | PASSIVE | SUSCEPTIBILITY | LATENCY | INFECTIOUS | ACCEPTANCE
    | WANING_PASSIVE | WANING_NATURAL | WANING_ACQUIRED

  const Compartments: seq<Compartment> :=
    [PASSIVE_IMMUNE, SUSCEPTIBLE, EXPOSED, INFECTIVE, RECOVERED, NEWBORN, VACCINATED, DORMANT]

  /** The infective flag: only the compartment that incubation (LATENCY) leads to is infective. */
  predicate IsInfective(c: Compartment): (b: bool)
    ensures b <==> c == Outcome(LATENCY)
  {
    c == INFECTIVE
  }

  /** The transitions by which an immunity wanes: the passive one and the three waning ones. */
  predicate IsWaning(t: Transition)
  {
    t in {PASSIVE, WANING_PASSIVE, WANING_NATURAL, WANING_ACQUIRED}
  }

  /**
   * The susceptible flag: the plain susceptible compartment and exactly the
   * compartments that a waning immunity leads to.
   */
  predicate IsSusceptible(c: Compartment): (b: bool)
    ensures b <==> c == SUSCEPTIBLE || exists t :: IsWaning(t) && Outcome(t) == c
  {
    assert Outcome(PASSIVE) == NEWBORN && Outcome(WANING_NATURAL) == DORMANT;
    c in {SUSCEPTIBLE, NEWBORN, DORMANT}
  }

  /** No compartment is both infective and susceptible. */
  lemma InfectiveNotSusceptible(c: Compartment)
    ensures !(IsInfective(c) && IsSusceptible(c))
  {
  }

  /**
   * The compartment a transition leads to. No transition leads into passive
   * immunity or into the plain susceptible compartment, and every waning
   * transition leads to the dormant one.
   */
  function Outcome(t: Transition): (c: Compartment)
    ensures c != PASSIVE_IMMUNE && c != SUSCEPTIBLE
    ensures c == DORMANT <==> t in {WANING_PASSIVE, WANING_NATURAL, WANING_ACQUIRED}
  {
    match t
    case PASSIVE => NEWBORN
    case SUSCEPTIBILITY => EXPOSED
    case LATENCY => INFECTIVE
    case INFECTIOUS => RECOVERED
    case ACCEPTANCE => VACCINATED
    case WANING_PASSIVE | WANING_NATURAL | WANING_ACQUIRED => DORMANT
  }

  /**
   * The transition a compartment takes by default. The source's switch ends
   * in a throwing default branch; every compartment has a case, so the
   * match here is total.
   */
  function DefaultTransition(c: Compartment): (t: Transition)
    ensures Outcome(t) != c
    ensures IsSusceptible(c) ==> Outcome(t) == EXPOSED || Outcome(t) == VACCINATED
    ensures IsInfective(c) ==> Outcome(t) == RECOVERED
  {
    match c
    case PASSIVE_IMMUNE => WANING_PASSIVE
    case SUSCEPTIBLE => SUSCEPTIBILITY
    case EXPOSED => LATENCY
    case INFECTIVE => INFECTIOUS
    case RECOVERED => WANING_NATURAL
    case NEWBORN => ACCEPTANCE
    case VACCINATED => WANING_ACQUIRED
    case DORMANT => SUSCEPTIBILITY
  }

  /** The default transition taken after the given one. */
  function Successor(t: Transition): (u: Transition)
    ensures Outcome(u) != Outcome(t)
    ensures Outcome(t) == INFECTIVE ==> Outcome(u) == RECOVERED
  {
    DefaultTransition(Outcome(t))
  }

  function Iterate(t: Transition, n: nat): Transition
    decreases n
  {
    if n == 0 then t else Iterate(Successor(t), n - 1)
  }

  /** From exposure the default course is E, I, R, then dormant and exposed again. */
  lemma InfectionCycle()
    ensures Outcome(Iterate(SUSCEPTIBILITY, 0)) == EXPOSED
    ensures Outcome(Iterate(SUSCEPTIBILITY, 1)) == INFECTIVE
    ensures Outcome(Iterate(SUSCEPTIBILITY, 2)) == RECOVERED
    ensures Outcome(Iterate(SUSCEPTIBILITY, 3)) == DORMANT
    ensures Iterate(SUSCEPTIBILITY, 4) == SUSCEPTIBILITY
  {
    assert Iterate(SUSCEPTIBILITY, 4) == Iterate(LATENCY, 3) == Iterate(INFECTIOUS, 2)
        == Iterate(WANING_NATURAL, 1) == Iterate(SUSCEPTIBILITY, 0);
  }

  /** Every transition reaches the susceptibility transition within four default steps. */
  lemma AllReachSusceptibility(t: Transition)
    ensures exists n :: 0 <= n <= 4 && Iterate(t, n) == SUSCEPTIBILITY
  {
    match t
    case SUSCEPTIBILITY => assert Iterate(t, 0) == SUSCEPTIBILITY;
    case WANING_PASSIVE | WANING_NATURAL | WANING_ACQUIRED =>
      assert Iterate(t, 1) == Iterate(SUSCEPTIBILITY, 0);
    case INFECTIOUS =>
      assert Iterate(t, 2) == Iterate(WANING_NATURAL, 1) == Iterate(SUSCEPTIBILITY, 0);
    case LATENCY =>
      assert Iterate(t, 3) == Iterate(INFECTIOUS, 2) == Iterate(WANING_NATURAL, 1) == Iterate(SUSCEPTIBILITY, 0);
    case ACCEPTANCE =>
      assert Iterate(t, 2) == Iterate(WANING_ACQUIRED, 1) == Iterate(SUSCEPTIBILITY, 0);
    case PASSIVE =>
      assert Iterate(t, 3) == Iterate(ACCEPTANCE, 2) == Iterate(WANING_ACQUIRED, 1) == Iterate(SUSCEPTIBILITY, 0);
  }

  // ------------------------------------------------------------ stringify

  function CompartmentName(c: Compartment): string
  {
    match c
    case PASSIVE_IMMUNE => "PASSIVE_IMMUNE"
    case SUSCEPTIBLE => "SUSCEPTIBLE"
    case EXPOSED => "EXPOSED"
    case INFECTIVE => "INFECTIVE"
    case RECOVERED => "RECOVERED"
    case NEWBORN => "NEWBORN"
    case VACCINATED => "VACCINATED"
    case DORMANT => "DORMANT"
  }

  function TransitionName(t: Transition): string
  {
    match t
    case PASSIVE => "PASSIVE"
    case SUSCEPTIBILITY => "SUSCEPTIBILITY"
    case LATENCY => "LATENCY"
    case INFECTIOUS => "INFECTIOUS"
    case ACCEPTANCE => "ACCEPTANCE"
    case WANING_PASSIVE => "WANING_PASSIVE"
    case WANING_NATURAL => "WANING_NATURAL"
    case WANING_ACQUIRED => "WANING_ACQUIRED"
  }

  /** A compartment's JSON form: the first letter of its name. */
  function CompartmentJson(c: Compartment): (r: string)
    ensures |r| == 1 && r == CompartmentName(c)[..1]
  {
    CompartmentName(c)[..1]
  }

  /** Distinct compartments have distinct JSON forms. */
  lemma CompartmentJsonInjective(c: Compartment, d: Compartment)
    requires c != d
    ensures CompartmentJson(c) != CompartmentJson(d)
  {
    assert CompartmentJson(c)[0] == CompartmentName(c)[0];
    assert CompartmentJson(d)[0] == CompartmentName(d)[0];
  }

  /** Lower-case (root locale, ASCII) with every '_' replaced by '-'. */
  function LowerDashed(s: string): (r: string)
    ensures |r| == |s|
    ensures forall i :: 0 <= i < |s| ==> (r[i] == '-' <==> s[i] == '_' || s[i] == '-')
    ensures forall i :: 0 <= i < |s| && 'A' <= s[i] <= 'Z' ==> r[i] as int == s[i] as int + 32
  {
    seq(|s|, i requires 0 <= i < |s| =>
      if s[i] == '_' then '-' else if 'A' <= s[i] <= 'Z' then (s[i] as int + 32) as char else s[i])
  }

  /** A transition's JSON form: its name in lower case, dashed, with suffix "-period". */
  function TransitionJson(t: Transition): (r: string)
    ensures |r| == |TransitionName(t)| + 7
    ensures r[..|TransitionName(t)|] == LowerDashed(TransitionName(t))
    ensures r[|TransitionName(t)|..] == "-period"
  {
    LowerDashed(TransitionName(t)) + "-period"
  }

  /** Distinct transitions have distinct JSON forms. */
  lemma TransitionJsonInjective(t: Transition, u: Transition)
    requires t != u
    ensures TransitionJson(t) != TransitionJson(u)
  {
    var a, b := TransitionName(t), TransitionName(u);
    if TransitionJson(t) == TransitionJson(u) {
      assert |a| == |b|;
      assert LowerDashed(a) == LowerDashed(b);
      NamesDifferAt(t, u);
    }
  }

  /** Two transition names of equal length differ at a letter, so their lower-case forms differ. */
  lemma NamesDifferAt(t: Transition, u: Transition)
    requires t != u && |TransitionName(t)| == |TransitionName(u)|
    ensures LowerDashed(TransitionName(t)) != LowerDashed(TransitionName(u))
  {
    var a, b := TransitionName(t), TransitionName(u);
    var i :| 0 <= i < |a| && a[i] != b[i] && 'A' <= a[i] <= 'Z' && 'A' <= b[i] <= 'Z' by {
      match t
      case PASSIVE => assert a[0] != b[0];
      case SUSCEPTIBILITY => assert a[7] != b[7];
      case LATENCY => assert a[0] != b[0];
      case INFECTIOUS => assert a[0] != b[0];
      case ACCEPTANCE => assert a[0] != b[0];
      case WANING_PASSIVE => assert a[7] != b[7];
      case WANING_NATURAL => assert a[7] != b[7];
      case WANING_ACQUIRED => assert false;
    }
    assert LowerDashed(a)[i] != LowerDashed(b)[i];
  }
}

=== FILE: option_picker.dfy ===
/**
 * The simple option picker: a collection of options to pick from, and a
 * cache of the pickers already built for each preference (evaluator).
 * A picker is built from the options weighed by its evaluator; the random
 * draw it then makes is not modelled. Registering or unregistering an
 * option drops every cached picker.
 */
module OptionPicker {
  import opened JavaCollections
  import opened Wrappers

  /** The identity of an evaluator function, the key of the preference cache. */
  type EvaluatorId = nat

  /**
   * The weighted values a picker is built from: every option in order,
   * paired with its weight, except the options the evaluator gives no
   * weight (null).
   */
  function Weighted<T>(options: seq<T>, weigh: T -> Option<real>): (r: seq<(T, real)>)
    ensures |r| <= |options|
    ensures forall k :: 0 <= k < |r| ==> r[k].0 in options && weigh(r[k].0) == Some(r[k].1)
    ensures forall k :: 0 <= k < |options| && weigh(options[k]).Some? ==> (options[k], weigh(options[k]).value) in r
  {
    if options == [] then []
    else
      var rest := Weighted(options[1..], weigh);
      match weigh(options[0])
      case None => rest
      case Some(w) => [(options[0], w)] + rest
  }

  class Simple<T(==)> {
    const kind: Kind
    var coll: seq<T>
    /** The cached pickers, each given by the weighted values it was built from. */
    var preferences: map<EvaluatorId, seq<(T, real)>>

    ghost predicate Valid()
      reads this
    {
      kind.SetLike? ==> Distinct(coll)
    }

    constructor (kind: Kind, coll: seq<T>)
      requires kind.SetLike? ==> Distinct(coll)
      ensures Valid() && this.kind == kind && this.coll == coll && preferences == map[]
    {
      this.kind := kind;
      this.coll := coll;
      preferences := map[];
    }

    /** all: the backing collection itself. */
    function All(): (r: seq<T>)
      reads this
      ensures |r| == |coll| && forall k :: 0 <= k < |r| ==> r[k] == coll[k]
    {
      coll
    }

    /** total: the number of options, the size of what all returns. */
    function Total(): (r: nat)
      reads this
      ensures r == |All()|
    {
      |coll|
    }

    /** register: clears the cache, then the collection's add. */
    method Register(option: T) returns (r: bool)
      requires Valid()
      modifies this
      ensures Valid() && preferences == map[]
      ensures (coll, r) == Add(kind, old(coll), option)
    {
      preferences := map[];
      if kind.SetLike? {
        AddDistinct(coll, option);
      }
      var added := Add(kind, coll, option);
      coll := added.0;
      r := added.1;
    }

    /** unregister: clears the cache, then the collection's remove. */
    method Unregister(option: T) returns (r: bool)
      requires Valid()
      modifies this
      ensures Valid() && preferences == map[]
      ensures (coll, r) == Remove(old(coll), option)
    {
      preferences := map[];
      if kind.SetLike? {
        RemoveDistinct(coll, option);
      }
      var removed := Remove(coll, option);
      coll := removed.0;
      r := removed.1;
    }

    /**
     * pick with an evaluator: the picker cached for the evaluator, built
     * from the current options on first use (computeIfAbsent). The result
     * is what the picker draws from; the options do not change.
     */
    method PickFrom(evaluator: EvaluatorId, weigh: T -> Option<real>) returns (r: seq<(T, real)>)
      requires Valid()
      modifies this`preferences
      ensures Valid()
      ensures evaluator in old(preferences) ==> r == old(preferences)[evaluator] && preferences == old(preferences)
      ensures evaluator !in old(preferences) ==> r == Weighted(coll, weigh) && preferences == old(preferences)[evaluator := r]
    {
      if evaluator !in preferences {
        preferences := preferences[evaluator := Weighted(coll, weigh)];
      }
      r := preferences[evaluator];
    }
  }

  /**
   * After a register the cache is empty, so the next pick with any
   * evaluator draws from the options as they are now, registered one included.
   */
  method RegisterThenPick<T(==)>(picker: Simple<T>, option: T, evaluator: EvaluatorId, weigh: T -> Option<real>)
    returns (r: seq<(T, real)>)
    requires picker.Valid()
    modifies picker
    ensures picker.Valid() && option in picker.coll
    ensures r == Weighted(picker.coll, weigh)
    ensures weigh(option).Some? ==> (option, weigh(option).value) in r
  {
    var _ := picker.Register(option);
    r := picker.PickFrom(evaluator, weigh);
  }

  /**
   * Registering a new option and unregistering it again gives back the
   * options in their order, both reporting success.
   */
  lemma RegisterUnregister<T>(kind: Kind, options: seq<T>, option: T)
    requires option !in options
    ensures Add(kind, options, option).1
    ensures Remove(Add(kind, options, option).0, option) == (options, true)
  {
    RemoveAdded(kind, options, option);
  }

  /** On a set-like collection, registering an option twice changes nothing the second time. */
  lemma RegisterTwice<T>(options: seq<T>, option: T)
    ensures var once := Add(SetLike, options, option).0;
            Add(SetLike, once, option) == (once, false)
  {
  }
}

=== FILE: persons.dfy ===
/**
 * A person's position within a household: the referent, the referent's
 * partner, and the children by rank, with all children after the third
 * sharing one position.
 */
module Persons {
  import opened Wrappers

  datatype HouseholdPosition = REFERENT | PARTNER | CHILD1 | CHILD2 | CHILD3 | CHILDMORE

  /** Declaration order, as Enum.values() lists the positions. */
  const Values: seq<HouseholdPosition> := [REFERENT, PARTNER, CHILD1, CHILD2, CHILD3, CHILDMORE]

  function Ordinal(p: HouseholdPosition): (r: nat)
    ensures r < |Values| && Values[r] == p
  {
    match p
    case REFERENT => 0
    case PARTNER => 1
    case CHILD1 => 2
    case CHILD2 => 3
    case CHILD3 => 4
    case CHILDMORE => 5
  }

  function IsAdult(p: HouseholdPosition): (r: bool)
    ensures r <==> p == REFERENT || p == PARTNER
  {
    Ordinal(p) < 2
  }

  /**
   * The position of the child of the given rank (0 for the eldest). A
   * negative rank indexes the adult positions, and below -2 it falls off
   * the front of the values array.
   */
  function OfChildIndex(rank: int): (r: Result<HouseholdPosition>)
    ensures 0 <= rank < 3 ==> r == Ok(Values[2 + rank]) && !IsAdult(r.value)
    ensures rank >= 3 ==> r == Ok(CHILDMORE)
    ensures r.Err? <==> rank < -2
    ensures r.Err? ==> r.error == IndexOutOfBounds
    ensures r.Ok? ==> (IsAdult(r.value) <==> rank < 0)
  {
    if rank < 3 then
      if 2 + rank < 0 then Err(IndexOutOfBounds) else Ok(Values[2 + rank])
    else Ok(CHILDMORE)
  }

  /**
   * The new position of a remaining member after the member at `missing`
   * left, as written: a partner succeeds a departed referent, and any other
   * departure moves every child ranked after it one step down, even when the
   * departed member is the partner.
   */
  function ShiftAsWritten(p: HouseholdPosition, missing: HouseholdPosition): (r: HouseholdPosition)
    ensures Ordinal(r) <= Ordinal(p)
    ensures Ordinal(r) >= Ordinal(p) - 1
  {
    if missing == REFERENT then (if p == PARTNER then REFERENT else p)
    else if !IsAdult(p) && Ordinal(p) > Ordinal(missing) then Values[Ordinal(p) - 1]
    else p
  }

  /** The eldest child takes the adult PARTNER position when the partner leaves. */
  lemma ShiftAsWrittenPromotesChild()
    ensures !IsAdult(CHILD1) && IsAdult(ShiftAsWritten(CHILD1, PARTNER))
  {
  }

  /**
   * The new position of a remaining member after the member at `missing`
   * left: the partner succeeds a departed referent, a departed child's
   * younger siblings move one rank up, and a departed partner moves nobody.
   */
  function Shift(p: HouseholdPosition, missing: HouseholdPosition): (r: HouseholdPosition)
    ensures Ordinal(r) <= Ordinal(p)
    ensures missing == REFERENT ==> r == (if p == PARTNER then REFERENT else p)
    ensures IsAdult(p) && missing != REFERENT ==> r == p
    ensures !IsAdult(p) && IsAdult(missing) ==> r == p
    ensures !IsAdult(p) && !IsAdult(missing) ==>
              if Ordinal(p) > Ordinal(missing) then Ordinal(r) == Ordinal(p) - 1 else r == p
  {
    if missing == REFERENT then (if p == PARTNER then REFERENT else p)
    else if !IsAdult(missing) && !IsAdult(p) && Ordinal(p) > Ordinal(missing) then Values[Ordinal(p) - 1]
    else p
  }

  /** Shifting never turns a child into an adult or an adult into a child. */
  lemma ShiftKeepsAdulthood(p: HouseholdPosition, missing: HouseholdPosition)
    ensures IsAdult(Shift(p, missing)) == IsAdult(p)
  {
  }

  /**
   * Remaining members keep distinct positions: two different positions,
   * neither of them the departed one, stay apart.
   */
  lemma ShiftInjective(p: HouseholdPosition, q: HouseholdPosition, missing: HouseholdPosition)
    requires p != q && p != missing && q != missing
    ensures Shift(p, missing) != Shift(q, missing)
  {
  }

  /** Both shifts agree except when the partner leaves. */
  lemma ShiftAgreesAsWritten(p: HouseholdPosition, missing: HouseholdPosition)
    requires missing != PARTNER
    ensures Shift(p, missing) == ShiftAsWritten(p, missing)
  {
  }
}

=== FILE: range.dfy ===
/**
 * A range of values with an optional minimum and maximum (an absent bound
 * is infinite), each inclusive or exclusive. Inclusiveness is a boxed
 * Boolean in the source, so it may be null; testing a value against a
 * present bound whose inclusiveness is null unboxes null and throws.
 */
module Range {
  import opened Wrappers

  datatype Range = Range(minimum: Option<real>, minimumInclusive: Option<bool>,
                         maximum: Option<real>, maximumInclusive: Option<bool>)

  /** Every present bound says whether it is inclusive. */
  predicate WellFormed(r: Range)
  {
    (r.minimum.Some? ==> r.minimumInclusive.Some?) && (r.maximum.Some? ==> r.maximumInclusive.Some?)
  }

  /** The constructor (and Range.of with four arguments): a maximum below the minimum is refused. */
  function Make(minimum: Option<real>, minimumInclusive: Option<bool>,
                maximum: Option<real>, maximumInclusive: Option<bool>): (r: Result<Range>)
    ensures r.Err? <==> minimum.Some? && maximum.Some? && maximum.value < minimum.value
    ensures r.Err? ==> r.error == Unchecked
    ensures r.Ok? ==> r.value == Range(minimum, minimumInclusive, maximum, maximumInclusive)
  {
    if minimum.Some? && maximum.Some? && maximum.value < minimum.value then Err(Unchecked)
    else Ok(Range(minimum, minimumInclusive, maximum, maximumInclusive))
  }

  /** Whether the range's finite minimum lies above the value. */
  function IsGreaterThan(r: Range, v: real): (b: Result<bool>)
    ensures r.minimum == None ==> b == Ok(false)
    ensures r.minimum != None && r.minimumInclusive == None ==> b == Err(NullPointer)
    ensures WellFormed(r) ==> b.Ok?
    ensures b == Ok(true) <==> r.minimum.Some? && r.minimumInclusive.Some? &&
                               (v < r.minimum.value || (v == r.minimum.value && !r.minimumInclusive.value))
  {
    match r.minimum
    case None => Ok(false)
    case Some(min) =>
      match r.minimumInclusive
      case None => Err(NullPointer)
      case Some(inclusive) => Ok(if inclusive then v < min else v <= min)
  }

  /** Whether the range's finite maximum lies below the value. */
  function IsLessThan(r: Range, v: real): (b: Result<bool>)
    ensures r.maximum == None ==> b == Ok(false)
    ensures r.maximum != None && r.maximumInclusive == None ==> b == Err(NullPointer)
    ensures WellFormed(r) ==> b.Ok?
    ensures b == Ok(true) <==> r.maximum.Some? && r.maximumInclusive.Some? &&
                               (v > r.maximum.value || (v == r.maximum.value && !r.maximumInclusive.value))
  {
    match r.maximum
    case None => Ok(false)
    case Some(max) =>
      match r.maximumInclusive
      case None => Err(NullPointer)
      case Some(inclusive) => Ok(if inclusive then v > max else v >= max)
  }

  /** Whether the value lies within both bounds; the maximum is not consulted once the minimum fails. */
  function Contains(r: Range, v: real): (b: Result<bool>)
    ensures b == Ok(true) <==> IsGreaterThan(r, v) == Ok(false) && IsLessThan(r, v) == Ok(false)
    ensures WellFormed(r) ==> b.Ok?
  {
    match IsGreaterThan(r, v)
    case Err(e) => Err(e)
    case Ok(greater) =>
      if greater then Ok(false)
      else
        match IsLessThan(r, v)
        case Err(e) => Err(e)
        case Ok(less) => Ok(!less)
  }

  /** Range.of(value): the single value, or everything when the value is null. */
  function Of(value: Option<real>): (r: Result<Range>)
    ensures r.Ok? && WellFormed(r.value)
  {
    Make(value, Some(true), value, Some(true))
  }

  /** Range.of(minimum, maximum): both bounds inclusive. */
  function OfBounds(minimum: Option<real>, maximum: Option<real>): (r: Result<Range>)
    ensures r.Err? <==> minimum.Some? && maximum.Some? && maximum.value < minimum.value
    ensures r.Ok? ==> WellFormed(r.value)
  {
    Make(minimum, Some(true), maximum, Some(true))
  }

  /** Range.of(x) contains exactly x, and Range.of(null) contains every value. */
  lemma OfContainsExactly(value: Option<real>, v: real)
    ensures Contains(Of(value).value, v) == Ok(value == None || v == value.value)
  {
  }

  /** Range.of(min, max) contains exactly the values between its bounds, both included. */
  lemma OfBoundsInclusive(minimum: Option<real>, maximum: Option<real>, v: real)
    requires OfBounds(minimum, maximum).Ok?
    ensures Contains(OfBounds(minimum, maximum).value, v) ==
            Ok((minimum == None || minimum.value <= v) && (maximum == None || v <= maximum.value))
  {
  }
}

=== FILE: rvp_bmr.dfy ===
/**
 * The measles-mumps-rubella (BMR) doses of the Dutch national immunisation
 * programme (RVP). A person's vaccination status is a 32-bit mask with one
 * bit per dose. Each dose has an optional age range (in weeks) and, when it
 * is part of the default schedule, a default age range.
 */
module RvpBmr {
  import opened Wrappers
  import Range
  import Extreme

  datatype Dose = DOSE0 | DOSE1 | DOSE2 | DOSE3

  /** Declaration order, as values() lists the doses. */
  const Values: seq<Dose> := [DOSE0, DOSE1, DOSE2, DOSE3]

  function Ordinal(d: Dose): (r: nat)
    ensures r < |Values| && Values[r] == d
  {
    match d
    case DOSE0 => 0
    case DOSE1 => 1
    case DOSE2 => 2
    case DOSE3 => 3
  }

  // The constructor arguments: default age, minimum age and maximum age in weeks.

  function DefaultAgeWeeks(d: Dose): Option<real>
  {
    match d
    case DOSE0 => None
    case DOSE1 => Some(48.0)
    case DOSE2 => Some(61.0)
    case DOSE3 => None
  }

  function MinimumAgeWeeks(d: Dose): real
  {
    match d
    case DOSE0 => 26.0
    case DOSE1 => 48.0
    case DOSE2 => 52.0
    case DOSE3 => 9.0 * 52.0
  }

  function MaximumAgeWeeks(d: Dose): real
  {
    match d
    case DOSE0 => 1.0 * 52.0
    case DOSE1 | DOSE2 => 9.0 * 52.0
    case DOSE3 => 19.0 * 52.0
  }

  /** Range.of(minimum, maximum): both ends inclusive. */
  function AgeRangeOptional(d: Dose): (r: Range.Range)
    ensures Range.WellFormed(r)
    ensures Range.Make(r.minimum, r.minimumInclusive, r.maximum, r.maximumInclusive).Ok?
  {
    Range.Range(Some(MinimumAgeWeeks(d)), Some(true), Some(MaximumAgeWeeks(d)), Some(true))
  }

  /** Null for doses outside the default schedule, else Range.of(default, maximum). */
  function AgeRangeDefault(d: Dose): (r: Option<Range.Range>)
    ensures r.Some? <==> d == DOSE1 || d == DOSE2
    ensures r.Some? ==> Range.WellFormed(r.value)
    ensures r.Some? ==> Range.Make(r.value.minimum, r.value.minimumInclusive, r.value.maximum, r.value.maximumInclusive).Ok?
  {
    match DefaultAgeWeeks(d)
    case None => None
    case Some(age) => Some(Range.Range(Some(age), Some(true), Some(MaximumAgeWeeks(d)), Some(true)))
  }

  /** range.lt(age): the whole range lies below the age. */
  predicate Below(r: Range.Range, age: real)
  {
    Range.IsLessThan(r, age) == Ok(true)
  }

  // ---------------------------------------------------------------- bits

  /** 1 << ordinal. */
  function Bit(d: Dose): (b: bv32)
  {
    match d
    case DOSE0 => 1
    case DOSE1 => 2
    case DOSE2 => 4
    case DOSE3 => 8
  }

  predicate IsUnset(v: bv32, d: Dose) { v & Bit(d) == 0 }

  predicate IsSet(v: bv32, d: Dose) { !IsUnset(v, d) }

  /** Distinct doses use disjoint bits. */
  lemma BitsDisjoint(d: Dose, e: Dose)
    requires d != e
    ensures Bit(d) & Bit(e) == 0
  {
  }

  /** The status with the dose's bit set; the other doses keep their bits. */
  function Set(v: bv32, d: Dose): (r: bv32)
    ensures IsSet(r, d)
  {
    v | Bit(d)
  }

  /** The status with the dose's bit cleared; the other doses keep their bits. */
  function Unset(v: bv32, d: Dose): (r: bv32)
    ensures IsUnset(r, d)
  {
    v & !Bit(d)
  }

  /** Setting or clearing one dose leaves every other bit of the mask as it was. */
  lemma OtherBitsUnchanged(v: bv32, d: Dose)
    ensures Set(v, d) & !Bit(d) == v & !Bit(d)
    ensures Unset(v, d) & !Bit(d) == v & !Bit(d)
  {
  }

  /** Setting or clearing one dose leaves every other dose as it was. */
  lemma OtherDosesUnchanged(v: bv32, d: Dose, e: Dose)
    requires d != e
    ensures IsSet(Set(v, d), e) <==> IsSet(v, e)
    ensures IsSet(Unset(v, d), e) <==> IsSet(v, e)
  {
    BitsDisjoint(d, e);
    SetKeepsOtherDose(v, d, e);
    UnsetKeepsOtherDose(v, d, e);
  }

  /** Setting a dose whose bit is disjoint from another's leaves the other dose as it was. */
  lemma SetKeepsOtherDose(v: bv32, d: Dose, e: Dose)
    requires Bit(d) & Bit(e) == 0
    ensures IsSet(Set(v, d), e) <==> IsSet(v, e)
  {
    OrMask(v, Bit(d), Bit(e));
  }

  /** Clearing a dose whose bit is disjoint from another's leaves the other dose as it was. */
  lemma UnsetKeepsOtherDose(v: bv32, d: Dose, e: Dose)
    requires Bit(d) & Bit(e) == 0
    ensures IsSet(Unset(v, d), e) <==> IsSet(v, e)
  {
    ClearMask(v, Bit(d), Bit(e));
  }

  /** Or-ing in some bits leaves the bits disjoint from them as they were. */
  lemma OrMask(v: bv32, a: bv32, b: bv32)
    requires a & b == 0
    ensures (v | a) & b == v & b
  {
  }

  /** And-ing out some bits leaves the bits disjoint from them as they were. */
  lemma ClearMask(v: bv32, a: bv32, b: bv32)
    requires a & b == 0
    ensures (v & !a) & b == v & b
  {
  }

  /** The mask laws of or-ing in and and-ing out the same bits. */
  lemma MaskLaws(v: bv32, b: bv32)
    ensures (v | b) | b == v | b
    ensures (v & !b) & !b == v & !b
    ensures v & b == b ==> (v & !b) | b == v
    ensures v & b == 0 ==> (v | b) & !b == v
  {
  }

  /** A dose's bit is a single bit: the mask holds all of it or none of it. */
  lemma SingleBit(v: bv32, d: Dose)
    ensures v & Bit(d) == 0 || v & Bit(d) == Bit(d)
  {
    match d
    case DOSE0 =>
    case DOSE1 =>
    case DOSE2 =>
    case DOSE3 =>
  }

  lemma SetUnsetIdempotent(v: bv32, d: Dose)
    ensures Set(Set(v, d), d) == Set(v, d)
    ensures Unset(Unset(v, d), d) == Unset(v, d)
  {
    assert Set(v, d) == v | Bit(d) && Set(Set(v, d), d) == (v | Bit(d)) | Bit(d);
    assert Unset(v, d) == v & !Bit(d) && Unset(Unset(v, d), d) == (v & !Bit(d)) & !Bit(d);
    MaskLaws(v, Bit(d));
  }

  /** Setting a set dose again after unsetting it gives the status back. */
  lemma SetAfterUnset(v: bv32, d: Dose)
    ensures IsSet(v, d) ==> Set(Unset(v, d), d) == v
  {
    assert Set(Unset(v, d), d) == (v & !Bit(d)) | Bit(d);
    SingleBit(v, d);
    MaskLaws(v, Bit(d));
  }

  /** Unsetting an unset dose again after setting it gives the status back. */
  lemma UnsetAfterSet(v: bv32, d: Dose)
    ensures IsUnset(v, d) ==> Unset(Set(v, d), d) == v
  {
    assert Unset(Set(v, d), d) == (v | Bit(d)) & !Bit(d);
    MaskLaws(v, Bit(d));
  }

  /** Compliant once the second or third dose is set: bits 2 and 3 of the mask. */
  function IsCompliant(v: bv32): (r: bool)
    ensures r <==> v & 0xC != 0
  {
    IsSet(v, DOSE2) || IsSet(v, DOSE3)
  }

  // ------------------------------------------------------------ next dose

  predicate FitsDefault(v: bv32, age: real, d: Dose)
  {
    AgeRangeDefault(d).Some? && !IsSet(v, d) && !Below(AgeRangeDefault(d).value, age)
  }

  predicate FitsOption(v: bv32, age: real, d: Dose)
  {
    !IsSet(v, d) && !Below(AgeRangeOptional(d), age)
  }

  /** The default schedule's next dose: the first dose in order that is scheduled, not given, and not yet too late. */
  method NextDefault(v: bv32, age: real) returns (r: Option<Dose>)
    ensures r.Some? ==> FitsDefault(v, age, r.value)
    ensures r.Some? ==> forall j :: 0 <= j < Ordinal(r.value) ==> !FitsDefault(v, age, Values[j])
    ensures r.None? ==> forall d: Dose :: !FitsDefault(v, age, d)
    ensures r != Some(DOSE0) && r != Some(DOSE3)
    ensures r.Some? ==> IsUnset(v, r.value) && age <= MaximumAgeWeeks(r.value)
  {
    var i := 0;
    while i < |Values|
      invariant 0 <= i <= |Values|
      invariant forall j :: 0 <= j < i ==> !FitsDefault(v, age, Values[j])
    {
      var dose := Values[i];
      var range := AgeRangeDefault(dose);
      if range.Some? && !IsSet(v, dose) && !Below(range.value, age) {
        return Some(dose);
      }
      i := i + 1;
    }
    forall d: Dose ensures !FitsDefault(v, age, d) {
      assert Values[Ordinal(d)] == d;
    }
    return None;
  }

  /** The alternative schedule's next dose: the first dose in order that is not given and not yet too late. */
  method NextOption(v: bv32, age: real) returns (r: Option<Dose>)
    ensures r.Some? ==> FitsOption(v, age, r.value)
    ensures r.Some? ==> forall j :: 0 <= j < Ordinal(r.value) ==> !FitsOption(v, age, Values[j])
    ensures r.None? ==> forall d: Dose :: !FitsOption(v, age, d)
    ensures r.Some? ==> IsUnset(v, r.value) && age <= MaximumAgeWeeks(r.value)
  {
    var i := 0;
    while i < |Values|
      invariant 0 <= i <= |Values|
      invariant forall j :: 0 <= j < i ==> !FitsOption(v, age, Values[j])
    {
      var dose := Values[i];
      if !IsSet(v, dose) && !Below(AgeRangeOptional(dose), age) {
        return Some(dose);
      }
      i := i + 1;
    }
    forall d: Dose ensures !FitsOption(v, age, d) {
      assert Values[Ordinal(d)] == d;
    }
    return None;
  }

  /** Beyond nine years of age no dose of the default schedule remains. */
  lemma NoDefaultAfterNineYears(v: bv32, age: real, d: Dose)
    requires age > 9.0 * 52.0
    ensures !FitsDefault(v, age, d)
  {
  }

  /** A child without doses, up to nine years old, is due the first scheduled dose. */
  lemma FirstDefaultDose(age: real)
    requires age <= 9.0 * 52.0
    ensures FitsDefault(0, age, DOSE1) && !FitsDefault(0, age, DOSE0)
  {
  }

  // ---------------------------------------------------- decision age range

  /** A range bounded by two extremes. */
  datatype AgeRange = AgeRange(lower: Extreme.Extreme, upper: Extreme.Extreme)

  /** The upper extreme of a dose's default range: its maximum age, inclusive. */
  function DefaultUpper(d: Dose): (e: Extreme.Extreme)
    requires AgeRangeDefault(d).Some?
    ensures e == Extreme.Upper(Some(MaximumAgeWeeks(d)), Some(true))
  {
    Extreme.Upper(AgeRangeDefault(d).value.maximum, AgeRangeDefault(d).value.maximumInclusive)
  }

  /**
   * The decision age range: from three weeks (inclusive) up to the largest
   * upper extreme of the default ranges.
   */
  ghost predicate IsDecisionAgeRange(r: AgeRange)
  {
    && r.lower == Extreme.Lower(Some(3.0), Some(true))
    && (exists d: Dose :: AgeRangeDefault(d).Some? && r.upper == DefaultUpper(d))
    && (forall d: Dose :: AgeRangeDefault(d).Some? ==> Extreme.CompareWith(r.upper, DefaultUpper(d)) != Extreme.LESS)
  }

  /** Holds the decision age range once it has been computed (a static field in the source). */
  class Schedule {
    var overallAgeRange: Option<AgeRange>

    ghost predicate Valid()
      reads this
    {
      overallAgeRange.Some? ==> IsDecisionAgeRange(overallAgeRange.value)
    }

    constructor ()
      ensures Valid() && overallAgeRange == None
    {
      overallAgeRange := None;
    }

    /** Computes the range on the first call and returns the cached range afterwards. */
    method DecisionAgeRange() returns (r: AgeRange)
      requires Valid()
      modifies this
      ensures Valid() && overallAgeRange == Some(r)
      ensures IsDecisionAgeRange(r)
      ensures old(overallAgeRange).Some? ==> r == old(overallAgeRange).value
    {
      if overallAgeRange.None? {
        var lower := Extreme.Lower(Some(3.0), Some(true));
        var upper: Option<Extreme.Extreme> := None;
        var i := 0;
        while i < |Values|
          invariant 0 <= i <= |Values|
          invariant upper.None? <==> forall j :: 0 <= j < i ==> AgeRangeDefault(Values[j]).None?
          invariant upper.Some? ==> exists j :: 0 <= j < i && AgeRangeDefault(Values[j]).Some? && upper.value == DefaultUpper(Values[j])
          invariant upper.Some? ==> forall j :: 0 <= j < i && AgeRangeDefault(Values[j]).Some? ==>
                                      upper.value.value.Some? && MaximumAgeWeeks(Values[j]) <= upper.value.value.value
        {
          var dose := Values[i];
          if AgeRangeDefault(dose).Some? {
            var next := DefaultUpper(dose);
            upper := if upper.None? then Some(next) else Some(Extreme.Max(upper.value, next));
          }
          i := i + 1;
        }
        assert AgeRangeDefault(Values[1]).Some?;
        var j :| 0 <= j < |Values| && AgeRangeDefault(Values[j]).Some? && upper.value == DefaultUpper(Values[j]);
        forall d: Dose | AgeRangeDefault(d).Some?
          ensures Extreme.CompareWith(upper.value, DefaultUpper(d)) != Extreme.LESS
        {
          assert Values[Ordinal(d)] == d;
        }
        overallAgeRange := Some(AgeRange(lower, upper.value));
      }
      r := overallAgeRange.value;
    }
  }
}

=== FILE: social_connector.dfy ===
/**
 * The symmetric helpers of the social connector: a link between two
 * individuals is stored once, in the cell whose row is the smaller index,
 * so that reads and writes do not depend on the order of the two indices.
 */
module SocialConnector {
  import opened SparseMatrix

  /** rowSmallest: the two indices in ascending order; an ordered pair is returned as it is. */
  function RowSmallest(x: Coordinate): (y: Coordinate)
    ensures y.0 <= y.1
    ensures {y.0, y.1} == {x.0, x.1}
    ensures x.0 <= x.1 ==> y == x
  {
    if x.0 > x.1 then (x.1, x.0) else x
  }

  /** rowLargest: the two indices in descending order; an ordered pair is returned as it is. */
  function RowLargest(x: Coordinate): (y: Coordinate)
    ensures y.0 >= y.1
    ensures {y.0, y.1} == {x.0, x.1}
    ensures x.0 >= x.1 ==> y == x
  {
    if x.0 < x.1 then (x.1, x.0) else x
  }

  /** Either order of the same two indices leads to the same cell. */
  lemma RowSmallestSymmetric(i: nat, j: nat)
    ensures RowSmallest((i, j)) == RowSmallest((j, i))
  {
  }

  /** rowLargest is rowSmallest reversed. */
  lemma RowLargestReversesSmallest(x: Coordinate)
    ensures RowLargest(x) == (RowSmallest(x).1, RowSmallest(x).0)
  {
  }

  /** getSymmetric: the weight of the link, read from the cell of the ordered pair. */
  function GetSymmetric(W: Matrix, i: nat, j: nat): (w: real)
    reads W
    ensures w == if i <= j then W.Get((i, j)) else W.Get((j, i))
  {
    W.Get(RowSmallest((i, j)))
  }

  /** The link's weight does not depend on the order of its ends. */
  lemma GetSymmetricCommutes(W: Matrix, i: nat, j: nat)
    ensures GetSymmetric(W, i, j) == GetSymmetric(W, j, i)
  {
    RowSmallestSymmetric(i, j);
  }

  /** setSymmetric: the weight goes into the cell of the ordered pair, and only that cell changes. */
  method SetSymmetric(W: Matrix, w: real, i: nat, j: nat)
    modifies W
    ensures W.cells == old(W.cells)[RowSmallest((i, j)) := w]
    ensures GetSymmetric(W, i, j) == w && GetSymmetric(W, j, i) == w
  {
    W.Set(RowSmallest((i, j)), w);
    RowSmallestSymmetric(i, j);
  }

  /** setSymmetric with one index: the weight of the diagonal cell. */
  method SetDiagonal(W: Matrix, w: real, i: nat)
    modifies W
    ensures W.cells == old(W.cells)[(i, i) := w]
    ensures GetSymmetric(W, i, i) == w
  {
    W.Set((i, i), w);
  }

  /** putSymmetric: stores the new weight of the link and returns the old one. */
  method PutSymmetric(W: Matrix, wNew: real, i: nat, j: nat) returns (wOld: real)
    modifies W
    ensures wOld == old(GetSymmetric(W, i, j))
    ensures W.cells == old(W.cells)[RowSmallest((i, j)) := wNew]
    ensures GetSymmetric(W, i, j) == wNew && GetSymmetric(W, j, i) == wNew
  {
    var top := RowSmallest((i, j));
    wOld := GetSymmetric(W, top.0, top.1);
    SetSymmetric(W, wNew, top.0, top.1);
    RowSmallestSymmetric(i, j);
  }

  /** isPeer: the link's weight is not zero (whether or not the cell was ever set). */
  predicate IsPeer(W: Matrix, i: nat, j: nat): (b: bool)
    reads W
    ensures b ==> (if i <= j then (i, j) else (j, i)) in W.cells
    ensures b <==> (if i <= j then W.Get((i, j)) else W.Get((j, i))) != 0.0
  {
    GetSymmetric(W, i, j) != 0.0
  }

  /** Peerage is symmetric. */
  lemma IsPeerSymmetric(W: Matrix, i: nat, j: nat)
    ensures IsPeer(W, i, j) <==> IsPeer(W, j, i)
  {
    GetSymmetricCommutes(W, i, j);
  }

  lemma IsPeerSymmetricEverywhere(W: Matrix)
    ensures forall i: nat, j: nat :: IsPeer(W, i, j) <==> IsPeer(W, j, i)
  {
    forall i: nat, j: nat ensures IsPeer(W, i, j) <==> IsPeer(W, j, i) {
      IsPeerSymmetric(W, i, j);
    }
  }

  /** The peers of i among the indices lo .. hi - 1, in ascending order. */
  function PeersBetween(W: Matrix, i: nat, lo: nat, hi: nat): (r: seq<nat>)
    reads W
    ensures forall j: nat :: j in r <==> lo <= j < hi && IsPeer(W, i, j)
    ensures forall a :: 0 <= a < |r| ==> lo <= r[a] < hi
    ensures forall a, b :: 0 <= a < b < |r| ==> r[a] < r[b]
    decreases hi - lo
  {
    if lo >= hi then []
    else if IsPeer(W, i, lo) then [lo] + PeersBetween(W, i, lo + 1, hi)
    else PeersBetween(W, i, lo + 1, hi)
  }

  /**
   * availablePeers: every index below i whose link to i carries weight,
   * then every such index above i up to the column count; each peer once,
   * in ascending order, and never i itself.
   */
  function AvailablePeers(W: Matrix, i: nat): (r: seq<nat>)
    reads W
    ensures forall j: nat :: j in r <==> (j < i && IsPeer(W, j, i)) || (i < j < W.columnCount && IsPeer(W, i, j))
    ensures i !in r
    ensures forall a, b :: 0 <= a < b < |r| ==> r[a] < r[b]
  {
    IsPeerSymmetricEverywhere(W);
    PeersBetween(W, i, 0, i) + PeersBetween(W, i, i + 1, W.columnCount)
  }
}

=== FILE: sparse_matrix.dfy ===
/**
 * The sparse weight matrix the connectors read and write: a map from
 * (row, column) coordinates to weights. A coordinate that was never set is
 * absent and reads as zero.
 */
module SparseMatrix {

  /** A coordinate: (row, column). */
  type Coordinate = (nat, nat)

  class Matrix {
    /** The column count the matrix was created with. */
    const columnCount: nat
    var cells: map<Coordinate, real>

    constructor (columnCount: nat)
      ensures this.columnCount == columnCount && cells == map[]
    {
      this.columnCount := columnCount;
      cells := map[];
    }

    /** containsCoordinates: the cell has been set. */
    predicate Contains(c: Coordinate)
      reads this`cells
    {
      c in cells
    }

    /** getAsBigDecimal: the cell's weight, zero when it was never set. */
    function Get(c: Coordinate): (w: real)
      reads this`cells
      ensures Contains(c) ==> w == cells[c]
      ensures w != 0.0 ==> Contains(c)
    {
      if c in cells then cells[c] else 0.0
    }

    /** setAsBigDecimal: stores the weight in the cell. */
    method Set(c: Coordinate, w: real)
      modifies this`cells
      ensures cells == old(cells)[c := w]
    {
      cells := cells[c := w];
    }
  }
}

=== FILE: store.dfy ===
/**
 * The observable store: a collection wrapped so that every element added
 * or removed through it is published on onAdd or onRemove, and every
 * successful change publishes the new size on onSize. The three subjects
 * are modelled as one log of events in the order they are emitted.
 */
module Store {
  import opened JavaCollections

  datatype Event<T> = OnAdd(element: T) | OnRemove(element: T) | OnSize(size: nat)

  /** What an operation does to the contents: the new contents, the events it emits and its boolean result. */
  datatype Outcome<T> = Outcome(contents: seq<T>, events: seq<Event<T>>, changed: bool)

  /** add: the source's add; only a change emits the element and then the new size. */
  function AddOne<T(==)>(kind: Kind, s: seq<T>, e: T): (r: Outcome<T>)
    ensures r.changed <==> kind.ListLike? || e !in s
    ensures r.changed ==> r.contents == Add(kind, s, e).0 && r.events == [OnAdd(e), OnSize(|r.contents|)]
    ensures !r.changed ==> r.contents == s && r.events == []
  {
    var (t, changed) := Add(kind, s, e);
    if changed then Outcome(t, [OnAdd(e), OnSize(|t|)], true) else Outcome(s, [], false)
  }

  /** remove: the source's remove; only a change emits the element and then the new size. */
  function RemoveOne<T(==)>(s: seq<T>, e: T): (r: Outcome<T>)
    ensures r.changed <==> e in s
    ensures r.changed ==> r.contents == Remove(s, e).0 && r.events == [OnRemove(e), OnSize(|r.contents|)]
    ensures !r.changed ==> r.contents == s && r.events == []
  {
    var (t, changed) := Remove(s, e);
    if changed then Outcome(t, [OnRemove(e), OnSize(|t|)], true) else Outcome(s, [], false)
  }

  /** addAll: add of each element of c in turn; true when any of them changed the store. */
  function AddAllOf<T(==)>(kind: Kind, s: seq<T>, c: seq<T>): Outcome<T>
  {
    if c == [] then Outcome(s, [], false)
    else
      var before := AddAllOf(kind, s, c[..|c| - 1]);
      var last := AddOne(kind, before.contents, c[|c| - 1]);
      Outcome(last.contents, before.events + last.events, before.changed || last.changed)
  }

  /** removeAll: remove of each element of c in turn; true when any of them changed the store. */
  function RemoveAllOf<T(==)>(s: seq<T>, c: seq<T>): Outcome<T>
  {
    if c == [] then Outcome(s, [], false)
    else
      var before := RemoveAllOf(s, c[..|c| - 1]);
      var last := RemoveOne(before.contents, c[|c| - 1]);
      Outcome(last.contents, before.events + last.events, before.changed || last.changed)
  }

  /** The removal events of the elements, in iteration order. */
  function Removals<T>(s: seq<T>): (r: seq<Event<T>>)
    ensures |r| == |s| && forall k :: 0 <= k < |s| ==> r[k] == OnRemove(s[k])
  {
    seq(|s|, k requires 0 <= k < |s| => OnRemove(s[k]))
  }

  /**
   * clear: a non-empty store removes every element through its iterator,
   * which publishes each on onRemove, and then publishes size 0 once; an
   * empty store does nothing.
   */
  function ClearOf<T>(s: seq<T>): (r: Outcome<T>)
    ensures r.contents == []
    ensures r.changed <==> s != []
    ensures s == [] ==> r.events == []
    ensures s != [] ==> |r.events| == |s| + 1 && r.events[|s|] == OnSize(0)
    ensures forall k :: 0 <= k < |s| ==> r.events[k] == OnRemove(s[k])
  {
    if s == [] then Outcome(s, [], false) else Outcome([], Removals(s) + [OnSize(0)], true)
  }

  /** The elements the predicate of retainAll keeps, in order. */
  function Retained<T(==)>(s: seq<T>, c: seq<T>): (r: seq<T>)
    ensures forall k :: 0 <= k < |r| ==> r[k] in s && r[k] in c
    ensures forall k :: 0 <= k < |s| && s[k] in c ==> s[k] in r
  {
    if s == [] then []
    else (if s[0] in c then [s[0]] else []) + Retained(s[1..], c)
  }

  /** The elements retainAll removes, in order. */
  function Dropped<T(==)>(s: seq<T>, c: seq<T>): (r: seq<T>)
    ensures forall k :: 0 <= k < |r| ==> r[k] in s && r[k] !in c
    ensures forall k :: 0 <= k < |s| && s[k] !in c ==> s[k] in r
  {
    if s == [] then []
    else (if s[0] !in c then [s[0]] else []) + Dropped(s[1..], c)
  }

  /**
   * retainAll: removeIf through the store's iterator, which publishes each
   * removed element on onRemove but no size; true when any was removed.
   */
  function RetainAllOf<T(==)>(s: seq<T>, c: seq<T>): (r: Outcome<T>)
    ensures r.changed <==> exists k :: 0 <= k < |s| && s[k] !in c
    ensures forall k :: 0 <= k < |r.contents| ==> r.contents[k] in s && r.contents[k] in c
    ensures forall k :: 0 <= k < |s| && s[k] in c ==> s[k] in r.contents
    ensures forall k :: 0 <= k < |r.events| ==> r.events[k].OnRemove? && r.events[k].element !in c
  {
    var dropped := Dropped(s, c);
    assert dropped != [] <==> exists k :: 0 <= k < |s| && s[k] !in c by {
      if dropped != [] {
        assert dropped[0] in dropped;
      }
    }
    Outcome(Retained(s, c), Removals(dropped), dropped != [])
  }

  // ------------------------------------------------- addAll and removeAll

  /**
   * addAll on a set-like store reports a change exactly when some element
   * was not there yet; on a list-like store whenever c is not empty.
   */
  lemma {:induction false} AddAllChanged<T>(kind: Kind, s: seq<T>, c: seq<T>)
    ensures kind.SetLike? ==> (AddAllOf(kind, s, c).changed <==> exists x :: x in c && x !in s)
    ensures kind.ListLike? ==> (AddAllOf(kind, s, c).changed <==> c != [])
  {
    if c != [] {
      var init := c[..|c| - 1];
      var x := c[|c| - 1];
      AddAllChanged(kind, s, init);
      AddAllHolds(kind, s, init);
      assert c == init + [x];
      if kind.SetLike? && AddAllOf(kind, s, c).changed && !AddAllOf(kind, s, init).changed {
        assert x !in AddAllOf(kind, s, init).contents;
        assert x in c && x !in s;
      }
      if kind.SetLike? && (exists y :: y in c && y !in s) && !AddAllOf(kind, s, init).changed {
        var y :| y in c && y !in s;
        assert y !in init;
        assert y == x;
        AddAllUnchanged(kind, s, init);
      }
    }
  }

  /** After addAll the store holds what it held and every element of c. */
  lemma {:induction false} AddAllHolds<T>(kind: Kind, s: seq<T>, c: seq<T>)
    ensures forall x :: x in AddAllOf(kind, s, c).contents <==> x in s || x in c
  {
    if c != [] {
      var init := c[..|c| - 1];
      AddAllHolds(kind, s, init);
      assert c == init + [c[|c| - 1]];
    }
  }

  /** addAll over one more element is the add of that element after the rest. */
  lemma AddAllStep<T>(kind: Kind, s: seq<T>, c: seq<T>, i: nat)
    requires i < |c|
    ensures var before := AddAllOf(kind, s, c[..i]);
            var last := AddOne(kind, before.contents, c[i]);
            AddAllOf(kind, s, c[..i + 1]) == Outcome(last.contents, before.events + last.events, before.changed || last.changed)
  {
    assert c[..i + 1][..i] == c[..i];
  }

  /** removeAll over one more element is the remove of that element after the rest. */
  lemma RemoveAllStep<T>(s: seq<T>, c: seq<T>, i: nat)
    requires i < |c|
    ensures var before := RemoveAllOf(s, c[..i]);
            var last := RemoveOne(before.contents, c[i]);
            RemoveAllOf(s, c[..i + 1]) == Outcome(last.contents, before.events + last.events, before.changed || last.changed)
  {
    assert c[..i + 1][..i] == c[..i];
  }

  /** An addAll that changed nothing left the contents as they were. */
  lemma {:induction false} AddAllUnchanged<T>(kind: Kind, s: seq<T>, c: seq<T>)
    requires !AddAllOf(kind, s, c).changed
    ensures AddAllOf(kind, s, c).contents == s
  {
    if c != [] {
      AddAllUnchanged(kind, s, c[..|c| - 1]);
    }
  }

  /** addAll on a list-like store appends c; on a set-like store without duplicates it keeps none. */
  lemma {:induction false} AddAllContents<T>(kind: Kind, s: seq<T>, c: seq<T>)
    ensures kind.ListLike? ==> AddAllOf(kind, s, c).contents == s + c
    ensures kind.SetLike? && Distinct(s) ==> Distinct(AddAllOf(kind, s, c).contents)
  {
    if c != [] {
      var init := c[..|c| - 1];
      AddAllContents(kind, s, init);
      assert s + c == (s + init) + [c[|c| - 1]];
    }
  }

  /** removeAll takes out one copy of each element of c that is there, whichever kind the store is. */
  lemma {:induction false} RemoveAllContents<T>(s: seq<T>, c: seq<T>)
    ensures multiset(RemoveAllOf(s, c).contents) == multiset(s) - multiset(c)
  {
    if c != [] {
      var init := c[..|c| - 1];
      var x := c[|c| - 1];
      var before := RemoveAllOf(s, init).contents;
      calc {
        multiset(RemoveAllOf(s, c).contents);
        { RemoveCount(before, x); }
        multiset(before) - multiset{x};
        { RemoveAllContents(s, init); }
        (multiset(s) - multiset(init)) - multiset{x};
        { MinusStep(multiset(s), multiset(init), x); }
        multiset(s) - (multiset(init) + multiset{x});
        { assert c == init + [x]; }
        multiset(s) - multiset(c);
      }
    }
  }

  lemma MinusStep<T>(a: multiset<T>, b: multiset<T>, x: T)
    ensures (a - b) - multiset{x} == a - (b + multiset{x})
  {
    forall y ensures ((a - b) - multiset{x})[y] == (a - (b + multiset{x}))[y] {
    }
  }

  /** removeAll reports a change exactly when some element of c was in the store. */
  lemma {:induction false} RemoveAllChanged<T>(s: seq<T>, c: seq<T>)
    ensures RemoveAllOf(s, c).changed <==> exists x :: x in c && x in s
  {
    if c != [] {
      var init := c[..|c| - 1];
      var x := c[|c| - 1];
      RemoveAllChanged(s, init);
      assert c == init + [x];
      if !RemoveAllOf(s, init).changed {
        RemoveAllUnchanged(s, init);
        if exists y :: y in c && y in s {
          var y :| y in c && y in s;
          assert y == x;
        }
      }
    }
  }

  /** A removeAll that changed nothing left the contents as they were. */
  lemma {:induction false} RemoveAllUnchanged<T>(s: seq<T>, c: seq<T>)
    requires !RemoveAllOf(s, c).changed
    ensures RemoveAllOf(s, c).contents == s
  {
    if c != [] {
      RemoveAllUnchanged(s, c[..|c| - 1]);
    }
  }

  /**
   * addAll emits something exactly when it reports a change, and its last
   * event is then the store's final size.
   */
  lemma {:induction false} AddAllEvents<T>(kind: Kind, s: seq<T>, c: seq<T>)
    ensures var o := AddAllOf(kind, s, c);
            (o.events != [] <==> o.changed) && (o.changed ==> o.events[|o.events| - 1] == OnSize(|o.contents|))
  {
    if c != [] {
      AddAllEvents(kind, s, c[..|c| - 1]);
    }
  }

  /** So does removeAll. */
  lemma {:induction false} RemoveAllEvents<T>(s: seq<T>, c: seq<T>)
    ensures var o := RemoveAllOf(s, c);
            (o.events != [] <==> o.changed) && (o.changed ==> o.events[|o.events| - 1] == OnSize(|o.contents|))
  {
    if c != [] {
      RemoveAllEvents(s, c[..|c| - 1]);
    }
  }

  // ------------------------------------------------------------ the store

  /** Store.of over a source collection of the given kind. */
  class ObservableStore<T(==)> {
    const kind: Kind
    var source: seq<T>
    /** Everything published on onAdd, onRemove and onSize, in order. */
    var log: seq<Event<T>>

    /** A set-like source holds no duplicates. */
    ghost predicate Valid()
      reads this
    {
      kind.SetLike? ==> Distinct(source)
    }

    constructor Of(kind: Kind, source: seq<T>)
      requires kind.SetLike? ==> Distinct(source)
      ensures Valid() && this.kind == kind && this.source == source && log == []
    {
      this.kind := kind;
      this.source := source;
      log := [];
    }

    /** size: the source's size. */
    function Size(): (r: nat)
      reads this
      ensures r == |source|
    {
      |source|
    }

    /** isEmpty: the source's isEmpty. */
    function IsEmpty(): (r: bool)
      reads this
      ensures r <==> Size() == 0
    {
      source == []
    }

    /** contains: the source's contains. */
    function Contains(o: T): (r: bool)
      reads this
      ensures r <==> exists k :: 0 <= k < Size() && source[k] == o
    {
      o in source
    }

    method Add(e: T) returns (r: bool)
      requires Valid()
      modifies this
      ensures Valid()
      ensures var o := AddOne(kind, old(source), e);
              source == o.contents && log == old(log) + o.events && r == o.changed
    {
      var added := JavaCollections.Add(kind, source, e);
      if kind.SetLike? {
        AddDistinct(source, e);
      }
      source := added.0;
      r := added.1;
      if r {
        log := log + [OnAdd(e), OnSize(|source|)];
      }
    }

    method Remove(e: T) returns (r: bool)
      requires Valid()
      modifies this
      ensures Valid()
      ensures var o := RemoveOne(old(source), e);
              source == o.contents && log == old(log) + o.events && r == o.changed
    {
      var removed := JavaCollections.Remove(source, e);
      if kind.SetLike? {
        RemoveDistinct(source, e);
      }
      source := removed.0;
      r := removed.1;
      if r {
        log := log + [OnRemove(e), OnSize(|source|)];
      }
    }

    method AddAll(c: seq<T>) returns (r: bool)
      requires Valid()
      modifies this
      ensures Valid()
      ensures var o := AddAllOf(kind, old(source), c);
              source == o.contents && log == old(log) + o.events && r == o.changed
    {
      r := false;
      var i := 0;
      while i < |c|
        invariant 0 <= i <= |c| && Valid()
        invariant var o := AddAllOf(kind, old(source), c[..i]);
                  source == o.contents && log == old(log) + o.events && r == o.changed
      {
        AddAllStep(kind, old(source), c, i);
        ghost var o := AddAllOf(kind, old(source), c[..i]);
        var changed := Add(c[i]);
        ghost var last := AddOne(kind, o.contents, c[i]);
        assert log == old(log) + o.events + last.events;
        assert old(log) + o.events + last.events == old(log) + (o.events + last.events);
        r := r || changed;
        i := i + 1;
      }
      assert c[..i] == c;
    }

    method RemoveAll(c: seq<T>) returns (r: bool)
      requires Valid()
      modifies this
      ensures Valid()
      ensures var o := RemoveAllOf(old(source), c);
              source == o.contents && log == old(log) + o.events && r == o.changed
    {
      r := false;
      var i := 0;
      while i < |c|
        invariant 0 <= i <= |c| && Valid()
        invariant var o := RemoveAllOf(old(source), c[..i]);
                  source == o.contents && log == old(log) + o.events && r == o.changed
      {
        RemoveAllStep(old(source), c, i);
        ghost var o := RemoveAllOf(old(source), c[..i]);
        var changed := Remove(c[i]);
        ghost var last := RemoveOne(o.contents, c[i]);
        assert log == old(log) + o.events + last.events;
        assert old(log) + o.events + last.events == old(log) + (o.events + last.events);
        r := r || changed;
        i := i + 1;
      }
      assert c[..i] == c;
    }

    method RetainAll(c: seq<T>) returns (r: bool)
      requires Valid()
      modifies this
      ensures Valid()
      ensures var o := RetainAllOf(old(source), c);
              source == o.contents && log == old(log) + o.events && r == o.changed
    {
      var o := RetainAllOf(source, c);
      if kind.SetLike? {
        RetainedDistinct(source, c);
      }
      source := o.contents;
      log := log + o.events;
      r := o.changed;
    }

    method Clear()
      requires Valid()
      modifies this
      ensures Valid()
      ensures var o := ClearOf(old(source)); source == o.contents && log == old(log) + o.events
    {
      if Size() != 0 {
        log := log + (Removals(source) + [OnSize(0)]);
        source := [];
      }
    }
  }

  lemma {:induction false} RetainedDistinct<T>(s: seq<T>, c: seq<T>)
    requires Distinct(s)
    ensures Distinct(Retained(s, c))
  {
    if s != [] {
      assert Distinct(s[1..]);
      RetainedDistinct(s[1..], c);
      if s[0] in c {
        assert s[0] !in s[1..];
        ConsDistinct(s[0], Retained(s[1..], c));
      }
    }
  }
}

=== FILE: vax_hesitancy_core.dfy ===
/**
 * The "Four C" model of vaccine hesitancy (Betsch et al., 2015): an
 * attitude weighs confidence in the vaccine against complacency about the
 * disease; the convenience of a vaccination occasion must overcome the
 * barrier between them; and the calculation level decides how much the
 * appreciation of others' opinions counts. Decimal numbers are exact reals.
 */
module VaxHesitancyCore {

  /** The four factors by which a vaccination occasion is judged. */
  datatype Occasion = Occasion(utility: real, proximity: real, clarity: real, affinity: real)

  const OneHalf: real := 0.5

  /** The attitude favours vaccination when confidence exceeds complacency. */
  predicate IsPositive(confidence: real, complacency: real): (b: bool)
    ensures b <==> DifferenceBarrier(confidence, complacency) < 0.0
    ensures b <==> AverageBarrier(confidence, complacency) < OneHalf
  {
    confidence > complacency
  }

  /** opposite: 1 - x. */
  function Opposite(x: real): (r: real)
    ensures r + x == 1.0
  {
    1.0 - x
  }

  lemma OppositeInvolution(x: real)
    ensures Opposite(Opposite(x)) == x
  {
  }

  /** An appreciation counts in full when it reaches the opposite of the calculation level, else not at all. */
  function ThresholdAppreciation(appreciation: real, calculation: real): (r: real)
    ensures appreciation < Opposite(calculation) ==> r == 0.0
    ensures appreciation >= Opposite(calculation) ==> r == appreciation
  {
    if appreciation < Opposite(calculation) then 0.0 else appreciation
  }

  /** A higher calculation level lowers the threshold, so it never lowers a non-negative appreciation's weight. */
  lemma ThresholdAppreciationMonotone(a: real, c: real, d: real)
    requires 0.0 <= a && c <= d
    ensures ThresholdAppreciation(a, c) <= ThresholdAppreciation(a, d)
  {
  }

  /** Once an appreciation passes the threshold, every larger one passes in full too. */
  lemma ThresholdAppreciationUpward(a: real, b: real, c: real)
    requires a <= b && ThresholdAppreciation(a, c) == a && a != 0.0
    ensures ThresholdAppreciation(b, c) == b
  {
  }

  /** A larger non-negative appreciation never weighs less. */
  lemma ThresholdAppreciationIncreasing(a: real, b: real, c: real)
    requires 0.0 <= a <= b
    ensures ThresholdAppreciation(a, c) <= ThresholdAppreciation(b, c)
  {
  }

  /** The appreciation shifted by the calculation level less one half, floored at zero. */
  function ShiftedAppreciation(appreciation: real, calculation: real): (r: real)
    ensures r >= 0.0 && r >= appreciation - OneHalf + calculation
    ensures r == 0.0 || r == appreciation - OneHalf + calculation
  {
    var shifted := appreciation - OneHalf + calculation;
    if 0.0 < shifted then shifted else 0.0
  }

  /** The table documented with shiftedAppreciation, for appreciation and calculation in {0, 1/2, 1}. */
  lemma ShiftedAppreciationTable()
    ensures ShiftedAppreciation(0.0, 0.0) == 0.0 && ShiftedAppreciation(0.0, 0.5) == 0.0 && ShiftedAppreciation(0.0, 1.0) == 0.5
    ensures ShiftedAppreciation(0.5, 0.0) == 0.0 && ShiftedAppreciation(0.5, 0.5) == 0.5 && ShiftedAppreciation(0.5, 1.0) == 1.0
    ensures ShiftedAppreciation(1.0, 0.0) == 0.5 && ShiftedAppreciation(1.0, 0.5) == 1.0 && ShiftedAppreciation(1.0, 1.0) == 1.5
  {
  }

  /** A higher appreciation or calculation level never lowers the weight. */
  lemma ShiftedAppreciationMonotone(a: real, b: real, c: real, d: real)
    requires a <= b && c <= d
    ensures ShiftedAppreciation(a, c) <= ShiftedAppreciation(b, d)
  {
  }

  /** The barrier halfway between the attitudes: 1/2 - (confidence - complacency) / 2. */
  function AverageBarrier(confidence: real, complacency: real): (r: real)
    ensures confidence == complacency ==> r == OneHalf
    ensures 0.0 <= confidence <= 1.0 && 0.0 <= complacency <= 1.0 ==> 0.0 <= r <= 1.0
    ensures confidence > complacency <==> r < OneHalf
  {
    OneHalf - OneHalf * (confidence - complacency)
  }

  /** The barrier as the excess of complacency over confidence. */
  function DifferenceBarrier(confidence: real, complacency: real): (r: real)
    ensures r > 0.0 <==> complacency > confidence
    ensures confidence == complacency ==> r == 0.0
  {
    complacency - confidence
  }

  lemma DifferenceBarrierAntisymmetric(x: real, y: real)
    ensures DifferenceBarrier(x, y) == -DifferenceBarrier(y, x)
  {
  }

  /** The average barrier is the difference barrier mapped from [-1, 1] onto [0, 1]. */
  lemma AverageIsRescaledDifference(confidence: real, complacency: real)
    ensures AverageBarrier(confidence, complacency) == (1.0 + DifferenceBarrier(confidence, complacency)) / 2.0
  {
  }

  /** Two barriers order alike: one attitude has the higher average barrier exactly when it has the higher difference barrier. */
  lemma BarriersOrderAlike(a: real, b: real, c: real, d: real)
    ensures AverageBarrier(a, b) < AverageBarrier(c, d) <==> DifferenceBarrier(a, b) < DifferenceBarrier(c, d)
  {
  }

  function Min(x: real, y: real): real { if y < x then y else x }

  /** The convenience of an occasion is its least favourable factor. */
  function MinimumConvenience(occ: Occasion): (r: real)
    ensures r <= occ.utility && r <= occ.proximity && r <= occ.clarity && r <= occ.affinity
    ensures r == occ.utility || r == occ.proximity || r == occ.clarity || r == occ.affinity
  {
    Min(Min(Min(occ.utility, occ.proximity), occ.clarity), occ.affinity)
  }

  /** Every factor of an occasion at or above a level puts its convenience at or above that level, and conversely. */
  lemma MinimumConvenienceAtLeast(occ: Occasion, level: real)
    ensures MinimumConvenience(occ) >= level <==>
              occ.utility >= level && occ.proximity >= level && occ.clarity >= level && occ.affinity >= level
  {
  }
}

=== FILE: vax_hesitancy_model.dfy ===
/**
 * The vaccine-hesitancy attitude of the agent model: the dimension checks
 * made when an attitude is backed by an appreciation matrix and a position
 * matrix, the in-place rewriting of every cell of a matrix, and the
 * weighted averager that keeps the latest position observed from each
 * source and averages them with its own default position.
 */
module VaxHesitancyModel {
  import opened Wrappers
  import opened WeightedMean
  import VaxHesitancyCore

  /** Actor references; the owner itself is the absent reference. */
  type ActorId = nat

  /** The number of determinant columns a position matrix needs: confidence and complacency. */
  const DeterminantCount: nat := 2

  // ------------------------------------------------------- matrix checks

  /** indexFor: a row index must fit the appreciation matrix (both ways) and the position matrix. */
  function IndexFor(row: int, appreciationRows: nat, appreciationCols: nat, positionRows: nat): (r: Result<int>)
    ensures r.Ok? <==> row < appreciationRows && row < appreciationCols && row < positionRows
    ensures r.Ok? ==> r.value == row
    ensures r.Err? ==> r.error == IndexOutOfBounds
  {
    if row >= appreciationRows || row >= appreciationCols || row >= positionRows then Err(IndexOutOfBounds)
    else Ok(row)
  }

  /**
   * The checks of VaxHesitancy.of: the appreciation columns must match the
   * position rows and the positions need both determinant columns; then the
   * owner's row is located.
   */
  function Of(positionRows: nat, positionCols: nat, appreciationRows: nat, appreciationCols: nat,
              ownerRow: int): (r: Result<int>)
    ensures (r.Err? && r.error == IllegalArgument) <==>
              appreciationCols != positionRows || positionCols < DeterminantCount
    ensures r.Ok? <==> appreciationCols == positionRows && positionCols >= DeterminantCount &&
                       IndexFor(ownerRow, appreciationRows, appreciationCols, positionRows).Ok?
    ensures r.Ok? ==> r.value == ownerRow
  {
    if appreciationCols != positionRows then Err(IllegalArgument)
    else if positionCols < DeterminantCount then Err(IllegalArgument)
    else IndexFor(ownerRow, appreciationRows, appreciationCols, positionRows)
  }

  // ---------------------------------------------------------- MatrixUtil

  /** A dimension count above three, which apply refuses. */
  type HighDimension = n: nat | n > 3 witness 4

  /** A matrix of one, two or three dimensions, or one of more than three dimensions, which apply refuses. */
  datatype Matrix =
    | Vector(v: array<real>)
    | Table(t: array2<real>)
    | Cube(c: array3<real>)
    | Tensor(dimensionCount: HighDimension)

  function Footprint(m: Matrix): set<object>
  {
    match m
    case Vector(v) => {v}
    case Table(t) => {t}
    case Cube(c) => {c}
    case Tensor(_) => {}
  }

  /** MatrixUtil.apply: rewrites every cell in place, or refuses a matrix of more than three dimensions. */
  method Apply(m: Matrix, f: real -> real) returns (r: Result<Matrix>)
    modifies Footprint(m)
    ensures r.Err? <==> m.Tensor?
    ensures r.Err? ==> r.error == UnsupportedOperation
    ensures r.Ok? ==> r.value == m
    ensures m.Vector? ==> forall i :: 0 <= i < m.v.Length ==> m.v[i] == f(old(m.v[i]))
    ensures m.Table? ==> forall i, j :: 0 <= i < m.t.Length0 && 0 <= j < m.t.Length1 ==>
                           m.t[i, j] == f(old(m.t[i, j]))
    ensures m.Cube? ==> forall i, j, k :: 0 <= i < m.c.Length0 && 0 <= j < m.c.Length1 && 0 <= k < m.c.Length2 ==>
                          m.c[i, j, k] == f(old(m.c[i, j, k]))
  {
    if m.Tensor? {
      return Err(UnsupportedOperation);
    } else if m.Vector? {
      ApplyVector(m.v, f);
    } else if m.Table? {
      ApplyTable(m.t, f);
    } else {
      ApplyCube(m.c, f);
    }
    r := Ok(m);
  }

  method ApplyVector(v: array<real>, f: real -> real)
    modifies v
    ensures forall i :: 0 <= i < v.Length ==> v[i] == f(old(v[i]))
  {
    var row := v.Length - 1;
    while row >= 0
      invariant -1 <= row < v.Length
      invariant forall i :: row < i < v.Length ==> v[i] == f(old(v[i]))
      invariant forall i :: 0 <= i <= row ==> v[i] == old(v[i])
    {
      v[row] := f(v[row]);
      row := row - 1;
    }
  }

  method ApplyTable(t: array2<real>, f: real -> real)
    modifies t
    ensures forall i, j :: 0 <= i < t.Length0 && 0 <= j < t.Length1 ==> t[i, j] == f(old(t[i, j]))
  {
    var row := t.Length0 - 1;
    while row >= 0
      invariant -1 <= row < t.Length0
      invariant forall i, j :: row < i < t.Length0 && 0 <= j < t.Length1 ==> t[i, j] == f(old(t[i, j]))
      invariant forall i, j :: 0 <= i <= row && 0 <= j < t.Length1 ==> t[i, j] == old(t[i, j])
    {
      var col := t.Length1 - 1;
      while col >= 0
        invariant -1 <= col < t.Length1
        invariant forall i, j :: row < i < t.Length0 && 0 <= j < t.Length1 ==> t[i, j] == f(old(t[i, j]))
        invariant forall j :: col < j < t.Length1 ==> t[row, j] == f(old(t[row, j]))
        invariant forall j :: 0 <= j <= col ==> t[row, j] == old(t[row, j])
        invariant forall i, j :: 0 <= i < row && 0 <= j < t.Length1 ==> t[i, j] == old(t[i, j])
      {
        t[row, col] := f(t[row, col]);
        col := col - 1;
      }
      row := row - 1;
    }
  }

  method ApplyCube(c: array3<real>, f: real -> real)
    modifies c
    ensures forall i, j, k :: 0 <= i < c.Length0 && 0 <= j < c.Length1 && 0 <= k < c.Length2 ==>
              c[i, j, k] == f(old(c[i, j, k]))
  {
    var row := c.Length0 - 1;
    while row >= 0
      invariant -1 <= row < c.Length0
      invariant forall i, j, k :: row < i < c.Length0 && 0 <= j < c.Length1 && 0 <= k < c.Length2 ==>
                  c[i, j, k] == f(old(c[i, j, k]))
      invariant forall i, j, k :: 0 <= i <= row && 0 <= j < c.Length1 && 0 <= k < c.Length2 ==>
                  c[i, j, k] == old(c[i, j, k])
    {
      ApplyCubeRow(c, f, row);
      row := row - 1;
    }
  }

  /** The two inner loops of apply for one row of a three-dimensional matrix. */
  method ApplyCubeRow(c: array3<real>, f: real -> real, row: int)
    requires 0 <= row < c.Length0
    modifies c
    ensures forall j, k :: 0 <= j < c.Length1 && 0 <= k < c.Length2 ==> c[row, j, k] == f(old(c[row, j, k]))
    ensures forall i, j, k :: 0 <= i < c.Length0 && i != row && 0 <= j < c.Length1 && 0 <= k < c.Length2 ==>
              c[i, j, k] == old(c[i, j, k])
  {
    var col := c.Length1 - 1;
    while col >= 0
      invariant -1 <= col < c.Length1
      invariant forall j, k :: col < j < c.Length1 && 0 <= k < c.Length2 ==> c[row, j, k] == f(old(c[row, j, k]))
      invariant forall j, k :: 0 <= j <= col && 0 <= k < c.Length2 ==> c[row, j, k] == old(c[row, j, k])
      invariant forall i, j, k :: 0 <= i < c.Length0 && i != row && 0 <= j < c.Length1 && 0 <= k < c.Length2 ==>
                  c[i, j, k] == old(c[i, j, k])
    {
      var lev := c.Length2 - 1;
      while lev >= 0
        invariant -1 <= lev < c.Length2
        invariant forall j, k :: col < j < c.Length1 && 0 <= k < c.Length2 ==> c[row, j, k] == f(old(c[row, j, k]))
        invariant forall k :: lev < k < c.Length2 ==> c[row, col, k] == f(old(c[row, col, k]))
        invariant forall k :: 0 <= k <= lev ==> c[row, col, k] == old(c[row, col, k])
        invariant forall j, k :: 0 <= j < col && 0 <= k < c.Length2 ==> c[row, j, k] == old(c[row, j, k])
        invariant forall i, j, k :: 0 <= i < c.Length0 && i != row && 0 <= j < c.Length1 && 0 <= k < c.Length2 ==>
                    c[i, j, k] == old(c[i, j, k])
      {
        c[row, col, lev] := f(c[row, col, lev]);
        lev := lev - 1;
      }
      col := col - 1;
    }
  }

  /** The additions of weightedAddition: each coordinate times the weight, skipped when the weight is zero. */
  method AddScaled(sums: array<real>, weight: real, augend: Position)
    requires sums.Length == 2
    modifies sums
    ensures sums[0] == old(sums[0]) + Weighted(weight, augend, 0)
    ensures sums[1] == old(sums[1]) + Weighted(weight, augend, 1)
  {
    if weight != 0.0 {
      var i := 0;
      while i < sums.Length
        invariant 0 <= i <= sums.Length
        invariant forall j :: 0 <= j < i ==> sums[j] == old(sums[j]) + Weighted(weight, augend, j)
        invariant forall j :: i <= j < sums.Length ==> sums[j] == old(sums[j])
      {
        sums[i] := sums[i] + Weighted(weight, augend, i);
        i := i + 1;
      }
    }
  }

  /**
   * The stream of myPosition over the observed sources, in any order: the
   * sum of the weights and the weighted sums of both coordinates.
   */
  method SumObserved(weight: ActorId -> real, positions: map<ActorId, Position>)
    returns (total: real, sum0: real, sum1: real)
    ensures total == SumOver(positions.Keys, weight)
    ensures sum0 == SumOver(positions.Keys, WeightedCoordinate(weight, positions, 0))
    ensures sum1 == SumOver(positions.Keys, WeightedCoordinate(weight, positions, 1))
  {
    total, sum0, sum1 := 0.0, 0.0, 0.0;
    var remaining := positions.Keys;
    ghost var order: seq<ActorId> := [];
    while remaining != {}
      invariant Visits(order, remaining, positions.Keys)
      invariant total == SumSeq(order, weight)
      invariant sum0 == SumSeq(order, WeightedCoordinate(weight, positions, 0))
      invariant sum1 == SumSeq(order, WeightedCoordinate(weight, positions, 1))
      decreases |remaining|
    {
      var k :| k in remaining;
      VisitsStep(order, remaining, positions.Keys, k);
      ObservedStep(order, weight, positions, k);
      var w := weight(k);
      total := total + w;
      sum0 := sum0 + Weighted(w, positions[k], 0);
      sum1 := sum1 + Weighted(w, positions[k], 1);
      order := order + [k];
      remaining := remaining - {k};
    }
    ObservedSums(order, weight, positions);
  }

  /** The sources visited so far, each once, are the keys not remaining. */
  ghost predicate Visits(order: seq<ActorId>, remaining: set<ActorId>, keys: set<ActorId>)
  {
    && remaining <= keys
    && (forall k :: k in order <==> k in keys && k !in remaining)
    && (forall i, j :: 0 <= i < j < |order| ==> order[i] != order[j])
  }

  /** Visiting one more remaining key keeps the visit order complete and free of repeats. */
  lemma VisitsStep(order: seq<ActorId>, remaining: set<ActorId>, keys: set<ActorId>, k: ActorId)
    requires Visits(order, remaining, keys) && k in remaining
    ensures Visits(order + [k], remaining - {k}, keys)
  {
  }

  /** Visiting one more source adds its weight and its weighted coordinates. */
  lemma ObservedStep(order: seq<ActorId>, weight: ActorId -> real, positions: map<ActorId, Position>, k: ActorId)
    requires k in positions
    ensures SumSeq(order + [k], weight) == SumSeq(order, weight) + weight(k)
    ensures SumSeq(order + [k], WeightedCoordinate(weight, positions, 0)) ==
            SumSeq(order, WeightedCoordinate(weight, positions, 0)) + Weighted(weight(k), positions[k], 0)
    ensures SumSeq(order + [k], WeightedCoordinate(weight, positions, 1)) ==
            SumSeq(order, WeightedCoordinate(weight, positions, 1)) + Weighted(weight(k), positions[k], 1)
  {
    SumSeqStep(order, weight, k);
    SumSeqStep(order, WeightedCoordinate(weight, positions, 0), k);
    SumSeqStep(order, WeightedCoordinate(weight, positions, 1), k);
  }

  /** Once every source is visited exactly once, the sums in visiting order are the sums over the sources. */
  lemma ObservedSums(order: seq<ActorId>, weight: ActorId -> real, positions: map<ActorId, Position>)
    requires forall i, j :: 0 <= i < j < |order| ==> order[i] != order[j]
    requires forall k :: k in order <==> k in positions
    ensures SumSeq(order, weight) == SumOver(positions.Keys, weight)
    ensures SumSeq(order, WeightedCoordinate(weight, positions, 0)) ==
            SumOver(positions.Keys, WeightedCoordinate(weight, positions, 0))
    ensures SumSeq(order, WeightedCoordinate(weight, positions, 1)) ==
            SumOver(positions.Keys, WeightedCoordinate(weight, positions, 1))
  {
    assert Elements(order) == positions.Keys;
    SumSeqSumOver(order, weight);
    SumSeqSumOver(order, WeightedCoordinate(weight, positions, 0));
    SumSeqSumOver(order, WeightedCoordinate(weight, positions, 1));
  }

  /**
   * The computation of myPosition: the default position added with its own
   * weight, every observed position with its source's weight, and the sums
   * divided by the total weight unless that is zero.
   */
  method Average(own: Position, ownWeight: real, weight: ActorId -> real, positions: map<ActorId, Position>)
    returns (p: Position)
    ensures p == Mean(own, ownWeight, weight, positions)
  {
    var sums := new real[2](_ => 0.0);
    AddScaled(sums, ownWeight, own);
    var total, sum0, sum1 := SumObserved(weight, positions);
    MeanOfSums(own, ownWeight, weight, positions, total, sum0, sum1);
    sums[0], sums[1] := sums[0] + sum0, sums[1] + sum1;
    var w := ownWeight + total;
    if w == 0.0 {
      p := own;
    } else {
      p := Position(sums[0] / w, sums[1] / w);
    }
  }

  // ----------------------------------------------------- WeightedAverager

  /** The weight of every observed source, given the appreciation of each and the calculation level. */
  function SourceWeights(appreciator: Option<ActorId> -> real, calculation: real): ActorId -> real
  {
    (k: ActorId) => var ref: Option<ActorId> := Some(k); VaxHesitancyCore.ShiftedAppreciation(appreciator(ref), calculation)
  }

  /**
   * Averages its own default position and the latest position observed per
   * source, each weighted by the appreciation weight; the result is cached
   * until the next observation or change of calculation level.
   */
  class WeightedAverager {
    /** The appreciation of a source; None asks for the owner's own. */
    const appreciator: Option<ActorId> -> real
    /** The convenience of an occasion. */
    const evaluator: VaxHesitancyCore.Occasion -> real
    const myDefault: Position
    var positions: map<ActorId, Position>
    var calculation: real
    var myPosition: Option<Position>

    /** appreciationWeight: the appreciation shifted by the calculation level less one half, never negative. */
    function AppreciationWeight(ref: Option<ActorId>): (w: real)
      reads this`calculation
      ensures w >= 0.0
      ensures w > 0.0 <==> appreciator(ref) - VaxHesitancyCore.OneHalf + calculation > 0.0
      ensures w > 0.0 ==> w == appreciator(ref) - VaxHesitancyCore.OneHalf + calculation
    {
      VaxHesitancyCore.ShiftedAppreciation(appreciator(ref), calculation)
    }

    /** The position the averager stands for: the weighted mean of its default and the observed positions. */
    ghost function Current(): Position
      reads this`positions, this`calculation
    {
      Mean(myDefault, AppreciationWeight(None), SourceWeights(appreciator, calculation), positions)
    }

    ghost predicate Valid()
      reads this
    {
      myPosition.Some? ==> myPosition.value == Current()
    }

    constructor (myConfidence: real, myComplacency: real, myCalculation: real,
                 appreciator: Option<ActorId> -> real, evaluator: VaxHesitancyCore.Occasion -> real)
      ensures Valid()
      ensures this.appreciator == appreciator && this.evaluator == evaluator
      ensures myDefault == Position(myConfidence, myComplacency) && calculation == myCalculation
      ensures positions == map[] && myPosition == None
    {
      this.appreciator := appreciator;
      this.evaluator := evaluator;
      myDefault := Position(myConfidence, myComplacency);
      calculation := myCalculation;
      positions := map[];
      myPosition := None;
    }

    /** setCalculation: a new calculation level drops the cached position. */
    method SetCalculation(c: real)
      modifies this
      ensures Valid()
      ensures calculation == c && positions == old(positions) && myPosition == None
    {
      calculation := c;
      myPosition := None;
    }

    /** observe: the source's latest position replaces any earlier one, and the cache is dropped. */
    method Observe(ref: ActorId, confidence: real, complacency: real)
      modifies this
      ensures Valid()
      ensures positions == old(positions)[ref := Position(confidence, complacency)]
      ensures calculation == old(calculation) && myPosition == None
    {
      positions := positions[ref := Position(confidence, complacency)];
      myPosition := None;
    }

    /** observeRisk: perceived risks become the opposite position, one minus each risk. */
    method ObserveRisk(ref: ActorId, vaccineRisk: real, diseaseRisk: real)
      modifies this
      ensures Valid()
      ensures positions == old(positions)[ref := Position(1.0 - vaccineRisk, 1.0 - diseaseRisk)]
      ensures calculation == old(calculation) && myPosition == None
    {
      Observe(ref, VaxHesitancyCore.Opposite(vaccineRisk), VaxHesitancyCore.Opposite(diseaseRisk));
    }

    /**
     * myPosition: the cached position, or else the weighted mean computed
     * over the default and every observed source, visited in any order.
     */
    method MyPosition() returns (p: Position)
      requires Valid()
      modifies this
      ensures Valid() && p == Current() && myPosition == Some(p)
      ensures positions == old(positions) && calculation == old(calculation)
    {
      if myPosition.Some? {
        return myPosition.value;
      }
      var ownWeight := AppreciationWeight(None);
      p := Average(myDefault, ownWeight, SourceWeights(appreciator, calculation), positions);
      myPosition := Some(p);
    }

    method GetConfidence() returns (r: real)
      requires Valid()
      modifies this
      ensures Valid() && r == Current().confidence
      ensures positions == old(positions) && calculation == old(calculation)
    {
      var p := MyPosition();
      r := p.confidence;
    }

    method GetComplacency() returns (r: real)
      requires Valid()
      modifies this
      ensures Valid() && r == Current().complacency
      ensures positions == old(positions) && calculation == old(calculation)
    {
      var p := MyPosition();
      r := p.complacency;
    }

    /** isPositive: the margin of confidence over complacency exceeds the occasion's convenience. */
    method IsPositive(occ: VaxHesitancyCore.Occasion) returns (r: bool)
      requires Valid()
      modifies this
      ensures Valid() && (r <==> Current().confidence - Current().complacency > evaluator(occ))
      ensures positions == old(positions) && calculation == old(calculation)
    {
      var confidence := GetConfidence();
      var complacency := GetComplacency();
      r := confidence - complacency > evaluator(occ);
    }

    /** The averaged position lies within [0, 1] whenever the default and every observed position do. */
    lemma CurrentWithinUnit()
      requires 0.0 <= myDefault.confidence <= 1.0 && 0.0 <= myDefault.complacency <= 1.0
      requires forall k :: k in positions ==>
                 0.0 <= positions[k].confidence <= 1.0 && 0.0 <= positions[k].complacency <= 1.0
      ensures 0.0 <= Current().confidence <= 1.0 && 0.0 <= Current().complacency <= 1.0
    {
      var weight := SourceWeights(appreciator, calculation);
      forall k | k in positions ensures weight(k) >= 0.0 {
        var ref: Option<ActorId> := Some(k);
        assert weight(k) == AppreciationWeight(ref);
      }
      MeanWithin(myDefault, AppreciationWeight(None), weight, positions, 0, 0.0, 1.0);
      MeanWithin(myDefault, AppreciationWeight(None), weight, positions, 1, 0.0, 1.0);
    }

    /** When no appreciation clears the calculation threshold, the averager keeps its default position. */
    lemma CurrentWithoutWeight()
      requires AppreciationWeight(None) == 0.0
      requires forall k :: k in positions ==> AppreciationWeight(Some(k)) == 0.0
      ensures Current() == myDefault
    {
      MeanOfZeroWeights(myDefault, SourceWeights(appreciator, calculation), positions);
    }
  }

  /** The default evaluator: the least favourable factor of the occasion. */
  function DefaultEvaluator(): (f: VaxHesitancyCore.Occasion -> real)
    ensures forall occ :: f(occ) <= occ.utility && f(occ) <= occ.proximity && f(occ) <= occ.clarity && f(occ) <= occ.affinity
    ensures forall occ :: f(occ) in {occ.utility, occ.proximity, occ.clarity, occ.affinity}
  {
    occ => VaxHesitancyCore.MinimumConvenience(occ)
  }

  /** The default appreciator: every source, the owner included, is appreciated fully. */
  function DefaultAppreciator(): (f: Option<ActorId> -> real)
    ensures forall ref :: f(ref) == 1.0
  {
    _ => 1.0
  }

  /** With the default appreciator and a calculation level of at least zero, every position carries weight. */
  lemma DefaultAppreciatorWeighsAll(ref: Option<ActorId>, calculation: real)
    requires calculation >= 0.0
    ensures VaxHesitancyCore.ShiftedAppreciation(DefaultAppreciator()(ref), calculation) == 0.5 + calculation
  {
  }
}

=== FILE: vax_hesitant.dfy ===
/**
 * The "4C" attitude of a vaccine-hesitant individual (Betsch et al., 2015):
 * the default convenience of an occasion, the appreciation weight of a
 * source, and the weighted averager that remembers the latest risks
 * perceived from each other individual and averages them, as positions,
 * with its own default position.
 */
module VaxHesitant {
  import opened Wrappers
  import opened WeightedMean
  import VaxHesitancyCore
  import VaxHesitancyModel

  type ActorId = VaxHesitancyModel.ActorId

  /** getConvenience: by default the least favourable of the occasion's four factors. */
  function Convenience(occ: VaxHesitancyCore.Occasion): (r: real)
    ensures r <= occ.utility && r <= occ.proximity && r <= occ.clarity && r <= occ.affinity
    ensures r == occ.utility || r == occ.proximity || r == occ.clarity || r == occ.affinity
  {
    VaxHesitancyCore.MinimumConvenience(occ)
  }

  /** appreciationWeight: the appreciation less one half plus the calculation level, or zero when that is negative. */
  function AppreciationWeight(appreciation: real, calculation: real): (w: real)
    ensures w >= 0.0
    ensures w > 0.0 <==> appreciation - VaxHesitancyCore.OneHalf + calculation > 0.0
    ensures w > 0.0 ==> w == appreciation - VaxHesitancyCore.OneHalf + calculation
  {
    VaxHesitancyCore.ShiftedAppreciation(appreciation, calculation)
  }

  /** toPosition: the perceived risks of the vaccine and the disease become confidence and complacency, their opposites. */
  function ToPosition(vaccineRisk: real, diseaseRisk: real): (p: Position)
    ensures VaxHesitancyCore.Opposite(p.confidence) == vaccineRisk
    ensures VaxHesitancyCore.Opposite(p.complacency) == diseaseRisk
  {
    Position(VaxHesitancyCore.Opposite(vaccineRisk), VaxHesitancyCore.Opposite(diseaseRisk))
  }

  /** Risks within [0, 1] give a position within [0, 1]. */
  lemma ToPositionWithinUnit(vaccineRisk: real, diseaseRisk: real)
    requires 0.0 <= vaccineRisk <= 1.0 && 0.0 <= diseaseRisk <= 1.0
    ensures 0.0 <= ToPosition(vaccineRisk, diseaseRisk).confidence <= 1.0
    ensures 0.0 <= ToPosition(vaccineRisk, diseaseRisk).complacency <= 1.0
  {
  }

  /** The weight of every source, its reputation shifted by the calculation level. */
  function ReputedWeights(reputer: ActorId -> real, calculation: real): ActorId -> real
  {
    (k: ActorId) => AppreciationWeight(reputer(k), calculation)
  }

  /**
   * Averages its own default position and the latest position derived from
   * each other individual's perceived risks, each weighted by the
   * appreciation weight of its source; the owner is weighed by its own
   * reputation. The result is cached until the next observation or change
   * of calculation level.
   */
  class WeightedAverager {
    const myRef: ActorId
    /** The reputation of an individual, the owner included. */
    const reputer: ActorId -> real
    const myDefault: Position
    var positions: map<ActorId, Position>
    var calculation: real
    var myPosition: Option<Position>

    /** The weight of one individual's position at the current calculation level. */
    function Weight(ref: ActorId): (w: real)
      reads this`calculation
      ensures w >= 0.0
      ensures w > 0.0 <==> reputer(ref) - VaxHesitancyCore.OneHalf + calculation > 0.0
    {
      AppreciationWeight(reputer(ref), calculation)
    }

    /** The position the averager stands for: the weighted mean of its default and the observed positions. */
    ghost function Current(): Position
      reads this`positions, this`calculation
    {
      Mean(myDefault, Weight(myRef), ReputedWeights(reputer, calculation), positions)
    }

    /** The owner never observes itself, and a cached position is the current one. */
    ghost predicate Valid()
      reads this`positions, this`calculation, this`myPosition
    {
      && myRef !in positions
      && (myPosition.Some? ==> myPosition.value == Current())
    }

    /** The constructor with a reputer: the default position comes from the owner's own perceived risks. */
    constructor (myRef: ActorId, myVaccineRisk: real, myDiseaseRisk: real, myCalculation: real,
                 reputer: ActorId -> real)
      ensures Valid()
      ensures this.myRef == myRef && this.reputer == reputer
      ensures myDefault == ToPosition(myVaccineRisk, myDiseaseRisk) && calculation == myCalculation
      ensures positions == map[] && myPosition == None
    {
      this.myRef := myRef;
      this.reputer := reputer;
      myDefault := ToPosition(myVaccineRisk, myDiseaseRisk);
      calculation := myCalculation;
      positions := map[];
      myPosition := None;
    }

    /** The constructor without a reputer: every individual has reputation one. */
    constructor Uniform(myRef: ActorId, myVaccineRisk: real, myDiseaseRisk: real, myCalculation: real)
      ensures Valid()
      ensures this.myRef == myRef && forall ref :: reputer(ref) == 1.0
      ensures myDefault == ToPosition(myVaccineRisk, myDiseaseRisk) && calculation == myCalculation
      ensures positions == map[] && myPosition == None
    {
      this.myRef := myRef;
      reputer := _ => 1.0;
      myDefault := ToPosition(myVaccineRisk, myDiseaseRisk);
      calculation := myCalculation;
      positions := map[];
      myPosition := None;
    }

    /** setCalculation: a new calculation level drops the cached position. */
    method SetCalculation(c: real)
      requires Valid()
      modifies this
      ensures Valid()
      ensures calculation == c && positions == old(positions) && myPosition == None
    {
      calculation := c;
      myPosition := None;
    }

    /**
     * observe: another individual's perceived risks replace any earlier
     * position from that individual and drop the cache; the owner itself is
     * refused and nothing changes.
     */
    method Observe(ref: ActorId, vaccineRisk: real, diseaseRisk: real) returns (r: Result<()>)
      requires Valid()
      modifies this
      ensures Valid()
      ensures r.Err? <==> ref == myRef
      ensures r.Err? ==> r.error == IllegalArgument
      ensures r.Err? ==> positions == old(positions) && myPosition == old(myPosition)
      ensures r.Ok? ==> positions == old(positions)[ref := ToPosition(vaccineRisk, diseaseRisk)] && myPosition == None
      ensures calculation == old(calculation)
    {
      if ref == myRef {
        return Err(IllegalArgument);
      }
      positions := positions[ref := ToPosition(vaccineRisk, diseaseRisk)];
      myPosition := None;
      r := Ok(());
    }

    /**
     * myPosition: the cached position, or else the weighted mean computed
     * over the default and every observed individual.
     */
    method MyPosition() returns (p: Position)
      requires Valid()
      modifies this
      ensures Valid() && p == Current() && myPosition == Some(p)
      ensures positions == old(positions) && calculation == old(calculation)
    {
      if myPosition.Some? {
        return myPosition.value;
      }
      var ownWeight := Weight(myRef);
      p := VaxHesitancyModel.Average(myDefault, ownWeight, ReputedWeights(reputer, calculation), positions);
      myPosition := Some(p);
    }

    method GetConfidence() returns (r: real)
      requires Valid()
      modifies this
      ensures Valid() && r == Current().confidence
      ensures positions == old(positions) && calculation == old(calculation)
    {
      var p := MyPosition();
      r := p.confidence;
    }

    method GetComplacency() returns (r: real)
      requires Valid()
      modifies this
      ensures Valid() && r == Current().complacency
      ensures positions == old(positions) && calculation == old(calculation)
    {
      var p := MyPosition();
      r := p.complacency;
    }

    /** Risks within [0, 1], the owner's and every observed one, give a confidence and complacency within [0, 1]. */
    lemma CurrentWithinUnit()
      requires 0.0 <= myDefault.confidence <= 1.0 && 0.0 <= myDefault.complacency <= 1.0
      requires forall k :: k in positions ==>
                 0.0 <= positions[k].confidence <= 1.0 && 0.0 <= positions[k].complacency <= 1.0
      ensures 0.0 <= Current().confidence <= 1.0 && 0.0 <= Current().complacency <= 1.0
    {
      var weight := ReputedWeights(reputer, calculation);
      forall k | k in positions ensures weight(k) >= 0.0 {
        assert weight(k) == Weight(k);
      }
      MeanWithin(myDefault, Weight(myRef), weight, positions, 0, 0.0, 1.0);
      MeanWithin(myDefault, Weight(myRef), weight, positions, 1, 0.0, 1.0);
    }

    /** When no reputation clears the calculation threshold, the default position carries all the weight. */
    lemma CurrentWithoutWeight()
      requires Weight(myRef) == 0.0
      requires forall k :: k in positions ==> Weight(k) == 0.0
      ensures Current() == myDefault
    {
      MeanOfZeroWeights(myDefault, ReputedWeights(reputer, calculation), positions);
    }

    /** When every observed individual perceives the owner's own risks, the position is the default. */
    lemma CurrentOfLikeMinded()
      requires forall k :: k in positions ==> positions[k] == myDefault
      ensures Current() == myDefault
    {
      var weight := ReputedWeights(reputer, calculation);
      forall k | k in positions ensures weight(k) >= 0.0 {
        assert weight(k) == Weight(k);
      }
      MeanOfAgreeingPositions(myDefault, Weight(myRef), weight, positions);
    }
  }
}

=== FILE: weighted_mean.dfy ===
/**
 * The weighted mean behind both attitude averagers: an individual's own
 * default position and the latest position observed from each source are
 * averaged, each weighted by an appreciation weight; when every weight is
 * zero the default position stands. Sums over the observed sources do not
 * depend on the order in which the sources are visited.
 */
module WeightedMean {

  /** A position: confidence (index 0 in the source's arrays) and complacency (index 1). */
  datatype Position = Position(confidence: real, complacency: real)

  function Coordinate(p: Position, i: nat): real
    requires i < 2
  {
    if i == 0 then p.confidence else p.complacency
  }

  /** Some element of a non-empty set. */
  ghost function Pick<K>(s: set<K>): (k: K)
    requires s != {}
    ensures k in s
  {
    var k :| k in s; k
  }

  /** The sum of f over a finite set, visiting its elements in an arbitrary order. */
  ghost function SumOver<K>(s: set<K>, f: K -> real): real
    decreases |s|
  {
    if s == {} then 0.0
    else
      var k := Pick(s);
      f(k) + SumOver(s - {k}, f)
  }

  /** Any element can be taken out of the sum first, so the visiting order does not matter. */
  lemma {:induction false} SumOverRemove<K>(s: set<K>, f: K -> real, k: K)
    requires k in s
    ensures SumOver(s, f) == f(k) + SumOver(s - {k}, f)
    decreases |s|
  {
    var j := Pick(s);
    if j != k {
      SumOverRemove(s - {j}, f, k);
      SumOverRemove(s - {k}, f, j);
      assert s - {j} - {k} == s - {k} - {j};
    }
  }

  /** The elements of a visiting order. */
  ghost function Elements<K>(order: seq<K>): set<K>
  {
    set k | k in order
  }

  /** The sum of f over the elements in the order they were visited. */
  ghost function SumSeq<K>(order: seq<K>, f: K -> real): real
  {
    if order == [] then 0.0 else SumSeq(order[..|order| - 1], f) + f(order[|order| - 1])
  }

  /** Visiting one more element adds its term. */
  lemma SumSeqStep<K>(order: seq<K>, f: K -> real, k: K)
    ensures SumSeq(order + [k], f) == SumSeq(order, f) + f(k)
  {
    assert (order + [k])[..|order|] == order;
  }

  /** Visiting the elements of a set once each, in any order, sums the same as the set. */
  lemma {:induction false} SumSeqSumOver<K>(order: seq<K>, f: K -> real)
    requires forall i, j :: 0 <= i < j < |order| ==> order[i] != order[j]
    ensures SumSeq(order, f) == SumOver(Elements(order), f)
    decreases |order|
  {
    if order != [] {
      var last := order[|order| - 1];
      var init := order[..|order| - 1];
      SumSeqSumOver(init, f);
      assert Elements(order) == Elements(init) + {last};
      SumOverAdd(Elements(init), f, last);
    }
  }

  /** Adding one element to a sum adds its term. */
  lemma SumOverAdd<K>(s: set<K>, f: K -> real, k: K)
    requires k !in s
    ensures SumOver(s + {k}, f) == SumOver(s, f) + f(k)
  {
    SumOverRemove(s + {k}, f, k);
    assert s + {k} - {k} == s;
  }

  /** The elements of a finite set, each once, in the order Pick takes them out. */
  ghost function Enumerate<K>(s: set<K>): (order: seq<K>)
    ensures forall i, j :: 0 <= i < j < |order| ==> order[i] != order[j]
    ensures Elements(order) == s
    decreases |s|
  {
    if s == {} then []
    else
      var k := Pick(s);
      var rest := Enumerate(s - {k});
      assert Elements(rest + [k]) == Elements(rest) + {k};
      rest + [k]
  }

  /** Every term of w times the constant c. */
  function Scaled<K>(c: real, w: K -> real): K -> real
  {
    k => c * w(k)
  }

  /** A constant factor can be taken out of a sum in visiting order. */
  lemma {:induction false} SumSeqScaled<K>(order: seq<K>, c: real, w: K -> real)
    ensures SumSeq(order, Scaled(c, w)) == c * SumSeq(order, w)
    decreases |order|
  {
    if order != [] {
      var init := order[..|order| - 1];
      SumSeqScaled(init, c, w);
      Distribute(c, SumSeq(init, w), w(order[|order| - 1]));
    }
  }

  /** A constant factor can be taken out of a sum over a set. */
  lemma SumOverScaled<K>(s: set<K>, c: real, w: K -> real)
    ensures SumOver(s, Scaled(c, w)) == c * SumOver(s, w)
  {
    var order := Enumerate(s);
    SumSeqSumOver(order, Scaled(c, w));
    SumSeqSumOver(order, w);
    SumSeqScaled(order, c, w);
  }

  /** A sum of terms each at most the matching term of another is at most that sum. */
  lemma {:induction false} SumOverMonotone<K>(s: set<K>, f: K -> real, g: K -> real)
    requires forall k :: k in s ==> f(k) <= g(k)
    ensures SumOver(s, f) <= SumOver(s, g)
    decreases |s|
  {
    if s != {} {
      var k := Pick(s);
      SumOverMonotone(s - {k}, f, g);
    }
  }

  /** Terms at least lo times their weights give a sum at least lo times the total weight. */
  lemma SumOverLower<K>(s: set<K>, f: K -> real, w: K -> real, lo: real)
    requires forall k :: k in s ==> lo * w(k) <= f(k)
    ensures lo * SumOver(s, w) <= SumOver(s, f)
  {
    SumOverMonotone(s, Scaled(lo, w), f);
    SumOverScaled(s, lo, w);
  }

  /** Terms at most hi times their weights give a sum at most hi times the total weight. */
  lemma SumOverUpper<K>(s: set<K>, f: K -> real, w: K -> real, hi: real)
    requires forall k :: k in s ==> f(k) <= hi * w(k)
    ensures SumOver(s, f) <= hi * SumOver(s, w)
  {
    SumOverMonotone(s, f, Scaled(hi, w));
    SumOverScaled(s, hi, w);
  }

  lemma Distribute(c: real, x: real, y: real)
    ensures c * (x + y) == c * x + c * y
  {
  }

  /** A sum of non-negative terms is non-negative. */
  lemma {:induction false} SumOverNonNegative<K>(s: set<K>, f: K -> real)
    requires forall k :: k in s ==> f(k) >= 0.0
    ensures SumOver(s, f) >= 0.0
    decreases |s|
  {
    if s != {} {
      var k :| k in s;
      SumOverRemove(s, f, k);
      SumOverNonNegative(s - {k}, f);
    }
  }

  /** Coordinate i of a position times its weight. */
  function Weighted(weight: real, p: Position, i: nat): real
    requires i < 2
  {
    weight * Coordinate(p, i)
  }

  /** The term of one source in the weighted sum of coordinate i. */
  function WeightedCoordinate<K>(weight: K -> real, positions: map<K, Position>, i: nat): K -> real
    requires i < 2
  {
    k => if k in positions then Weighted(weight(k), positions[k], i) else 0.0
  }

  /** The total weight: the owner's weight plus the weight of every observed source. */
  ghost function TotalWeight<K>(ownWeight: real, weight: K -> real, positions: map<K, Position>): real
  {
    ownWeight + SumOver(positions.Keys, weight)
  }

  /** The weighted sum of coordinate i over the default and every observed position. */
  ghost function WeightedSum<K>(own: Position, ownWeight: real, weight: K -> real,
                                positions: map<K, Position>, i: nat): real
    requires i < 2
  {
    Weighted(ownWeight, own, i) + SumOver(positions.Keys, WeightedCoordinate(weight, positions, i))
  }

  /** The averaged position: the default when the weights sum to zero, else the weighted mean. */
  ghost function Mean<K>(own: Position, ownWeight: real, weight: K -> real, positions: map<K, Position>): Position
  {
    var w := TotalWeight(ownWeight, weight, positions);
    if w == 0.0 then own
    else Position(WeightedSum(own, ownWeight, weight, positions, 0) / w,
                  WeightedSum(own, ownWeight, weight, positions, 1) / w)
  }

  /** The final step of the average: the default when the total weight is zero, else each sum over the total. */
  function Divide(own: Position, total: real, sum0: real, sum1: real): Position
  {
    if total == 0.0 then own else Position(sum0 / total, sum1 / total)
  }

  /** The mean from the owner's weighted default and the sums over the sources. */
  lemma MeanOfSums<K>(own: Position, ownWeight: real, weight: K -> real, positions: map<K, Position>,
                      total: real, sum0: real, sum1: real)
    requires total == SumOver(positions.Keys, weight)
    requires sum0 == SumOver(positions.Keys, WeightedCoordinate(weight, positions, 0))
    requires sum1 == SumOver(positions.Keys, WeightedCoordinate(weight, positions, 1))
    ensures Mean(own, ownWeight, weight, positions) ==
            Divide(own, ownWeight + total, Weighted(ownWeight, own, 0) + sum0, Weighted(ownWeight, own, 1) + sum1)
  {
  }

  /** Non-negative weights make a non-negative total, which is zero only when every weight is zero. */
  lemma TotalWeightNonNegative<K>(ownWeight: real, weight: K -> real, positions: map<K, Position>)
    requires ownWeight >= 0.0 && forall k :: k in positions ==> weight(k) >= 0.0
    ensures TotalWeight(ownWeight, weight, positions) >= ownWeight
  {
    SumOverNonNegative(positions.Keys, weight);
  }

  /** When neither the owner nor any source carries weight, the average is the default position. */
  lemma MeanOfZeroWeights<K>(own: Position, weight: K -> real, positions: map<K, Position>)
    requires forall k :: k in positions ==> weight(k) == 0.0
    ensures Mean(own, 0.0, weight, positions) == own
  {
    SumOverUpper(positions.Keys, weight, weight, 0.0);
    SumOverLower(positions.Keys, weight, weight, 0.0);
  }

  lemma MulBounds(w: real, c: real, lo: real, hi: real)
    requires w >= 0.0 && lo <= c <= hi
    ensures lo * w <= w * c <= hi * w
  {
  }

  lemma DivBounds(s: real, w: real, lo: real, hi: real)
    requires w > 0.0 && lo * w <= s <= hi * w
    ensures lo <= s / w <= hi
  {
  }

  /** The owner's term joins the bound on the sources' terms. */
  lemma CombineLower(ownWeight: real, c: real, terms: real, weights: real, lo: real)
    requires ownWeight >= 0.0 && lo <= c && lo * weights <= terms
    ensures lo * (ownWeight + weights) <= ownWeight * c + terms
  {
    MulBounds(ownWeight, c, lo, c);
    Distribute(lo, ownWeight, weights);
  }

  lemma CombineUpper(ownWeight: real, c: real, terms: real, weights: real, hi: real)
    requires ownWeight >= 0.0 && c <= hi && terms <= hi * weights
    ensures ownWeight * c + terms <= hi * (ownWeight + weights)
  {
    MulBounds(ownWeight, c, c, hi);
    Distribute(hi, ownWeight, weights);
  }

  /** Coordinate i of every position, the default included, lies within [lo, hi]. */
  ghost predicate AllWithin<K>(own: Position, positions: map<K, Position>, i: nat, lo: real, hi: real)
    requires i < 2
  {
    lo <= Coordinate(own, i) <= hi &&
    forall k :: k in positions ==> lo <= Coordinate(positions[k], i) <= hi
  }

  /** The weighted sum of coordinate i is at least lo times the total weight. */
  lemma WeightedSumLower<K>(own: Position, ownWeight: real, weight: K -> real, positions: map<K, Position>,
                            i: nat, lo: real)
    requires i < 2
    requires ownWeight >= 0.0 && forall k :: k in positions ==> weight(k) >= 0.0
    requires lo <= Coordinate(own, i) && forall k :: k in positions ==> lo <= Coordinate(positions[k], i)
    ensures lo * TotalWeight(ownWeight, weight, positions) <= WeightedSum(own, ownWeight, weight, positions, i)
  {
    var f := WeightedCoordinate(weight, positions, i);
    forall k | k in positions.Keys ensures lo * weight(k) <= f(k) {
      MulBounds(weight(k), Coordinate(positions[k], i), lo, Coordinate(positions[k], i));
    }
    SumOverLower(positions.Keys, f, weight, lo);
    CombineLower(ownWeight, Coordinate(own, i), SumOver(positions.Keys, f), SumOver(positions.Keys, weight), lo);
  }

  /** The weighted sum of coordinate i is at most hi times the total weight. */
  lemma WeightedSumUpper<K>(own: Position, ownWeight: real, weight: K -> real, positions: map<K, Position>,
                            i: nat, hi: real)
    requires i < 2
    requires ownWeight >= 0.0 && forall k :: k in positions ==> weight(k) >= 0.0
    requires Coordinate(own, i) <= hi && forall k :: k in positions ==> Coordinate(positions[k], i) <= hi
    ensures WeightedSum(own, ownWeight, weight, positions, i) <= hi * TotalWeight(ownWeight, weight, positions)
  {
    var f := WeightedCoordinate(weight, positions, i);
    forall k | k in positions.Keys ensures f(k) <= hi * weight(k) {
      MulBounds(weight(k), Coordinate(positions[k], i), Coordinate(positions[k], i), hi);
    }
    SumOverUpper(positions.Keys, f, weight, hi);
    CombineUpper(ownWeight, Coordinate(own, i), SumOver(positions.Keys, f), SumOver(positions.Keys, weight), hi);
  }

  /**
   * With non-negative weights the average is a convex combination: each
   * coordinate stays within any bounds that hold for the default and every
   * observed position.
   */
  lemma MeanWithin<K>(own: Position, ownWeight: real, weight: K -> real, positions: map<K, Position>,
                      i: nat, lo: real, hi: real)
    requires i < 2
    requires ownWeight >= 0.0 && forall k :: k in positions ==> weight(k) >= 0.0
    requires AllWithin(own, positions, i, lo, hi)
    ensures lo <= Coordinate(Mean(own, ownWeight, weight, positions), i) <= hi
  {
    var w := TotalWeight(ownWeight, weight, positions);
    TotalWeightNonNegative(ownWeight, weight, positions);
    if w != 0.0 {
      WeightedSumLower(own, ownWeight, weight, positions, i, lo);
      WeightedSumUpper(own, ownWeight, weight, positions, i, hi);
      DivBounds(WeightedSum(own, ownWeight, weight, positions, i), w, lo, hi);
      assert Coordinate(Mean(own, ownWeight, weight, positions), i) == WeightedSum(own, ownWeight, weight, positions, i) / w;
    }
  }

  /** When every observed position equals the default, the average is the default. */
  lemma MeanOfAgreeingPositions<K>(own: Position, ownWeight: real, weight: K -> real, positions: map<K, Position>)
    requires ownWeight >= 0.0 && forall k :: k in positions ==> weight(k) >= 0.0
    requires forall k :: k in positions ==> positions[k] == own
    ensures Mean(own, ownWeight, weight, positions) == own
  {
    var m := Mean(own, ownWeight, weight, positions);
    MeanWithin(own, ownWeight, weight, positions, 0, own.confidence, own.confidence);
    MeanWithin(own, ownWeight, weight, positions, 1, own.complacency, own.complacency);
    assert Coordinate(m, 0) == own.confidence && Coordinate(m, 1) == own.complacency;
  }
}

=== FILE: wrappers.dfy ===
/**
 * Option and Result, the two wrappers every other module uses: a Java
 * reference that may be null becomes an Option, and a call that may throw
 * becomes a Result whose error names the exception class it throws.
 */
module Wrappers {

  datatype Option<T> = None | Some(value: T)

  /** The Java exception classes the modelled code throws. */
  datatype Thrown =
    | IllegalState          // java.lang.IllegalStateException
    | IllegalArgument       // java.lang.IllegalArgumentException
    | NullPointer           // java.lang.NullPointerException
    | IndexOutOfBounds      // ArrayIndexOutOfBounds-, StringIndexOutOfBounds- and IndexOutOfBoundsException
    | NumberFormat          // java.lang.NumberFormatException
    | DateTime              // java.time.DateTimeException
    | UnsupportedOperation  // java.lang.UnsupportedOperationException
    | Unchecked             // the unchecked exception io.coala's ExceptionFactory.createUnchecked builds

  datatype Result<T> = Ok(value: T) | Err(error: Thrown)
}
